=== FILE: README.md ===
# Hotel booking system: a verified model of its core

This project models the core of a hotel booking system (a NestJS API over a
Postgres/Prisma store with a Redis cache and a Socket.IO gateway, plus a
Next.js client) and proves properties of that model. It covers:

- **booking transactions**: creating a booking under the room's lock, admin
  status changes and deletion that may release the room, and the payment stub;
- **room administration**: the admin room list and its status counts,
  creating and updating rooms, the realtime notification and cache
  invalidation after each mutation, and the status normalisation of the room
  routes;
- **the realtime gateway**: token extraction from the handshake, connect-time
  authentication, `room:<id>` topics and the `room:update` broadcasts;
- **one-time-password login**: the `otp:<email>` slot, attempt counting,
  lock-out and single use;
- **hotel search and detail**: the list filters, starting price, the
  availability filter for a stay, and the controller's query validation;
- **the web client**: the realtime resync hook, the toast, auth and location
  stores, the post-login redirect, e-mail masking and the HTTP client's
  interceptors and error-message choice.

Conventions of the model:

- The database is a `Store.Database` object holding one map per table.
  Each transaction is one atomic method.
- Money is integer cents. Dates are integer milliseconds. A date that does
  not parse is `None`.
- Oracles are parameters: generated ids, the random OTP draw, the JWT signer
  and verifier, the mail outcome, the date parser and the toast id.
- Each in-place update of the source (the store, the socket server's
  membership, the Zustand stores, session storage, the request config) is a
  class whose methods state the whole new state. The pure parts are
  functions with lemmas beside them.

The files follow the source: `bookings.dfy`, `rooms.dfy`,
`rooms_controller.dfy`, `realtime.dfy`, `auth.dfy`, `hotels.dfy` and
`hotels_controller.dfy` for the API; `use_room_realtime.dfy`,
`toast_store.dfy`, `auth_store.dfy`, `location_store.dfy`,
`auth_redirect.dfy`, `auth_utils.dfy` and `api_client.dfy` for the client.
`store.dfy`, `redis.dfy`, `strings.dfy` and `wrappers.dfy` hold what they
share.

### Behaviour of the code that the model keeps

- **Back-to-back stays are refused.** Stays that meet end to start do not
  overlap under the half-open test (`Bookings.BackToBackDoNotOverlap`), so
  the overlap query alone would accept them. But the first booking leaves
  the room RESERVED, and every later booking of that room fails at the
  status check with "Room is not available", whatever its dates
  (`Bookings.SecondBookingRefused`, `Bookings.HeldRoomRefusesBooking`).
  The overlap query alone would accept them; it is the status check that
  refuses them.
- **Reactivation is not re-checked.** The admin status route does not
  re-run the overlap query, so setting a cancelled booking back to CONFIRMED
  can double-book its room (`Bookings.ReactivationCanDoubleBook`).
- **Release ignores maintenance.** Release runs after every cancel or
  delete. It does not look at the room's status, so an UNAVAILABLE room
  becomes AVAILABLE once no active booking holds it
  (`Bookings.ReleaseOverridesMaintenance`).
- **A shown room can still be refused.** A room that the detail page shows
  for a stay passes the booking's overlap check. It may still be refused
  at the status check (`Hotels.ShownMeansBookable`).
- **An empty shown message.** A list `message` whose first item is empty
  yields an empty message. That is the only way to get one
  (`ApiClient.EmptyMessageOnlyFromList`).
- **A stale locating flag.** Picking a city during a GPS lookup leaves
  `isLocating` set (`LocationStore.SetCityKeepsLocating`).
- **"loading" is never set.** The auth store's type has a "loading"
  status, but nothing sets it.
- **`hotel:join` has no handler.** The client emits `hotel:join`, and the
  gateway has no handler for it. Those messages appear in the hook's log
  and nowhere else.

## Model

| member | source | states |
|---|---|---|
| Bookings.CeilDiv | apps/api/src/bookings/bookings.service.ts:81 | `Math.ceil(d / m)` for positive operands is the least `q` with `d <= q * m`, and it is at least 1 |
| Bookings.ValidateStay | apps/api/src/bookings/bookings.service.ts:73-84 | "Invalid check-in/check-out dates" iff a date did not parse; "checkOut must be after checkIn" when both parse and check-out is not later; success iff both parse and check-out is after check-in; on success the night count is the stay rounded up to whole days, at least 1 |
| Bookings.Book | apps/api/src/bookings/bookings.service.ts:62-139 | the answer of the transaction: date errors first, NotFound for an unknown room, "Room is not available" for a room that is not AVAILABLE, "Room is already booked for those dates" when an active booking overlaps an AVAILABLE room; success iff the dates are valid, the room is AVAILABLE and no PENDING/CONFIRMED booking of it overlaps the half-open stay; the new booking is PENDING, UNPAID, with total = nightly price × nights |
| Bookings.BookKeepsNoDoubleBooking | apps/api/src/bookings/bookings.service.ts:102-130 | a successful booking keeps the invariant that no two active bookings of one room overlap |
| Bookings.BookKeepsWellFormed | apps/api/src/bookings/bookings.service.ts:120-135 | the inserted booking and the reserved room keep every key equal to its record's id and every foreign key resolved |
| Bookings.BookKeepsRoomsHeld | apps/api/src/bookings/bookings.service.ts:132-135 | after a booking every room with an active booking is still not AVAILABLE: the booked room becomes RESERVED |
| Bookings.HeldRoomRefusesBooking | apps/api/src/bookings/bookings.service.ts:98-100 | while rooms reflect their active bookings, a room that has one refuses every new booking at the status check, whatever the dates |
| Bookings.SecondBookingRefused | apps/api/src/bookings/bookings.service.ts:98-100 | after one successful booking, any second valid booking of the same room fails with "Room is not available" |
| Bookings.BackToBackDoNotOverlap | apps/api/src/bookings/bookings.service.ts:106-109 | stays that meet end to start do not overlap under the half-open test, in either order |
| Bookings.Released | apps/api/src/bookings/bookings.service.ts:45-60 | the room becomes AVAILABLE exactly when no PENDING/CONFIRMED booking references it; otherwise, and for every other room, nothing changes |
| Bookings.ReleasedIdempotent | apps/api/src/bookings/bookings.service.ts:45-60 | releasing a second time changes nothing more |
| Bookings.ReleasedKeepsRoomsHeld | apps/api/src/bookings/bookings.service.ts:46-59 | release never makes AVAILABLE a room that an active booking still holds |
| Bookings.ReleaseOverridesMaintenance | apps/api/src/bookings/bookings.service.ts:54-58 | an UNAVAILABLE room with no bookings becomes AVAILABLE on release |
| Bookings.EnsureAdminOwnsBooking | apps/api/src/bookings/bookings.service.ts:21-43 | NotFound iff the booking is unknown; success iff the booking's hotel has a non-empty admin id equal to the caller's; otherwise Forbidden |
| Bookings.StatusChangeKeepsNoDoubleBooking | apps/api/src/bookings/bookings.service.ts:242-245 | a status change keeps the invariant when it cancels, or when the booking was already active |
| Bookings.ReactivationCanDoubleBook | apps/api/src/bookings/bookings.service.ts:242-245 | a concrete pair of bookings: the invariant holds before and fails after a cancelled booking is set back to CONFIRMED |
| Bookings.CancelKeepsRoomsHeld | apps/api/src/bookings/bookings.service.ts:242-249 | cancelling and then releasing keeps every held room held |
| Bookings.DeleteKeepsRoomsHeld | apps/api/src/bookings/bookings.service.ts:263-264 | deleting and then releasing keeps every held room held |
| Bookings.BookingsService.MaybeReleaseRoom | apps/api/src/bookings/bookings.service.ts:45-60 | the rooms table becomes `Released(...)`; bookings, users and hotels are unchanged |
| Bookings.BookingsService.CreateBooking | apps/api/src/bookings/bookings.service.ts:62-139 | answers `Book(...)` on the tables it read; on failure neither table changes; on success exactly the new booking is inserted and exactly its room becomes RESERVED; the no-double-booking and rooms-held invariants are preserved |
| Bookings.BookingsService.UpdateAdminBookingStatus | apps/api/src/bookings/bookings.service.ts:231-252 | the ownership error leaves everything unchanged; otherwise exactly that booking's status is written, and the room is released only when the new status is CANCELLED |
| Bookings.BookingsService.DeleteAdminBooking | apps/api/src/bookings/bookings.service.ts:254-267 | the ownership error leaves everything unchanged; otherwise exactly that booking is removed, its room is released, and the answer is `{ok: true, deletedId}` |
| Bookings.BookingsService.CreatePaymentStub | apps/api/src/bookings/bookings.service.ts:269-312 | NotFound unless the booking is the caller's, "already paid" for a PAID one, "total price is missing" without a total; otherwise exactly `paymentIntentId = "stub_" + id` is written and the stub answer is returned |
| Rooms.EnsureAdminOwnsHotel | apps/api/src/rooms/rooms.service.ts:20-33 | NotFound iff the hotel is unknown; success iff its admin id is non-empty and the caller's; otherwise Forbidden |
| Rooms.EnsureAdminOwnsRoom | apps/api/src/rooms/rooms.service.ts:188-205 | the same check on the room's hotel, with "Room not found" and "Not allowed to manage this room" |
| Rooms.RoomNumber | apps/api/src/rooms/rooms.service.ts:63 | the first eight characters of the id (all of a shorter one), each upper-cased |
| Rooms.DistinctIdsCount | apps/api/src/rooms/rooms.service.ts:106 | a list without repeated ids has as many ids as rows, so `total` counts rooms |
| Rooms.CountsPartition | apps/api/src/rooms/rooms.service.ts:105-119 | the four status counts add up to the length of the list |
| Rooms.IdsWithCount | apps/api/src/rooms/rooms.service.ts:114-119 | in a list without repeated rooms, the count of a status is the number of distinct rooms that have it |
| Rooms.RowsCountStatus | apps/api/src/rooms/rooms.service.ts:105-119 | over the complete admin list, the count of each status is the number of listed rooms that have it |
| Rooms.Tally | apps/api/src/rooms/rooms.service.ts:105-124 | the counting loop yields, for each status, the number of rows with it; the four add up to `total`; the rate is that of held rooms |
| Rooms.OccupancyRate | apps/api/src/rooms/rooms.service.ts:121-124 | 0 when there are no rooms, otherwise (reserved + occupied) / total × 100, always within [0, 100] |
| Rooms.Invalidated | apps/api/src/rooms/rooms.service.ts:169-170 | exactly the keys that start with neither `hotels:detail:` nor `hotels:list:` remain, with their values |
| Rooms.Patched | apps/api/src/rooms/rooms.service.ts:211-217 | each supplied field (type, price, status) is set, every other field keeps its value |
| Rooms.EmptyPatchIsIdentity | apps/api/src/rooms/rooms.service.ts:213-217 | an update that supplies nothing leaves the room as it is |
| Rooms.AppendRow | apps/api/src/rooms/rooms.service.ts:61-64 | appending a row keeps every room already listed and lists the new one |
| Rooms.RoomsService.GetAdminRooms | apps/api/src/rooms/rooms.service.ts:35-65 | every row is the view of a room whose hotel the caller administers (of the given hotel when one is named); every such room appears; no room appears twice |
| Rooms.RoomsService.GetAdminRoomStats | apps/api/src/rooms/rooms.service.ts:67-131 | `total` is the number of rooms the admin list shows; each of the four counts is the number of those rooms with that status, and they add up to `total`; the rate is the share of RESERVED and OCCUPIED rooms |
| Rooms.RoomsService.Announce | apps/api/src/rooms/rooms.service.ts:168-170 | one server `room:update` with the room's status is appended to the outbox, then both cache prefixes are dropped |
| Rooms.RoomsService.CreateAdminRoom | apps/api/src/rooms/rooms.service.ts:133-173 | a non-positive price is refused before the ownership check; any failure changes no table, emits nothing and drops no cache key; success inserts exactly the new room, announces it and invalidates both prefixes |
| Rooms.RoomsService.UpdateAdminRoom | apps/api/src/rooms/rooms.service.ts:175-232 | ownership first, then a supplied non-positive price is refused; success stores exactly `Patched(...)` for that room, announces it and invalidates; bookings keep their totals |
| Rooms.RoomsService.UpdateRoomStatus | apps/api/src/rooms/rooms.service.ts:234-272 | ownership, then exactly the status changes; the announcement carries that new status |
| RoomsController.ParseAdminStatus | apps/api/src/rooms/rooms.controller.ts:22-28 | exactly the five names parse, each to the status whose wire name it is |
| RoomsController.NormalizeRoomStatus | apps/api/src/rooms/rooms.controller.ts:47-53 | MAINTENANCE becomes UNAVAILABLE; every stored status maps to itself |
| RoomsController.NormalizeIdempotent | apps/api/src/rooms/rooms.controller.ts:47-53 | normalising twice is normalising once; the result is UNAVAILABLE iff MAINTENANCE or UNAVAILABLE was sent |
| RoomsController.NormalizeNeverMaintenance | apps/api/src/rooms/rooms.controller.ts:47-53 | the result's wire name is never MAINTENANCE and parses back to itself |
| RoomsController.CreateRoomStatus | apps/api/src/rooms/rooms.controller.ts:98 | an omitted status becomes AVAILABLE; a sent one is normalised |
| RoomsController.UpdateRoomStatus | apps/api/src/rooms/rooms.controller.ts:121 | absent iff no status was sent; otherwise the normalised status |
| RoomsController.UpdateWithoutStatusKeepsStatus | apps/api/src/rooms/rooms.controller.ts:116-122 | an update without a status keeps the stored status, whatever else it changes |
| RoomsController.UpdateToMaintenanceStoresUnavailable | apps/api/src/rooms/rooms.controller.ts:121 | an update that sends MAINTENANCE stores UNAVAILABLE |
| Realtime.Topic | apps/api/src/realtime/rooms.gateway.ts:113 | the topic is `room:` followed by the room id |
| Realtime.TopicInjective | apps/api/src/realtime/rooms.gateway.ts:113 | distinct rooms have distinct topics |
| Realtime.GetTokenFromSocket | apps/api/src/realtime/rooms.gateway.ts:34-46 | a non-blank `auth.token` wins, trimmed; otherwise the trimmed text after a "bearer " scheme of any case; none iff neither exists; a result is always trimmed |
| Realtime.BearerSchemeCaseInsensitive | apps/api/src/realtime/rooms.gateway.ts:40-43 | whatever the letter case of the scheme (section 2.1 of RFC 6750 names it "Bearer"), the token is the trimmed credentials |
| Realtime.BlankAuthTokenFallsBackToHeader | apps/api/src/realtime/rooms.gateway.ts:35-43 | an all-blank `auth.token` does not shadow a bearer header |
| Realtime.Authenticate | apps/api/src/realtime/rooms.gateway.ts:79-101 | an identity is attached iff a non-empty token exists, verifies, and carries a non-empty `sub`; it is `{id: sub, email, role}` of the payload |
| Realtime.TrimmedRoomId | apps/api/src/realtime/rooms.gateway.ts:108 | the trimmed id, or empty when absent; always trimmed |
| Realtime.RoomsGateway.Recipients | apps/api/src/realtime/rooms.gateway.ts:138 | exactly the connections that joined the topic |
| Realtime.RoomsGateway.HandleConnection | apps/api/src/realtime/rooms.gateway.ts:79-101 | the identity is attached iff `Authenticate` gives one; otherwise the connection is dropped and leaves its topics; nothing is emitted |
| Realtime.RoomsGateway.Disconnect | apps/api/src/realtime/rooms.gateway.ts:82 | the connection leaves every topic and is recorded as dropped |
| Realtime.RoomsGateway.JoinRoom | apps/api/src/realtime/rooms.gateway.ts:103-115 | a missing or blank id is refused with "roomId is required" and membership is unchanged; otherwise the connection also joins `room:<trimmed id>` and `{ok: true}` is answered |
| Realtime.RoomsGateway.RoomUpdate | apps/api/src/realtime/rooms.gateway.ts:117-140 | a connection that is not ROOM_ADMIN is refused before the id is looked at; success iff ROOM_ADMIN with a non-blank id; then exactly one emission to that room's topic with `status` (absent stays absent) and no `source` |
| Realtime.RoomsGateway.NotifyRoomUpdate | apps/api/src/realtime/rooms.gateway.ts:142-151 | exactly the server update is appended; membership is unchanged |
| Realtime.RoomsGateway.ServerUpdate | apps/api/src/realtime/rooms.gateway.ts:142-151 | the emission goes to the room's topic as `room:update` with `source: "server"` and reaches exactly that topic's members |
| Realtime.RoomsGateway.ServerUpdateReachesOnlySubscribers | apps/api/src/realtime/rooms.gateway.ts:150 | a subscriber of the room receives its server update; a connection that joined only another room does not |
| Realtime.JoinThenNotify | apps/api/src/realtime/rooms.gateway.ts:103-151 | a connection that joins a room is among the receivers of the next server update of that room |
| Auth.NormalizeEmail | apps/api/src/auth/auth.service.ts:32-34 | the result is trimmed and lower-case |
| Auth.NormalizeEmailIdempotent | apps/api/src/auth/auth.service.ts:32-34 | normalising twice is normalising once |
| Auth.NormalizeEmailIgnoresCase | apps/api/src/auth/auth.service.ts:32-34 | addresses that differ only in letter case normalise alike |
| Auth.OtpKey | apps/api/src/auth/auth.service.ts:36-38 | the key is `otp:` followed by the address |
| Auth.SlotSharedAcrossCase | apps/api/src/auth/auth.service.ts:100-126 | spellings of an address that differ in letter case or in white space around it share one slot, and an OTP slot never starts like a cache key |
| Auth.OtpCode | apps/api/src/auth/auth.service.ts:40-42 | a draw in [100000, 1000000) gives six decimal digits whose value is the draw |
| Auth.CheckOtp | apps/api/src/auth/auth.service.ts:128-152 | nothing stored: rejected, slot untouched; unparsable: deleted, "OTP invalid"; five attempts used: deleted, "Too many attempts" even for the right code; wrong code: exactly one more attempt recorded, "OTP invalid"; accepted iff a parsed entry under the limit has this code, and then the slot is emptied |
| Auth.EmptySlotAcceptsNothing | apps/api/src/auth/auth.service.ts:129-131 | an empty slot accepts no attempt and stays empty |
| Auth.AcceptedAtMostOnce | apps/api/src/auth/auth.service.ts:152 | any run of attempts on any slot is accepted at most once: an OTP is single-use |
| Auth.WrongCodesCount | apps/api/src/auth/auth.service.ts:146-150 | wrong codes below the limit each add exactly one attempt and keep the code |
| Auth.LockedOutAfterFiveWrongCodes | apps/api/src/auth/auth.service.ts:141-150 | after five wrong codes on a fresh entry the right code is refused with "Too many attempts" |
| Auth.OnlyEarlyGuessesCount | apps/api/src/auth/auth.service.ts:141-152 | an entry that has used `used` attempts is accepted only if the code is among the next `5 - used` tries |
| Auth.Put | apps/api/src/auth/auth.service.ts:137-152 | after a step the slot holds exactly the step's entry, or is absent when the step deletes it; every other key keeps its presence and value |
| Auth.SendOtpEmail | apps/api/src/auth/auth.service.ts:68-98 | a transport failure is an error only in production; otherwise the answer is whether the mail was delivered, false when no transport is configured |
| Auth.AuthService.SendOtp | apps/api/src/auth/auth.service.ts:100-122 | the slot of the normalised address holds the fresh code with zero attempts, replacing anything there, whatever the mail does; the call fails with the transport error iff delivery failed in production; otherwise `emailSent` is true iff the mail was delivered, and the code is echoed only outside production |
| Auth.AuthService.VerifyOtp | apps/api/src/auth/auth.service.ts:124-177 | the slot evolves as `CheckOtp` says; a rejection returns its error and creates no user; on acceptance the user with that address is reused, or a CUSTOMER is created, and the token is signed over its id, email and role |
| Auth.AuthService.ConsumeOtp | apps/api/src/auth/auth.service.ts:128-152 | the store becomes the slot rewrite of `CheckOtp`, and the verdict is its verdict |
| Auth.AuthService.FindOrCreateUser | apps/api/src/auth/auth.service.ts:154-164 | an existing user with the address is returned unchanged; otherwise exactly one CUSTOMER with it is added |
| Hotels.BuildFilters | apps/api/src/hotels/hotels.service.ts:22-55 | at most three filters, none iff no criterion is given, and their conjunction holds exactly for the hotels that satisfy the search |
| Hotels.FiltersMeaning | apps/api/src/hotels/hotels.service.ts:24-57 | the filter list in push order means the search: city contained in the city, text in any of four fields, some room priced within the inclusive bounds |
| Hotels.InsertByPriceSorted | apps/api/src/hotels/hotels.service.ts:108 | insertion by price keeps the list sorted and adds exactly the one room |
| Hotels.InsertByPriceDistinct | apps/api/src/hotels/hotels.service.ts:90-108 | inserting a room whose id is not yet listed keeps every room listed once |
| Hotels.ShownMeansBookable | apps/api/src/hotels/hotels.service.ts:93-104 | a room shown for a stay never fails the booking's overlap check for it, and an AVAILABLE one is booked; a hidden one is refused |
| Hotels.AppendSummary | apps/api/src/hotels/hotels.service.ts:71-78 | appending a row keeps every hotel already listed and lists the new one |
| Hotels.PageSkip | apps/api/src/hotels/hotels.service.ts:57-61 | scanning a hotel the search rejects keeps the page |
| Hotels.PageTake | apps/api/src/hotels/hotels.service.ts:57-78 | scanning a satisfying hotel while the page has room appends its row and keeps the page valid |
| Hotels.HotelsService.StartingPrice | apps/api/src/hotels/hotels.service.ts:63-77 | none iff the hotel has no rooms; otherwise the lowest nightly price among its rooms |
| Hotels.HotelsService.FindAll | apps/api/src/hotels/hotels.service.ts:9-79 | at most `limit` rows, each a satisfying hotel with its starting price, none twice; fewer than `limit` only when every satisfying hotel is listed |
| Hotels.HotelsService.FindOne | apps/api/src/hotels/hotels.service.ts:81-123 | none iff the hotel is unknown; otherwise exactly its rooms that no active overlapping booking holds (all of them without a stay), each once, sorted by ascending price |
| HotelsController.ParseListQuery | apps/api/src/hotels/hotels.controller.ts:21-57 | accepted iff every field meets its schema; `limit` is an integer in [1, 50] defaulting to 10; `maxPrice` falls back to `price`; a refusal is a schema error |
| HotelsController.ValidateStayQuery | apps/api/src/hotels/hotels.controller.ts:95-110 | empty parameters fail the schema; "Invalid checkIn/checkOut" iff a given date does not parse; "Provide both" iff only one is given; "checkOut must be after checkIn" when both parse and check-out is not later; no stay iff neither is given; a stay iff both parse and check-out is later |
| HotelsController.HotelsController.FindAll | apps/api/src/hotels/hotels.controller.ts:52-66 | a schema error is returned as such; otherwise at most `limit` satisfying hotels |
| HotelsController.HotelsController.FindOne | apps/api/src/hotels/hotels.controller.ts:93-123 | date errors first, then "Hotel not found"; success only for a known hotel, with exactly the rooms the validated stay leaves free, each once, cheapest first |
| Redis.WithoutPrefix | apps/api/src/rooms/rooms.service.ts:169-170 | exactly the keys without the prefix remain, with their values |
| Redis.WithoutPrefixKeepsOtherPrefix | apps/api/src/rooms/rooms.service.ts:169-170 | dropping a prefix keeps every key that starts with a prefix of another first letter, so cache invalidation never deletes an OTP entry |
| Redis.RedisService.Get | apps/api/src/redis/redis.service.ts:28-30 | the stored value, or none |
| Redis.RedisService.Set | apps/api/src/redis/redis.service.ts:32-37 | the key maps to the new value; other keys unchanged |
| Redis.RedisService.Del | apps/api/src/redis/redis.service.ts:39-41 | exactly the key is removed |
| Redis.RedisService.DelByPrefix | apps/api/src/rooms/rooms.service.ts:169 | the store becomes `WithoutPrefix` of itself |
| Strings.TrimIdempotent | apps/api/src/auth/auth.service.ts:33 | trimming twice is trimming once |
| Strings.TrimToLower | apps/api/src/auth/auth.service.ts:33 | trimming and lower-casing commute |
| Strings.LowerOfUpper | apps/api/src/auth/auth.service.ts:33 | lower-casing an upper-cased text is lower-casing it |
| Strings.TrimLowerIdempotent | apps/api/src/auth/auth.service.ts:33 | trim-then-lower-case twice is once |
| Strings.TrimStartKeepsSuffix | apps/api/src/auth/auth.service.ts:33 | the leading trim keeps a suffix and drops only white space |
| Strings.TrimEndDropsWhiteSpace | apps/api/src/auth/auth.service.ts:33 | the trailing trim drops only white space |
| Strings.TrimDropsOnlyEnds | apps/api/src/auth/auth.service.ts:33 | the trimmed text is a middle slice of the text, and what is cut off at either end is all white space |
| Strings.TrimPadded | apps/api/src/auth/auth.service.ts:33 | white space added at either end does not change the trimmed text |
| Strings.TrimBlank | apps/api/src/realtime/rooms.gateway.ts:36 | an all-blank text trims to empty |
| Strings.NatToString | apps/api/src/auth/auth.service.ts:41 | decimal digits without a leading zero whose value is the number |
| Strings.SixDigits | apps/api/src/auth/auth.service.ts:41 | a number in [100000, 1000000) prints as six digits |
| UseRoomRealtime.JoinMessages | apps/web/app/lib/use-room-realtime.ts:32-40 | one message per room id and per hotel id |
| UseRoomRealtime.JoinsCoverIds | apps/web/app/lib/use-room-realtime.ts:32-40 | a room (hotel) is joined iff its id is listed, and every room join precedes every hotel join |
| UseRoomRealtime.BlankIdsAreIgnored | apps/web/app/lib/use-room-realtime.ts:58-63 | an event with absent or empty ids is never accepted |
| UseRoomRealtime.AcceptedMonotone | apps/web/app/lib/use-room-realtime.ts:58-63 | listing more ids never turns an accepted event away |
| UseRoomRealtime.RoomRealtime.JoinAll | apps/web/app/lib/use-room-realtime.ts:32-40 | the emitted log grows by exactly the join messages; nothing else changes |
| UseRoomRealtime.RoomRealtime.Resync | apps/web/app/lib/use-room-realtime.ts:42-46 | exactly the configured keys are invalidated, in order |
| UseRoomRealtime.RoomRealtime.OnConnect | apps/web/app/lib/use-room-realtime.ts:48-52 | connected, all joins emitted, all keys invalidated |
| UseRoomRealtime.RoomRealtime.OnDisconnect | apps/web/app/lib/use-room-realtime.ts:54-56 | only the connected flag changes, to false |
| UseRoomRealtime.RoomRealtime.HandleEvent | apps/web/app/lib/use-room-realtime.ts:58-67 | an accepted event becomes the latest and invalidates the same keys a reconnect does; any other event changes nothing |
| UseRoomRealtime.RoomRealtime.Subscribe | apps/web/app/lib/use-room-realtime.ts:27-76 | without a socket or without ids nothing happens; otherwise the four handlers are registered, and `onConnect` runs at once when the socket is already connected |
| UseRoomRealtime.RoomRealtime.Unsubscribe | apps/web/app/lib/use-room-realtime.ts:78-83 | exactly the four handlers are removed (nothing when setup returned early) |
| UseRoomRealtime.MountThenUnmount | apps/web/app/lib/use-room-realtime.ts:73-83 | mounting and unmounting leaves no handler behind |
| UseRoomRealtime.SameEventTwice | apps/web/app/lib/use-room-realtime.ts:42-66 | handling an accepted event twice invalidates the resync keys twice and emits nothing |
| ToastStore.MakeToast | apps/web/app/stores/toast-store.ts:33-40 | the caller's fields and the fresh id; the duration defaults to 3500 |
| ToastStore.Without | apps/web/app/stores/toast-store.ts:48-51 | a toast survives iff it does not carry the id |
| ToastStore.WithoutAppend | apps/web/app/stores/toast-store.ts:48-51 | removal distributes over concatenation, so survivors keep their order |
| ToastStore.WithoutUnknownId | apps/web/app/stores/toast-store.ts:48-51 | removing an unknown id changes nothing |
| ToastStore.WithoutIdempotent | apps/web/app/stores/toast-store.ts:48-51 | removing twice is removing once |
| ToastStore.AddThenRemove | apps/web/app/stores/toast-store.ts:32-51 | adding a toast with a fresh id and removing that id restores the list |
| ToastStore.ToastState.AddToast | apps/web/app/stores/toast-store.ts:32-47 | exactly the new toast is appended after the existing ones, and its id is returned |
| ToastStore.ToastState.RemoveToast | apps/web/app/stores/toast-store.ts:48-51 | the list becomes `Without` of itself |
| ToastStore.ToastState.ClearToasts | apps/web/app/stores/toast-store.ts:52 | the list is empty |
| AuthStore.Apply | apps/web/app/stores/auth-store.ts:23-34 | `setAuth` stores user and token and signs in; `clearAuth` returns to the initial state |
| AuthStore.AuthenticatedIffLastSetAuth | apps/web/app/stores/auth-store.ts:20-34 | after any sequence of operations, the status is authenticated iff the last was `setAuth`, and the token is then its token |
| AuthStore.ReplayConsistent | apps/web/app/stores/auth-store.ts:20-34 | every reachable state is authenticated iff it holds both user and token |
| AuthStore.ClearAuthIdempotent | apps/web/app/stores/auth-store.ts:29-34 | clearing twice is clearing once |
| AuthStore.AuthStoreState.constructor | apps/web/app/stores/auth-store.ts:20-22 | user and token absent, status idle |
| AuthStore.AuthStoreState.SetAuth | apps/web/app/stores/auth-store.ts:23-28 | the new state is `Apply(old, setAuth)` and consistent |
| AuthStore.AuthStoreState.ClearAuth | apps/web/app/stores/auth-store.ts:29-34 | the new state is the initial one and consistent |
| LocationStore.Apply | apps/web/app/stores/location-store.ts:23-26 | `setMode` changes only the mode; `setCity` sets the city and manual mode; `startLocating` sets locating and GPS mode; `setGpsLabel` sets the label and clears locating; each leaves the other fields |
| LocationStore.GpsLookupFlow | apps/web/app/stores/location-store.ts:25-26 | a lookup that starts and reports a label ends in GPS mode, not locating, with that label and the city untouched |
| LocationStore.SetCityKeepsLocating | apps/web/app/stores/location-store.ts:24-25 | picking a city during a lookup switches to manual but leaves the locating flag set |
| LocationStore.LocationStoreState.constructor | apps/web/app/stores/location-store.ts:19-22 | manual mode on "Addis Ababa", no label, not locating |
| LocationStore.LocationStoreState.SetMode | apps/web/app/stores/location-store.ts:23 | the new state is `Apply(old, setMode)` |
| LocationStore.LocationStoreState.SetCity | apps/web/app/stores/location-store.ts:24 | the new state is `Apply(old, setCity)` |
| LocationStore.LocationStoreState.StartLocating | apps/web/app/stores/location-store.ts:25 | the new state is `Apply(old, startLocating)` |
| LocationStore.LocationStoreState.SetGpsLabel | apps/web/app/stores/location-store.ts:26 | the new state is `Apply(old, setGpsLabel)` |
| AuthRedirect.SessionStorage.SetAuthRedirect | apps/web/app/lib/auth-redirect.ts:1-9 | with a window the path is stored under `auth:redirect`, replacing any earlier one; without one nothing changes |
| AuthRedirect.SessionStorage.ConsumeAuthRedirect | apps/web/app/lib/auth-redirect.ts:11-23 | a stored non-empty path is returned and removed; otherwise (no window, nothing or an empty string stored) the default is returned and storage is unchanged |
| AuthRedirect.SetThenConsumeTwice | apps/web/app/lib/auth-redirect.ts:3-23 | set then consume twice yields the path, then "/bookings/new", and the key is gone |
| AuthUtils.NormalizeEmail | apps/web/app/lib/auth-utils.ts:1-3 | the result is trimmed and lower-case |
| AuthUtils.ClientMatchesApi | apps/web/app/lib/auth-utils.ts:1-3 | the client normalises as the API does, and normalising is idempotent |
| AuthUtils.Split | apps/web/app/lib/auth-utils.ts:6 | at least one piece, none containing the separator |
| AuthUtils.JoinSplit | apps/web/app/lib/auth-utils.ts:6 | joining the pieces with the separator gives back the text |
| AuthUtils.SplitWithoutSeparator | apps/web/app/lib/auth-utils.ts:6 | a text without the separator is one piece |
| AuthUtils.MaskLocal | apps/web/app/lib/auth-utils.ts:11-14 | a local part of at most two characters becomes its first character and "*"; a longer one keeps its length, first and last characters, with stars between |
| AuthUtils.MaskEmail | apps/web/app/lib/auth-utils.ts:5-17 | unchanged unless the first two `@`-segments are non-empty; otherwise the masked local part, "@" and the second segment, which ends the result |
| AuthUtils.MaskWithoutAt | apps/web/app/lib/auth-utils.ts:7-9 | an address without "@" is shown as it is |
| AuthUtils.MaskEmptyLocal | apps/web/app/lib/auth-utils.ts:7-9 | an address with an empty local part is shown as it is |
| AuthUtils.MaskPlainAddress | apps/web/app/lib/auth-utils.ts:5-17 | `local@domain` becomes the masked local part, "@" and the domain; its length is kept when the local part is longer than two |
| AuthUtils.MaskDropsLaterSegments | apps/web/app/lib/auth-utils.ts:6-16 | with more "@"s, only the segment between the first two is kept |
| AuthUtils.MaskedHasOneAt | apps/web/app/lib/auth-utils.ts:16 | whenever masking applies, the result holds exactly one "@" |
| ApiClient.EncodeURIComponent | apps/web/app/lib/api-client.ts:15 | the result is at least as long as the text and made only of unreserved characters, "%" and hex digits |
| ApiClient.EncodeInjective | apps/web/app/lib/api-client.ts:15 | distinct texts have distinct encodings: each escape announces its own length and spells back its UTF-8 bytes |
| ApiClient.LoginUrlIdentifiesTarget | apps/web/app/lib/api-client.ts:14-16 | two locations give the same login URL only when they name the same return target |
| ApiClient.EncodeUnreserved | apps/web/app/lib/api-client.ts:15 | a text of unreserved characters is its own encoding |
| ApiClient.EncodeLengthGrowsOnEscape | apps/web/app/lib/api-client.ts:15 | the encoding is as long as the text iff nothing needed escaping |
| ApiClient.EncodeAppend | apps/web/app/lib/api-client.ts:15 | encoding distributes over concatenation |
| ApiClient.SlashEscaped | apps/web/app/lib/api-client.ts:15 | "/" is encoded as "%2F" |
| ApiClient.LoginUrl | apps/web/app/lib/api-client.ts:14-16 | "/login?next=" followed by the encoded path and query, or by the encoded "/bookings/new" when that is empty |
| ApiClient.LoginUrlShape | apps/web/app/lib/api-client.ts:14-16 | the target is `/login?next=` followed by a non-empty encoded component that cannot end the parameter |
| ApiClient.EmptyLocationUsesDefault | apps/web/app/lib/api-client.ts:15 | an empty location leads to the same target as "/bookings/new" |
| ApiClient.ToApiErrorMessage | apps/web/app/lib/api-client.ts:48-71 | a non-HTTP error gives the fallback; the first item of a non-empty list wins; else a non-empty text; else the error's own non-empty message; else the fallback |
| ApiClient.ErrorMessageFallsThrough | apps/web/app/lib/api-client.ts:57-67 | with no usable body message (none, an empty list, an empty text, another value) the error's own message is shown |
| ApiClient.EmptyMessageOnlyFromList | apps/web/app/lib/api-client.ts:57-59 | the shown message is empty only when the body's list starts with an empty text |
| ApiClient.RedirectToLogin | apps/web/app/lib/api-client.ts:9-17 | with a window, exactly one navigation to the login URL of its path and query; without one nothing |
| ApiClient.OnRequest | apps/web/app/lib/api-client.ts:24-30 | a stored non-empty token sets `Authorization: Bearer <token>`; otherwise the headers are unchanged |
| ApiClient.OnResponseError | apps/web/app/lib/api-client.ts:32-46 | signs out iff the status is 401, the config exists and is not yet marked; then the config is marked, the store is back to its initial state and one login redirect happens; otherwise nothing changes |
| ApiClient.RepeatedUnauthorized | apps/web/app/lib/api-client.ts:38-45 | two 401s for one request sign out once and redirect once |

## Left out

- Database concurrency. Prisma's `$transaction` and the `SELECT … FOR UPDATE` row lock are out of scope. Each transaction is one atomic method, and only the sequential invariants are proved.
- Orderings the database chooses. The admin room list's order (hotel name, then type) is not modelled. Neither is which hotels fill a `findAll` page when more match than `limit`.
- Fields the model does not carry: the hotel `rating` column of the list rows, and the rooms' `services` in the detail.
- Floating point and the clock. `toFixed(1)` rounding of the occupancy rate is left out; `Rooms.OccupancyRate` is the exact percentage. Also left out: the clock-derived `todayCheckIns`/`todayCheckOuts` counts, the `at` timestamps of emissions, and the `Math.round(Number(total) * 100)` cents conversion (totals are already cents).
- Fractional prices. Prices and price bounds are integer cents, so a fractional query bound is not represented.
- Validation errors. The schema reports every failing field; `HotelsController.ParseListQuery` reports the first.
- Expiry. The OTP entry's time-to-live and the environment configuration of it are left out: entries never expire. Also left out: the SMTP settings and message contents (only the transport's outcome is a parameter), the JWT secret, and the signer and verifier themselves (they are parameters).
- The Socket.IO Redis adapter, pub/sub fan-out and the ioredis client. `delByPrefix` is called but not defined in the shown Redis wrapper, so it is modelled as removing every key with the prefix.
- JSON. Values in Redis are either a parsed `{code, attempts}` entry or raw text. Any raw text that is not empty is treated as unparsable.
- AuthUtils.MaskLocal: lengths and indices count Unicode characters, not the UTF-16 code units that `length` and indexing count in JavaScript, so a local part with a character above U+FFFF is masked differently (the source would count it as two and may split it).
- Strings. Case mapping is ASCII only. The database's `contains … insensitive` is modelled as a case-insensitive substring test, without LIKE escaping.
- Randomness. `crypto.randomInt`, `randomUUID` and the toast id's fallback are parameters.
- Client event shape. `handleEvent` is given an event object; a `null` payload is not represented. Non-string items of a `message` list (which `String()` would print) are not represented either.
- Hotel settings. The `getAdminSettings` and `updateAdminSettings` routes call service methods that the shown service does not define.
- Framework machinery. The React, Zustand, TanStack Query and axios machinery is left out. The window's `location.href` assignment is a log of navigations, and the socket's `emit` and the query cache's `invalidateQueries` are logs.
- ApiClient.OnResponseError: the rejected promise that passes the error on is not a value in the model. The method leaves the error untouched on every path.
- Routes the code does not have. Check-in/check-out routes do not exist. The server has no `hotel:join` handler. `adminLogin` is not defined. Bookings publish no realtime events. `notifyRoomUpdate` ignores its third argument.

=== FILE: api_client.dfy ===
/** The web client's HTTP layer: the bearer header added to each request,
    the sign-out and login redirect after a 401, and the choice of the
    message shown for a failed request. The browser window is an object
    that records the pages it was sent to; `null` stands for server-side
    rendering, where there is no window. */
module ApiClient {
  import opened Wrappers
  import AuthStore

  const FALLBACK_MESSAGE: string := "Something went wrong. Please try again."
  const DEFAULT_NEXT: string := "/bookings/new"
  const LOGIN_PATH: string := "/login?next="
  const UNAUTHORIZED: int := 401

  // ---------------------------------------------------------------------
  // `encodeURIComponent`

  /** The characters `encodeURIComponent` leaves as they are. */
  predicate Unreserved(c: char) {
    ('A' <= c <= 'Z') || ('a' <= c <= 'z') || ('0' <= c <= '9')
    || c in {'-', '_', '.', '!', '~', '*', '\'', '(', ')'}
  }

  predicate IsHexDigit(c: char) {
    ('0' <= c <= '9') || ('A' <= c <= 'F')
  }

  /** What can appear in an encoded component: the unreserved characters,
      '%' and upper-case hexadecimal digits. None of the query's own
      delimiters is among them. */
  predicate ComponentChar(c: char) {
    Unreserved(c) || c == '%' || IsHexDigit(c)
  }

  /** The value of an upper-case hexadecimal digit. */
  function HexValue(c: char): nat
    requires IsHexDigit(c)
  {
    if '0' <= c <= '9' then c as nat - '0' as nat else c as nat - 'A' as nat + 10
  }

  /** The digit of a value below 16; reading it back gives the value. */
  function HexDigit(d: nat): (c: char)
    requires d < 16
    ensures IsHexDigit(c) && HexValue(c) == d
  {
    if d < 10 then '0' + d as char else 'A' + (d - 10) as char
  }

  /** `%XX` for one byte: the two digits read back as the byte. */
  function PercentByte(b: nat): (r: string)
    requires b < 256
    ensures |r| == 3 && r[0] == '%' && IsHexDigit(r[1]) && IsHexDigit(r[2])
    ensures HexValue(r[1]) * 16 + HexValue(r[2]) == b
  {
    ['%', HexDigit(b / 16), HexDigit(b % 16)]
  }

  /** The code point that one to four UTF-8 bytes spell. */
  function Utf8Value(bytes: seq<nat>): int
    requires 1 <= |bytes| <= 4
  {
    if |bytes| == 1 then bytes[0]
    else if |bytes| == 2 then (bytes[0] as int - 0xC0) * 64 + (bytes[1] as int - 0x80)
    else if |bytes| == 3 then (bytes[0] as int - 0xE0) * 4096 + (bytes[1] as int - 0x80) * 64 + (bytes[2] as int - 0x80)
    else (bytes[0] as int - 0xF0) * 262144 + (bytes[1] as int - 0x80) * 4096 + (bytes[2] as int - 0x80) * 64 + (bytes[3] as int - 0x80)
  }

  /** The UTF-8 bytes of a Unicode scalar value: the lead byte announces how
      many bytes follow, and the bytes spell the value back. */
  function Utf8(cp: nat): (r: seq<nat>)
    requires cp < 0x11_0000
    ensures 1 <= |r| <= 4 && forall i :: 0 <= i < |r| ==> r[i] < 256
    ensures |r| == 1 <==> cp < 0x80
    ensures |r| == 1 ==> r[0] == cp
    ensures |r| == 1 <==> r[0] < 0x80
    ensures |r| == 2 <==> 0xC0 <= r[0] < 0xE0
    ensures |r| == 3 <==> 0xE0 <= r[0] < 0xF0
    ensures |r| == 4 <==> 0xF0 <= r[0]
    ensures Utf8Value(r) == cp
  {
    if cp < 0x80 then [cp]
    else if cp < 0x800 then [0xC0 + cp / 64, 0x80 + cp % 64]
    else if cp < 0x1_0000 then
      assert cp / 4096 * 4096 + (cp / 64) % 64 * 64 + cp % 64 == cp by { Split64(cp); }
      [0xE0 + cp / 4096, 0x80 + (cp / 64) % 64, 0x80 + cp % 64]
    else
      assert cp / 262144 * 262144 + (cp / 4096) % 64 * 4096 + (cp / 64) % 64 * 64 + cp % 64 == cp by {
        Split64(cp);
        Split64(cp / 64);
      }
      [0xF0 + cp / 262144, 0x80 + (cp / 4096) % 64, 0x80 + (cp / 64) % 64, 0x80 + cp % 64]
  }

  /** Splitting off six bits twice is splitting off twelve. */
  lemma Split64(n: nat)
    ensures n / 64 / 64 == n / 4096 && n / 4096 / 64 == n / 262144
    ensures n == n / 4096 * 4096 + (n / 64) % 64 * 64 + n % 64
  {
  }

  function PercentBytes(bytes: seq<nat>): (r: string)
    requires forall i :: 0 <= i < |bytes| ==> bytes[i] < 256
    ensures |r| == 3 * |bytes|
    ensures forall i :: 0 <= i < |r| ==> r[i] == '%' || IsHexDigit(r[i])
    ensures |bytes| > 0 ==> r[..3] == PercentByte(bytes[0])
  {
    if bytes == [] then [] else PercentByte(bytes[0]) + PercentBytes(bytes[1..])
  }

  function EncodeChar(c: char): (r: string)
    ensures Unreserved(c) ==> r == [c]
    ensures !Unreserved(c) ==> |r| >= 3 && r[0] == '%'
    ensures forall i :: 0 <= i < |r| ==> ComponentChar(r[i])
  {
    if Unreserved(c) then [c] else PercentBytes(Utf8(c as nat))
  }

  /** `encodeURIComponent(s)`: every character is kept or percent-encoded,
      so the result carries none of `/`, `?`, `&`, `#`, `=`. */
  function EncodeURIComponent(s: string): (r: string)
    ensures |r| >= |s|
    ensures forall i :: 0 <= i < |r| ==> ComponentChar(r[i])
  {
    if s == [] then [] else EncodeChar(s[0]) + EncodeURIComponent(s[1..])
  }

  /** A text made only of unreserved characters is its own encoding. */
  lemma {:induction false} EncodeUnreserved(s: string)
    requires forall i :: 0 <= i < |s| ==> Unreserved(s[i])
    ensures EncodeURIComponent(s) == s
  {
    if s != [] {
      EncodeUnreserved(s[1..]);
      assert [s[0]] + s[1..] == s;
    }
  }

  /** Any encoded text is as long as the original exactly when nothing
      needed escaping. */
  lemma {:induction false} EncodeLengthGrowsOnEscape(s: string)
    ensures |EncodeURIComponent(s)| == |s| <==> forall i :: 0 <= i < |s| ==> Unreserved(s[i])
  {
    if s != [] {
      EncodeLengthGrowsOnEscape(s[1..]);
      if forall i :: 0 <= i < |s| ==> Unreserved(s[i]) {
        assert forall i :: 0 <= i < |s[1..]| ==> Unreserved(s[1..][i]) by {
          forall i | 0 <= i < |s[1..]| ensures Unreserved(s[1..][i]) {
            assert s[1..][i] == s[i + 1];
          }
        }
      } else {
        var k :| 0 <= k < |s| && !Unreserved(s[k]);
        if k > 0 {
          assert s[1..][k - 1] == s[k];
        }
      }
    }
  }

  /** How many characters the encoding of the first character of `t` takes,
      read off `t` itself: one for a kept character, and for an escape three
      per UTF-8 byte, as the lead byte's high digit announces. */
  function HeadLength(t: string): nat {
    if t == [] then 0
    else if t[0] != '%' then 1
    else if |t| < 2 || !IsHexDigit(t[1]) then 0
    else if HexValue(t[1]) < 8 then 3
    else if HexValue(t[1]) < 14 then 6
    else if HexValue(t[1]) == 14 then 9
    else 12
  }

  /** The encoding of a character announces its own length, whatever
      follows it. */
  lemma EncodeCharHeadLength(c: char, rest: string)
    ensures HeadLength(EncodeChar(c) + rest) == |EncodeChar(c)|
  {
    var e := EncodeChar(c);
    assert (e + rest)[0] == e[0];
    if !Unreserved(c) {
      var bytes := Utf8(c as nat);
      assert e[..3] == PercentByte(bytes[0]);
      assert (e + rest)[1] == e[1];
      assert HexValue(e[1]) == bytes[0] / 16;
    }
  }

  /** Equal escapes come from equal bytes. */
  lemma {:induction false} PercentBytesInjective(a: seq<nat>, b: seq<nat>)
    requires forall i :: 0 <= i < |a| ==> a[i] < 256
    requires forall i :: 0 <= i < |b| ==> b[i] < 256
    requires PercentBytes(a) == PercentBytes(b)
    ensures a == b
  {
    if a != [] {
      var ea, eb := PercentBytes(a), PercentBytes(b);
      assert ea[1] == eb[1] && ea[2] == eb[2];
      assert a[0] == b[0];
      assert ea[3..] == PercentBytes(a[1..]);
      assert eb[3..] == PercentBytes(b[1..]);
      PercentBytesInjective(a[1..], b[1..]);
      assert a == [a[0]] + a[1..];
      assert b == [b[0]] + b[1..];
    }
  }

  /** Distinct characters have distinct encodings. */
  lemma EncodeCharInjective(c: char, d: char)
    requires EncodeChar(c) == EncodeChar(d)
    ensures c == d
  {
    if !Unreserved(c) && !Unreserved(d) {
      PercentBytesInjective(Utf8(c as nat), Utf8(d as nat));
      assert c as nat == Utf8Value(Utf8(c as nat)) == Utf8Value(Utf8(d as nat)) == d as nat;
    }
  }

  /** `encodeURIComponent` loses nothing: distinct texts have distinct
      encodings, so the `next` parameter identifies the path it carries. */
  lemma {:induction false} EncodeInjective(a: string, b: string)
    requires EncodeURIComponent(a) == EncodeURIComponent(b)
    ensures a == b
  {
    var t := EncodeURIComponent(a);
    if a != [] && b != [] {
      var ea, eb := EncodeChar(a[0]), EncodeChar(b[0]);
      EncodeCharHeadLength(a[0], EncodeURIComponent(a[1..]));
      EncodeCharHeadLength(b[0], EncodeURIComponent(b[1..]));
      assert |ea| == |eb|;
      assert ea == t[..|ea|] == eb;
      EncodeCharInjective(a[0], b[0]);
      assert EncodeURIComponent(a[1..]) == t[|ea|..] == EncodeURIComponent(b[1..]);
      EncodeInjective(a[1..], b[1..]);
      assert a == [a[0]] + a[1..];
      assert b == [b[0]] + b[1..];
    }
  }

  /** The page `redirectToLogin` sends the browser to: the login page with
      the current path and query encoded as `next`, or the booking page
      when that is empty. */
  function LoginUrl(pathAndSearch: string): (r: string)
    ensures var target := if pathAndSearch == "" then DEFAULT_NEXT else pathAndSearch;
      |r| > |LOGIN_PATH| && r[..|LOGIN_PATH|] == LOGIN_PATH && r[|LOGIN_PATH|..] == EncodeURIComponent(target)
  {
    LOGIN_PATH + EncodeURIComponent(if pathAndSearch == "" then DEFAULT_NEXT else pathAndSearch)
  }

  /** The login URL is the login page followed by characters that cannot
      end the `next` parameter or start another one. */
  lemma LoginUrlShape(pathAndSearch: string)
    ensures |LoginUrl(pathAndSearch)| > |LOGIN_PATH|
    ensures LoginUrl(pathAndSearch)[..|LOGIN_PATH|] == LOGIN_PATH
    ensures forall i :: |LOGIN_PATH| <= i < |LoginUrl(pathAndSearch)| ==> ComponentChar(LoginUrl(pathAndSearch)[i])
  {
    var enc := EncodeURIComponent(if pathAndSearch == "" then DEFAULT_NEXT else pathAndSearch);
    var r := LOGIN_PATH + enc;
    assert r[..|LOGIN_PATH|] == LOGIN_PATH;
    forall i | |LOGIN_PATH| <= i < |r| ensures ComponentChar(r[i]) {
      assert r[i] == enc[i - |LOGIN_PATH|];
    }
  }

  /** The login URL determines the page to return to: two locations give
      the same URL only when they name the same target. */
  lemma LoginUrlIdentifiesTarget(p: string, q: string)
    requires LoginUrl(p) == LoginUrl(q)
    ensures (if p == "" then DEFAULT_NEXT else p) == (if q == "" then DEFAULT_NEXT else q)
  {
    var ep := EncodeURIComponent(if p == "" then DEFAULT_NEXT else p);
    var eq := EncodeURIComponent(if q == "" then DEFAULT_NEXT else q);
    assert ep == LoginUrl(p)[|LOGIN_PATH|..];
    assert eq == LoginUrl(q)[|LOGIN_PATH|..];
    EncodeInjective(if p == "" then DEFAULT_NEXT else p, if q == "" then DEFAULT_NEXT else q);
  }

  /** An empty location leads to the same login URL as the booking page. */
  lemma EmptyLocationUsesDefault()
    ensures LoginUrl("") == LoginUrl(DEFAULT_NEXT)
  {
  }

  /** The slash is escaped, so the default target reads `%2Fbookings%2Fnew`. */
  lemma SlashEscaped()
    ensures EncodeChar('/') == "%2F"
  {
    assert Utf8('/' as nat) == [47];
    assert PercentByte(47) == ['%', HexDigit(2), HexDigit(15)];
  }

  lemma {:induction false} EncodeAppend(a: string, b: string)
    ensures EncodeURIComponent(a + b) == EncodeURIComponent(a) + EncodeURIComponent(b)
  {
    if a == [] {
      assert a + b == b;
    } else {
      assert (a + b)[1..] == a[1..] + b;
      EncodeAppend(a[1..], b);
    }
  }

  // ---------------------------------------------------------------------
  // `toApiErrorMessage`

  /** The `message` field of an error body: a text, a list of texts (the
      validation pipe's form), or anything else. */
  datatype MessageField = Text(text: string) | List(items: seq<string>) | OtherValue

  /** A failed request as the client sees it. For an HTTP client error,
      `message` is the body's field (`None` when the body is not an object
      or has no such field) and `errorMessage` is the error's own message. */
  datatype RequestError =
    | HttpError(message: Option<MessageField>, errorMessage: Option<string>)
    | OtherError

  /** The message shown for a failed request: the first of a non-empty list,
      else a non-empty text, else the error's own non-empty message, else
      the fixed fallback. */
  function ToApiErrorMessage(e: RequestError): (r: string)
    ensures e.OtherError? ==> r == FALLBACK_MESSAGE
    ensures e.HttpError? && e.message.Some? && e.message.value.List? && |e.message.value.items| > 0 ==>
      r == e.message.value.items[0]
    ensures e.HttpError? && e.message.Some? && e.message.value.Text? && e.message.value.text != "" ==>
      r == e.message.value.text
    ensures e.HttpError? && !(e.message.Some? && e.message.value.List? && |e.message.value.items| > 0)
            && !(e.message.Some? && e.message.value.Text? && e.message.value.text != "") ==>
      r == (if e.errorMessage.Some? && e.errorMessage.value != "" then e.errorMessage.value else FALLBACK_MESSAGE)
  {
    match e
    case OtherError => FALLBACK_MESSAGE
    case HttpError(message, errorMessage) =>
      if message.Some? && message.value.List? && |message.value.items| > 0 then message.value.items[0]
      else if message.Some? && message.value.Text? && message.value.text != "" then message.value.text
      else if errorMessage.Some? && errorMessage.value != "" then errorMessage.value
      else FALLBACK_MESSAGE
  }

  /** The error's own message is used exactly when the body offers nothing:
      no field, an empty list, an empty text or another kind of value. */
  lemma ErrorMessageFallsThrough(message: Option<MessageField>, errorMessage: string)
    requires errorMessage != ""
    ensures (|| message.None? || message.value.OtherValue?
             || (message.value.List? && message.value.items == [])
             || (message.value.Text? && message.value.text == ""))
            ==> ToApiErrorMessage(HttpError(message, Some(errorMessage))) == errorMessage
  {
  }

  /** The shown message is empty only when the body's list starts with an
      empty text; every other path gives a non-empty text. */
  lemma EmptyMessageOnlyFromList(e: RequestError)
    ensures ToApiErrorMessage(e) == "" ==>
      e.HttpError? && e.message.Some? && e.message.value.List? && e.message.value.items[0] == ""
  {
  }

  // ---------------------------------------------------------------------
  // The interceptors

  /** One request's configuration: its headers and the `_retry` mark. */
  class RequestConfig {
    var headers: map<string, string>
    var retry: bool

    constructor (headers: map<string, string>)
      ensures this.headers == headers && !retry
    {
      this.headers := headers;
      retry := false;
    }
  }

  /** The browser window: where it is, and the pages it was sent to. */
  class Window {
    const pathname: string
    const search: string
    var navigations: seq<string>

    constructor (pathname: string, search: string)
      ensures this.pathname == pathname && this.search == search && navigations == []
    {
      this.pathname := pathname;
      this.search := search;
      navigations := [];
    }
  }

  /** `redirectToLogin` */
  method RedirectToLogin(window: Window?)
    modifies window
    ensures window != null ==> window.navigations == old(window.navigations) + [LoginUrl(window.pathname + window.search)]
  {
    if window == null {
      return;
    }
    window.navigations := window.navigations + [LoginUrl(window.pathname + window.search)];
  }

  /** The request interceptor: a stored, non-empty token becomes the
      `Authorization: Bearer <token>` header; otherwise the request goes
      out as it was. */
  method OnRequest(config: RequestConfig, auth: AuthStore.AuthStoreState)
    modifies config
    ensures auth.token.Some? && auth.token.value != "" ==>
      config.headers == old(config.headers)["Authorization" := "Bearer " + auth.token.value]
    ensures !(auth.token.Some? && auth.token.value != "") ==> config.headers == old(config.headers)
    ensures config.retry == old(config.retry)
  {
    var token := auth.token;
    if token.Some? && token.value != "" {
      config.headers := config.headers["Authorization" := "Bearer " + token.value];
    }
  }

  /** The response interceptor's error path. The first 401 for a request
      marks it, signs out and redirects to the login page; any other error,
      or a repeated 401 for a marked request, changes nothing. The error is
      passed on to the caller in every case. */
  method OnResponseError(status: Option<int>, config: RequestConfig?, auth: AuthStore.AuthStoreState, window: Window?)
    returns (signedOut: bool)
    modifies config, auth, window
    ensures signedOut <==> status == Some(UNAUTHORIZED) && config != null && !old(config.retry)
    ensures signedOut ==>
      && config.retry && config.headers == old(config.headers)
      && auth.State() == AuthStore.INITIAL
      && (window != null ==> window.navigations == old(window.navigations) + [LoginUrl(window.pathname + window.search)])
    ensures !signedOut ==>
      && (config != null ==> config.retry == old(config.retry) && config.headers == old(config.headers))
      && auth.State() == old(auth.State())
      && (window != null ==> window.navigations == old(window.navigations))
  {
    signedOut := status == Some(UNAUTHORIZED) && config != null && !config.retry;
    if signedOut {
      config.retry := true;
      auth.ClearAuth();
      RedirectToLogin(window);
    }
  }

  /** Two 401s for the same request: one sign-out, one redirect. */
  method RepeatedUnauthorized(config: RequestConfig, auth: AuthStore.AuthStoreState, window: Window)
    returns (first: bool, second: bool)
    requires !config.retry
    modifies config, auth, window
    ensures first && !second
    ensures auth.State() == AuthStore.INITIAL
    ensures window.navigations == old(window.navigations) + [LoginUrl(window.pathname + window.search)]
  {
    first := OnResponseError(Some(UNAUTHORIZED), config, auth, window);
    second := OnResponseError(Some(UNAUTHORIZED), config, auth, window);
  }
}

=== FILE: auth.dfy ===
/** One-time-password login (`AuthService`): a six-digit code stored under
    `otp:<normalised e-mail>` as `{code, attempts}`, five wrong guesses at
    most, and single use. The random code, the mail transport, the JWT
    signer and the entry's time-to-live are outside the model: the code and
    the delivery outcome are parameters, the signer is a function parameter,
    and entries do not expire. */
module Auth {
  import opened Wrappers
  import opened Exceptions
  import opened Store
  import Strings
  import Redis

  const MAX_ATTEMPTS: int := 5

  /** `normalizeEmail`: trimmed and lower-cased. */
  function NormalizeEmail(email: string): (r: string)
    ensures Strings.IsTrimmed(r) && Strings.IsLowerCase(r)
    ensures r == Strings.ToLower(Strings.Trim(email))
  {
    Strings.TrimLower(email)
  }

  /** Normalising twice is normalising once. */
  lemma NormalizeEmailIdempotent(email: string)
    ensures NormalizeEmail(NormalizeEmail(email)) == NormalizeEmail(email)
  {
    Strings.TrimLowerIdempotent(email);
  }

  /** Addresses that differ only in letter case normalise alike. */
  lemma NormalizeEmailIgnoresCase(email: string)
    ensures NormalizeEmail(Strings.ToUpper(email)) == NormalizeEmail(email)
  {
    var up := Strings.ToUpper(email);
    calc {
      NormalizeEmail(up);
      Strings.ToLower(Strings.Trim(up));
      { Strings.TrimToLower(up); }
      Strings.Trim(Strings.ToLower(up));
      { Strings.LowerOfUpper(email); }
      Strings.Trim(Strings.ToLower(email));
      { Strings.TrimToLower(email); }
      Strings.ToLower(Strings.Trim(email));
    }
  }

  /** `otpKey` */
  function OtpKey(email: string): (k: string)
    ensures Strings.StartsWith(k, "otp:") && k[4..] == email
  {
    "otp:" + email
  }

  /** The OTP slot of an address as typed: case and surrounding white space
      do not matter. */
  function SlotOf(email: string): string {
    OtpKey(NormalizeEmail(email))
  }

  /** Two spellings of one address share one slot, whatever their letter
      case and whatever white space surrounds them, and an OTP slot never
      starts like a cached hotel projection. */
  lemma SlotSharedAcrossCase(email: string, before: string, after: string)
    requires Strings.AllWhiteSpace(before) && Strings.AllWhiteSpace(after)
    ensures SlotOf(before + Strings.ToUpper(email) + after) == SlotOf(email)
    ensures SlotOf(before + email + after) == SlotOf(email)
    ensures SlotOf(Strings.ToUpper(email)) == SlotOf(email)
    ensures SlotOf(NormalizeEmail(email)) == SlotOf(email)
    ensures SlotOf(email)[0] == 'o'
  {
    Strings.TrimPadded(before, Strings.ToUpper(email), after);
    Strings.TrimPadded(before, email, after);
    NormalizeEmailIgnoresCase(email);
    NormalizeEmailIdempotent(email);
  }

  /** `generateOtpCode`, given the drawn number `randomInt(100000, 1000000)`:
      always six decimal digits. */
  function OtpCode(n: nat): (code: string)
    requires 100000 <= n < 1000000
    ensures |code| == 6 && Strings.AllDigits(code) && Strings.DigitsValue(code) == n
  {
    Strings.SixDigits(n);
    Strings.NatToString(n)
  }

  /** How a verification attempt ends. */
  datatype Verdict = Accepted | Rejected(error: Exception)

  /** The entry an attempt leaves in the slot (`None`: the slot is empty)
      and its verdict. */
  datatype Step = Step(next: Option<Redis.Value>, verdict: Verdict)

  /** The OTP check of `verifyOtp` on the slot's content. Nothing (or an
      empty string) stored: rejected, slot untouched. Unparsable: deleted and
      rejected. Five attempts already used: deleted and rejected even for
      the right code. A wrong code: one more attempt recorded. The right code:
      deleted and accepted. */
  function CheckOtp(stored: Option<Redis.Value>, code: string): (r: Step)
    ensures r.verdict == Accepted <==>
      && stored.Some? && stored.value.OtpJson?
      && stored.value.attempts.GetOr(0) < MAX_ATTEMPTS && stored.value.code == code
    ensures r.verdict == Accepted ==> r.next.None?
    ensures stored.None? || stored == Some(Redis.Raw("")) ==>
      r == Step(stored, Rejected(Unauthorized("OTP expired or not found")))
    ensures stored.Some? && stored.value.Raw? && stored.value.text != "" ==>
      r == Step(None, Rejected(Unauthorized("OTP invalid")))
    ensures stored.Some? && stored.value.OtpJson? && stored.value.attempts.GetOr(0) >= MAX_ATTEMPTS ==>
      r == Step(None, Rejected(BadRequest("Too many attempts")))
    ensures stored.Some? && stored.value.OtpJson? && stored.value.attempts.GetOr(0) < MAX_ATTEMPTS
            && stored.value.code != code ==>
      r == Step(Some(Redis.OtpJson(stored.value.code, Some(stored.value.attempts.GetOr(0) + 1))),
                Rejected(Unauthorized("OTP invalid")))
  {
    match stored
    case None => Step(stored, Rejected(Unauthorized("OTP expired or not found")))
    case Some(Raw(text)) =>
      if text == "" then Step(stored, Rejected(Unauthorized("OTP expired or not found")))
      else Step(None, Rejected(Unauthorized("OTP invalid")))
    case Some(OtpJson(storedCode, attempts)) =>
      var used := attempts.GetOr(0);
      if used >= MAX_ATTEMPTS then Step(None, Rejected(BadRequest("Too many attempts")))
      else if storedCode != code then
        Step(Some(Redis.OtpJson(storedCode, Some(used + 1))), Rejected(Unauthorized("OTP invalid")))
      else Step(None, Accepted)
  }

  /** The slot after a run of attempts with the given codes. */
  function Replay(stored: Option<Redis.Value>, codes: seq<string>): Option<Redis.Value>
    decreases |codes|
  {
    if codes == [] then stored else Replay(CheckOtp(stored, codes[0]).next, codes[1..])
  }

  /** How many attempts of the run are accepted. */
  function Acceptances(stored: Option<Redis.Value>, codes: seq<string>): nat
    decreases |codes|
  {
    if codes == [] then 0
    else
      var step := CheckOtp(stored, codes[0]);
      (if step.verdict == Accepted then 1 else 0) + Acceptances(step.next, codes[1..])
  }

  /** An empty slot accepts nothing, however often it is tried. */
  lemma {:induction false} EmptySlotAcceptsNothing(codes: seq<string>)
    ensures Acceptances(None, codes) == 0
    ensures Replay(None, codes) == None
    decreases |codes|
  {
    if codes != [] {
      EmptySlotAcceptsNothing(codes[1..]);
    }
  }

  /** Single use: whatever the slot holds, a run of attempts is accepted at
      most once. */
  lemma {:induction false} AcceptedAtMostOnce(stored: Option<Redis.Value>, codes: seq<string>)
    ensures Acceptances(stored, codes) <= 1
    decreases |codes|
  {
    if codes != [] {
      var step := CheckOtp(stored, codes[0]);
      if step.verdict == Accepted {
        EmptySlotAcceptsNothing(codes[1..]);
      } else {
        AcceptedAtMostOnce(step.next, codes[1..]);
      }
    }
  }

  /** Wrong codes below the limit each add exactly one attempt and keep the
      code. */
  lemma {:induction false} WrongCodesCount(code: string, used: nat, codes: seq<string>)
    requires used + |codes| <= MAX_ATTEMPTS
    requires forall i :: 0 <= i < |codes| ==> codes[i] != code
    ensures Replay(Some(Redis.OtpJson(code, Some(used))), codes) == Some(Redis.OtpJson(code, Some(used + |codes|)))
    decreases |codes|
  {
    if codes != [] {
      WrongCodesCount(code, used + 1, codes[1..]);
    }
  }

  /** Lock-out: after five wrong codes on a fresh entry, the right code is
      refused with "Too many attempts" and the entry is gone. */
  lemma LockedOutAfterFiveWrongCodes(code: string, codes: seq<string>)
    requires |codes| == MAX_ATTEMPTS
    requires forall i :: 0 <= i < |codes| ==> codes[i] != code
    ensures Replay(Some(Redis.OtpJson(code, Some(0))), codes) == Some(Redis.OtpJson(code, Some(MAX_ATTEMPTS)))
    ensures CheckOtp(Replay(Some(Redis.OtpJson(code, Some(0))), codes), code)
            == Step(None, Rejected(BadRequest("Too many attempts")))
  {
    WrongCodesCount(code, 0, codes);
  }

  /** Guessing is bounded: an entry that has used `used` attempts accepts
      only if the right code is among the next `5 - used` tries. */
  lemma {:induction false} OnlyEarlyGuessesCount(code: string, used: nat, codes: seq<string>)
    requires forall i :: 0 <= i < |codes| && used + i < MAX_ATTEMPTS ==> codes[i] != code
    ensures Acceptances(Some(Redis.OtpJson(code, Some(used))), codes) == 0
    decreases |codes|
  {
    if codes != [] {
      var step := CheckOtp(Some(Redis.OtpJson(code, Some(used))), codes[0]);
      if used >= MAX_ATTEMPTS {
        EmptySlotAcceptsNothing(codes[1..]);
      } else {
        assert codes[0] != code;
        assert step.next == Some(Redis.OtpJson(code, Some(used + 1)));
        forall i | 0 <= i < |codes[1..]| && used + 1 + i < MAX_ATTEMPTS
          ensures codes[1..][i] != code
        {
          assert codes[1..][i] == codes[i + 1];
        }
        OnlyEarlyGuessesCount(code, used + 1, codes[1..]);
      }
    }
  }

  /** The store after a step: the slot holds the step's entry, or nothing,
      and every other key keeps its value. */
  function Put(store: map<string, Redis.Value>, key: string, next: Option<Redis.Value>): (r: map<string, Redis.Value>)
    ensures key in r <==> next.Some?
    ensures next.Some? ==> r[key] == next.value
    ensures forall k :: k != key ==> (k in r <==> k in store)
    ensures forall k :: k != key && k in store ==> r[k] == store[k]
  {
    if next.Some? then store[key := next.value] else store - {key}
  }

  function Lookup(store: map<string, Redis.Value>, key: string): Option<Redis.Value> {
    if key in store then Some(store[key]) else None
  }

  /** What the mail transport did: delivered the message, was not
      configured (no SMTP settings), or failed to send. */
  datatype MailOutcome = Delivered | NotConfigured | TransportFailed

  /** `sendOtpEmail`: whether the code was mailed. A transport failure is
      rethrown in production and reported as not sent elsewhere. */
  function SendOtpEmail(mail: MailOutcome, isProd: bool): (r: Result<bool, Exception>)
    ensures r.Err? <==> isProd && mail == TransportFailed
    ensures r.Err? ==> r.error == TransportError
    ensures r.Ok? ==> (r.value <==> mail == Delivered)
  {
    match mail
    case Delivered => Ok(true)
    case NotConfigured => Ok(false)
    case TransportFailed => if isProd then Err(TransportError) else Ok(false)
  }

  /** What `sendOtp` answers; `devOtp` is the code, echoed outside
      production. */
  datatype SendAck = SendAck(ok: bool, emailSent: bool, devOtp: Option<string>)

  /** The claims the access token carries. */
  datatype Claims = Claims(sub: Id, email: Option<string>, role: string)

  datatype Login = Login(accessToken: string, tokenType: string, user: User)

  /** Some user already has the address. */
  predicate HasUserWithEmail(users: map<Id, User>, email: string) {
    exists id :: id in users && users[id].email == Some(email)
  }

  class AuthService {
    const prisma: Database
    const redis: Redis.RedisService

    constructor (prisma: Database, redis: Redis.RedisService)
      ensures this.prisma == prisma && this.redis == redis
    {
      this.prisma := prisma;
      this.redis := redis;
    }

    /** `sendOtp`: a fresh six-digit code with no attempts replaces whatever
        the address's slot held, before the mail goes out. `drawn` is the
        random number, `mail` what the mail transport did, `isProd` the
        deployment mode. A failed delivery in production fails the call, and
        the slot keeps the code nobody received. */
    method SendOtp(email: string, drawn: nat, mail: MailOutcome, isProd: bool) returns (r: Result<SendAck, Exception>)
      requires 100000 <= drawn < 1000000
      modifies redis
      ensures redis.store == old(redis.store)[SlotOf(email) := Redis.OtpJson(OtpCode(drawn), Some(0))]
      ensures r.Err? <==> isProd && mail == TransportFailed
      ensures r.Err? ==> r.error == TransportError
      ensures r.Ok? ==> r.value == SendAck(true, mail == Delivered, if isProd then None else Some(OtpCode(drawn)))
    {
      var normalized := NormalizeEmail(email);
      var code := OtpCode(drawn);
      redis.Set(OtpKey(normalized), Redis.OtpJson(code, Some(0)));
      var emailSent := SendOtpEmail(mail, isProd);
      if emailSent.Err? {
        return Err(emailSent.error);
      }
      r := Ok(SendAck(true, emailSent.value, if isProd then None else Some(code)));
    }

    /** `verifyOtp`: the OTP check on the address's slot; on success the
        slot is emptied, the user with that address is found or created
        (as a CUSTOMER), and a token is signed for it. `newUserId` is the id
        the database would give a created user. */
    method VerifyOtp(email: string, code: string, newUserId: Id, sign: Claims -> string)
      returns (r: Result<Login, Exception>)
      requires prisma.Valid() && newUserId !in prisma.users
      modifies redis, prisma
      ensures prisma.Valid()
      ensures prisma.hotels == old(prisma.hotels) && prisma.rooms == old(prisma.rooms)
      ensures prisma.bookings == old(prisma.bookings)
      ensures var step := CheckOtp(Lookup(old(redis.store), SlotOf(email)), code);
        && redis.store == Put(old(redis.store), SlotOf(email), step.next)
        && (step.verdict.Rejected? ==> r == Err(step.verdict.error) && prisma.users == old(prisma.users))
        && (r.Ok? <==> step.verdict == Accepted)
      ensures r.Ok? ==>
        && r.value.tokenType == "Bearer"
        && r.value.user.id in prisma.users && prisma.users[r.value.user.id] == r.value.user
        && r.value.user.email == Some(NormalizeEmail(email))
        && r.value.accessToken == sign(Claims(r.value.user.id, r.value.user.email, RoleName(r.value.user.role)))
        && (HasUserWithEmail(old(prisma.users), NormalizeEmail(email)) ==> prisma.users == old(prisma.users))
        && (!HasUserWithEmail(old(prisma.users), NormalizeEmail(email)) ==>
              && r.value.user == User(newUserId, Some(NormalizeEmail(email)), Customer)
              && prisma.users == old(prisma.users)[newUserId := r.value.user])
    {
      var normalized := NormalizeEmail(email);
      var verdict := ConsumeOtp(OtpKey(normalized), code);
      if verdict.Rejected? {
        return Err(verdict.error);
      }
      var user := FindOrCreateUser(normalized, newUserId);
      var accessToken := sign(Claims(user.id, user.email, RoleName(user.role)));
      r := Ok(Login(accessToken, "Bearer", user));
    }

    /** The OTP half of `verifyOtp`: reads the slot, rewrites or deletes it,
        and reports the verdict, as `CheckOtp` says. */
    method ConsumeOtp(key: string, code: string) returns (verdict: Verdict)
      modifies redis
      ensures var step := CheckOtp(Lookup(old(redis.store), key), code);
        redis.store == Put(old(redis.store), key, step.next) && verdict == step.verdict
    {
      var raw := redis.Get(key);
      if raw.None? || raw.value == Redis.Raw("") {
        return Rejected(Unauthorized("OTP expired or not found"));
      }
      if raw.value.Raw? {
        redis.Del(key);
        return Rejected(Unauthorized("OTP invalid"));
      }
      var stored := raw.value;
      if stored.attempts.GetOr(0) >= MAX_ATTEMPTS {
        redis.Del(key);
        return Rejected(BadRequest("Too many attempts"));
      }
      if stored.code != code {
        redis.Set(key, Redis.OtpJson(stored.code, Some(stored.attempts.GetOr(0) + 1)));
        return Rejected(Unauthorized("OTP invalid"));
      }
      redis.Del(key);
      verdict := Accepted;
    }

    /** The user half of `verifyOtp`: the user with this address, or a new
        CUSTOMER with it. */
    method FindOrCreateUser(email: string, newUserId: Id) returns (user: User)
      requires prisma.Valid() && newUserId !in prisma.users
      modifies prisma
      ensures prisma.Valid()
      ensures prisma.hotels == old(prisma.hotels) && prisma.rooms == old(prisma.rooms)
      ensures prisma.bookings == old(prisma.bookings)
      ensures user.id in prisma.users && prisma.users[user.id] == user && user.email == Some(email)
      ensures HasUserWithEmail(old(prisma.users), email) ==> prisma.users == old(prisma.users)
      ensures !HasUserWithEmail(old(prisma.users), email) ==>
        && user == User(newUserId, Some(email), Customer)
        && prisma.users == old(prisma.users)[newUserId := user]
    {
      if HasUserWithEmail(prisma.users, email) {
        var id :| id in prisma.users && prisma.users[id].email == Some(email);
        user := prisma.users[id];
      } else {
        user := User(newUserId, Some(email), Customer);
        prisma.users := prisma.users[newUserId := user];
      }
    }
  }
}

=== FILE: auth_redirect.dfy ===
/** Where to send the user after signing in: a path kept in the browser's
    session storage under one key, set before the login page and consumed
    once after it. Server-side rendering, where there is no `window`, is
    the `hasWindow == false` case. */
module AuthRedirect {
  const AUTH_REDIRECT_KEY: string := "auth:redirect"
  const DEFAULT_PATH: string := "/bookings/new"

  class SessionStorage {
    const hasWindow: bool
    var items: map<string, string>

    constructor (hasWindow: bool, items: map<string, string>)
      ensures this.hasWindow == hasWindow && this.items == items
    {
      this.hasWindow := hasWindow;
      this.items := items;
    }

    /** `setAuthRedirect`: stores the path, replacing any earlier one;
        without a window nothing happens. */
    method SetAuthRedirect(path: string)
      modifies this
      ensures hasWindow ==> items == old(items)[AUTH_REDIRECT_KEY := path]
      ensures !hasWindow ==> items == old(items)
    {
      if !hasWindow {
        return;
      }
      items := items[AUTH_REDIRECT_KEY := path];
    }

    /** `consumeAuthRedirect`: a stored non-empty path is returned and
        removed; otherwise the default is returned and the storage is left
        as it was (a stored empty string stays). */
    method ConsumeAuthRedirect(defaultPath: string) returns (path: string)
      modifies this
      ensures hasWindow && AUTH_REDIRECT_KEY in old(items) && old(items)[AUTH_REDIRECT_KEY] != "" ==>
        path == old(items)[AUTH_REDIRECT_KEY] && items == old(items) - {AUTH_REDIRECT_KEY}
      ensures !(hasWindow && AUTH_REDIRECT_KEY in old(items) && old(items)[AUTH_REDIRECT_KEY] != "") ==>
        path == defaultPath && items == old(items)
    {
      if !hasWindow {
        return defaultPath;
      }
      var stored := if AUTH_REDIRECT_KEY in items then items[AUTH_REDIRECT_KEY] else "";
      if stored != "" {
        items := items - {AUTH_REDIRECT_KEY};
        return stored;
      }
      return defaultPath;
    }
  }

  /** Set, then consume twice: the first consume yields the path, the
      second the default, and the key is gone. */
  method SetThenConsumeTwice(storage: SessionStorage, path: string) returns (first: string, second: string)
    requires storage.hasWindow && path != ""
    modifies storage
    ensures first == path && second == DEFAULT_PATH
    ensures AUTH_REDIRECT_KEY !in storage.items
  {
    storage.SetAuthRedirect(path);
    first := storage.ConsumeAuthRedirect(DEFAULT_PATH);
    second := storage.ConsumeAuthRedirect(DEFAULT_PATH);
  }
}

=== FILE: auth_store.dfy ===
/** The web client's session store: the signed-in user, the bearer token
    and a status. Only `setAuth` and `clearAuth` change it; the "loading"
    status is part of the type but nothing in the store sets it. */
module AuthStore {
  import opened Wrappers

  datatype Role = Customer | RoomAdmin

  datatype AuthUser = AuthUser(id: string, email: Option<string>, role: Role)

  datatype Status = Idle | Loading | Authenticated

  datatype AuthState = AuthState(user: Option<AuthUser>, token: Option<string>, status: Status)

  /** The store's two operations, as a caller issues them. */
  datatype Action = SetAuth(user: AuthUser, token: string) | ClearAuth

  const INITIAL: AuthState := AuthState(None, None, Idle)

  /** The state after one operation: `setAuth` stores both and signs in,
      `clearAuth` returns to the initial state. */
  function Apply(s: AuthState, a: Action): (r: AuthState)
    ensures a.SetAuth? ==> r.user == Some(a.user) && r.token == Some(a.token) && r.status == Authenticated
    ensures a.ClearAuth? ==> r == INITIAL
  {
    match a
    case SetAuth(user, token) => AuthState(Some(user), Some(token), Authenticated)
    case ClearAuth => INITIAL
  }

  /** The state after a sequence of operations from the initial one. */
  function Replay(actions: seq<Action>): AuthState {
    if actions == [] then INITIAL
    else Apply(Replay(actions[..|actions| - 1]), actions[|actions| - 1])
  }

  /** Signed in exactly when user and token are both present. */
  predicate Consistent(s: AuthState) {
    s.status == Authenticated <==> s.user.Some? && s.token.Some?
  }

  /** Whatever happened before, the status is "authenticated" iff the last
      operation was `setAuth`, and the token is then the one it set. */
  lemma AuthenticatedIffLastSetAuth(actions: seq<Action>)
    ensures Replay(actions).status == Authenticated <==> |actions| > 0 && actions[|actions| - 1].SetAuth?
    ensures |actions| > 0 && actions[|actions| - 1].SetAuth? ==>
      Replay(actions).token == Some(actions[|actions| - 1].token)
  {
  }

  /** Every reachable state is consistent. */
  lemma {:induction false} ReplayConsistent(actions: seq<Action>)
    ensures Consistent(Replay(actions))
  {
    if actions != [] {
      ReplayConsistent(actions[..|actions| - 1]);
    }
  }

  /** `clearAuth` twice is `clearAuth` once. */
  lemma ClearAuthIdempotent(s: AuthState)
    ensures Apply(Apply(s, ClearAuth), ClearAuth) == Apply(s, ClearAuth)
  {
  }

  class AuthStoreState {
    var user: Option<AuthUser>
    var token: Option<string>
    var status: Status

    function State(): AuthState
      reads this
    {
      AuthState(user, token, status)
    }

    /** The store starts signed out and idle. */
    constructor ()
      ensures State() == INITIAL
    {
      user := None;
      token := None;
      status := Idle;
    }

    /** `setAuth` */
    method SetAuth(u: AuthUser, t: string)
      modifies this
      ensures State() == Apply(old(State()), Action.SetAuth(u, t))
      ensures Consistent(State())
    {
      user := Some(u);
      token := Some(t);
      status := Authenticated;
    }

    /** `clearAuth` */
    method ClearAuth()
      modifies this
      ensures State() == Apply(old(State()), Action.ClearAuth)
      ensures Consistent(State())
    {
      user := None;
      token := None;
      status := Idle;
    }
  }
}

=== FILE: auth_utils.dfy ===
/** The web client's email helpers: the same normalisation the API applies,
    and the masked form shown after a code has been sent. `split` is
    modelled as JavaScript defines it for a one-character separator. */
module AuthUtils {
  import Strings
  import Auth

  /** `normalizeEmail`: trimmed and lower-cased. */
  function NormalizeEmail(value: string): (r: string)
    ensures Strings.IsTrimmed(r) && Strings.IsLowerCase(r)
  {
    Strings.TrimLower(value)
  }

  /** The client and the API normalise an address identically, so the
      address a user types reaches the OTP slot the API derives from it. */
  lemma ClientMatchesApi(value: string)
    ensures NormalizeEmail(value) == Auth.NormalizeEmail(value)
    ensures NormalizeEmail(NormalizeEmail(value)) == NormalizeEmail(value)
  {
    Strings.TrimLowerIdempotent(value);
  }

  /** `s.split(sep)`: the pieces between separators, at least one. */
  function Split(s: string, sep: char): (r: seq<string>)
    ensures |r| >= 1
    ensures forall i :: 0 <= i < |r| ==> sep !in r[i]
  {
    if s == [] then [""]
    else
      var rest := Split(s[1..], sep);
      if s[0] == sep then [""] + rest
      else [[s[0]] + rest[0]] + rest[1..]
  }

  /** `parts.join(sep)` */
  function Join(parts: seq<string>, sep: char): string
    requires |parts| >= 1
  {
    if |parts| == 1 then parts[0]
    else parts[0] + [sep] + Join(parts[1..], sep)
  }

  /** Splitting and joining again gives back the text. */
  lemma {:induction false} JoinSplit(s: string, sep: char)
    ensures Join(Split(s, sep), sep) == s
  {
    if s != [] {
      var rest := Split(s[1..], sep);
      JoinSplit(s[1..], sep);
      if s[0] == sep {
        assert Split(s, sep) == [""] + rest;
        assert ([""] + rest)[1..] == rest;
        assert [s[0]] + s[1..] == s;
      } else {
        var parts := Split(s, sep);
        assert parts == [[s[0]] + rest[0]] + rest[1..];
        if |rest| == 1 {
          assert rest == [rest[0]];
          assert [s[0]] + s[1..] == s;
        } else {
          assert parts[1..] == rest[1..];
          calc {
            Join(parts, sep);
            ([s[0]] + rest[0]) + [sep] + Join(rest[1..], sep);
            [s[0]] + (rest[0] + [sep] + Join(rest[1..], sep));
            [s[0]] + Join(rest, sep);
            [s[0]] + s[1..];
            s;
          }
        }
      }
    }
  }

  /** A text without the separator is a single piece. */
  lemma {:induction false} SplitWithoutSeparator(s: string, sep: char)
    requires sep !in s
    ensures Split(s, sep) == [s]
  {
    if s != [] {
      assert sep !in s[1..] by {
        forall c | c in s[1..] ensures c != sep {
          assert c in s;
        }
      }
      SplitWithoutSeparator(s[1..], sep);
      assert [s[0]] + s[1..] == s;
    }
  }

  /** How many times `c` occurs in `s`. */
  function CountChar(s: string, c: char): nat {
    if s == [] then 0 else (if s[0] == c then 1 else 0) + CountChar(s[1..], c)
  }

  lemma {:induction false} CountCharAppend(a: string, b: string, c: char)
    ensures CountChar(a + b, c) == CountChar(a, c) + CountChar(b, c)
  {
    if a != [] {
      assert (a + b)[1..] == a[1..] + b;
      CountCharAppend(a[1..], b, c);
    } else {
      assert a + b == b;
    }
  }

  lemma {:induction false} CountCharAbsent(s: string, c: char)
    requires c !in s
    ensures CountChar(s, c) == 0
  {
    if s != [] {
      assert c !in s[1..] by {
        forall x | x in s[1..] ensures x != c {
          assert x in s;
        }
      }
      CountCharAbsent(s[1..], c);
    }
  }

  /** The masked local part: one character and a star for a short one;
      otherwise the first and last characters around `len - 2` stars. */
  function MaskLocal(local: string): (r: string)
    requires local != []
    ensures |local| <= 2 ==> r == [local[0], '*']
    ensures |local| > 2 ==>
      && |r| == |local| && r[0] == local[0] && r[|r| - 1] == local[|local| - 1]
      && forall i :: 0 < i < |r| - 1 ==> r[i] == '*'
  {
    if |local| <= 2 then [local[0]] + "*"
    else [local[0]] + Strings.Repeat('*', |local| - 2) + [local[|local| - 1]]
  }

  /** `maskEmail`: unchanged unless both the part before the first '@' and
      the part between the first and a second '@' are non-empty; then the
      masked local part, '@', and that second part only. */
  function MaskEmail(email: string): (r: string)
    ensures var parts := Split(email, '@');
      |parts| < 2 || parts[0] == "" || parts[1] == "" ==> r == email
    ensures var parts := Split(email, '@');
      |parts| >= 2 && parts[0] != "" && parts[1] != "" ==>
        r == MaskLocal(parts[0]) + "@" + parts[1] && r[|r| - |parts[1]|..] == parts[1]
  {
    var parts := Split(email, '@');
    if |parts| < 2 || parts[0] == "" || parts[1] == "" then email
    else MaskLocal(parts[0]) + "@" + parts[1]
  }

  /** An address without '@' is shown as it is. */
  lemma MaskWithoutAt(email: string)
    requires '@' !in email
    ensures MaskEmail(email) == email
  {
    SplitWithoutSeparator(email, '@');
  }

  /** Splitting at a first '@' yields the text before it, then the pieces
      of the rest. */
  lemma {:induction false} SplitAfterFirst(local: string, tail: string)
    requires '@' !in local
    ensures Split(local + "@" + tail, '@') == [local] + Split(tail, '@')
  {
    if local == [] {
      assert local + "@" + tail == ['@'] + tail;
      assert (['@'] + tail)[1..] == tail;
    } else {
      assert (local + "@" + tail)[1..] == local[1..] + "@" + tail;
      assert '@' !in local[1..] by {
        forall c | c in local[1..] ensures c != '@' {
          assert c in local;
        }
      }
      SplitAfterFirst(local[1..], tail);
      assert [local[0]] + local[1..] == local;
    }
  }

  /** A plain address `local@domain` is masked with its domain kept and its
      local part masked; the mask keeps the local part's length when that
      is longer than two characters. */
  lemma MaskPlainAddress(local: string, domain: string)
    requires local != [] && domain != [] && '@' !in local && '@' !in domain
    ensures MaskEmail(local + "@" + domain) == MaskLocal(local) + "@" + domain
    ensures |local| > 2 ==> |MaskEmail(local + "@" + domain)| == |local + "@" + domain|
  {
    SplitAfterFirst(local, domain);
    SplitWithoutSeparator(domain, '@');
  }

  /** With more than one '@', only the segment between the first two is
      kept as the domain: `a@b@c` is masked as `a*@b`. */
  lemma MaskDropsLaterSegments(local: string, domain: string, rest: string)
    requires local != [] && domain != [] && '@' !in local && '@' !in domain
    ensures MaskEmail(local + "@" + domain + "@" + rest) == MaskLocal(local) + "@" + domain
  {
    assert local + "@" + domain + "@" + rest == local + "@" + (domain + "@" + rest);
    SplitAfterFirst(local, domain + "@" + rest);
    SplitAfterFirst(domain, rest);
  }

  /** An address with an empty local part (it starts with '@') is shown as
      it is. */
  lemma MaskEmptyLocal(tail: string)
    ensures MaskEmail("@" + tail) == "@" + tail
  {
    SplitAfterFirst("", tail);
    assert "" + "@" + tail == "@" + tail;
  }

  /** Whenever masking applies, the result holds exactly one '@'. */
  lemma MaskedHasOneAt(email: string)
    requires var parts := Split(email, '@'); |parts| >= 2 && parts[0] != "" && parts[1] != ""
    ensures CountChar(MaskEmail(email), '@') == 1
  {
    var parts := Split(email, '@');
    var local := MaskLocal(parts[0]);
    assert '@' !in local by {
      if |parts[0]| > 2 {
        forall i | 0 <= i < |local| ensures local[i] != '@' {
          if i == 0 {
            assert local[0] == parts[0][0];
          } else if i == |local| - 1 {
            assert local[i] == parts[0][|parts[0]| - 1];
          }
        }
      }
    }
    CountCharAppend(local + "@", parts[1], '@');
    CountCharAppend(local, "@", '@');
    CountCharAbsent(local, '@');
    CountCharAbsent(parts[1], '@');
  }
}

=== FILE: bookings.dfy ===
/** The booking transaction manager (`BookingsService`): creating a booking
    under the room's lock, the admin status change and deletion that may
    release the room, and the payment stub. Each database transaction is one
    atomic method over the maps of `Store.Database`. */
module Bookings {
  import opened Wrappers
  import opened Exceptions
  import opened Store

  const MS_PER_DAY: int := 24 * 60 * 60 * 1000

  /** `Math.ceil(d / m)` for positive operands: the least `q` with `d <= q * m`. */
  function CeilDiv(d: int, m: int): (q: int)
    requires d > 0 && m > 0
    ensures q >= 1 && (q - 1) * m < d <= q * m
  {
    (d + m - 1) / m
  }

  /** The date checks `createBooking` makes before it opens a transaction.
      `None` is a date that did not parse (`NaN`). On success the result is the
      number of nights: the stay rounded up to whole days. */
  function ValidateStay(checkIn: Option<int>, checkOut: Option<int>): (r: Result<int, Exception>)
    ensures r == Err(BadRequest("Invalid check-in/check-out dates")) <==> checkIn.None? || checkOut.None?
    ensures r.Ok? <==> checkIn.Some? && checkOut.Some? && checkIn.value < checkOut.value
    ensures checkIn.Some? && checkOut.Some? && checkOut.value <= checkIn.value ==>
      r == Err(BadRequest("checkOut must be after checkIn"))
    ensures r.Ok? ==>
      var stay := checkOut.value - checkIn.value;
      r.value >= 1 && (r.value - 1) * MS_PER_DAY < stay <= r.value * MS_PER_DAY
  {
    if checkIn.None? || checkOut.None? then
      Err(BadRequest("Invalid check-in/check-out dates"))
    else if checkOut.value <= checkIn.value then
      Err(BadRequest("checkOut must be after checkIn"))
    else
      var nights := CeilDiv(checkOut.value - checkIn.value, MS_PER_DAY);
      if nights <= 0 then Err(BadRequest("Booking must be at least 1 night"))
      else Ok(nights)
  }

  /** What the booking transaction answers, given the tables it reads. On
      success it is the new booking: PENDING, UNPAID, its total frozen at the
      room's current nightly price times the nights. */
  function Book(rooms: map<Id, Room>, bookings: map<Id, Booking>, userId: Id, roomId: Id,
                checkIn: Option<int>, checkOut: Option<int>, newId: Id): (r: Result<Booking, Exception>)
    ensures ValidateStay(checkIn, checkOut).Err? ==> r == Err(ValidateStay(checkIn, checkOut).error)
    ensures ValidateStay(checkIn, checkOut).Ok? && roomId !in rooms ==> r == Err(NotFound("Room not found"))
    ensures ValidateStay(checkIn, checkOut).Ok? && roomId in rooms && rooms[roomId].status != Available ==>
      r == Err(BadRequest("Room is not available"))
    ensures ValidateStay(checkIn, checkOut).Ok? && roomId in rooms && rooms[roomId].status == Available
            && HasActiveOverlap(bookings, roomId, checkIn.value, checkOut.value) ==>
      r == Err(BadRequest("Room is already booked for those dates"))
    ensures r.Ok? <==>
      && ValidateStay(checkIn, checkOut).Ok?
      && roomId in rooms && rooms[roomId].status == Available
      && !HasActiveOverlap(bookings, roomId, checkIn.value, checkOut.value)
    ensures r.Ok? ==>
      && r.value.id == newId && r.value.userId == userId && r.value.roomId == roomId
      && r.value.checkIn == checkIn.value && r.value.checkOut == checkOut.value
      && r.value.status == Pending && r.value.paymentStatus == Unpaid
      && r.value.paymentIntentId.None?
      && r.value.totalPrice == Some(rooms[roomId].pricePerNight * ValidateStay(checkIn, checkOut).value)
  {
    match ValidateStay(checkIn, checkOut)
    case Err(e) => Err(e)
    case Ok(nights) =>
      if roomId !in rooms then Err(NotFound("Room not found"))
      else if rooms[roomId].status != Available then Err(BadRequest("Room is not available"))
      else if HasActiveOverlap(bookings, roomId, checkIn.value, checkOut.value) then
        Err(BadRequest("Room is already booked for those dates"))
      else
        Ok(Booking(newId, userId, roomId, checkIn.value, checkOut.value,
                   Some(rooms[roomId].pricePerNight * nights), Pending, Unpaid, None))
  }

  /** A successful booking keeps the no-double-booking invariant: the overlap
      query rejected every active booking of the room that meets the new stay. */
  lemma BookKeepsNoDoubleBooking(rooms: map<Id, Room>, bookings: map<Id, Booking>, userId: Id, roomId: Id,
                                 checkIn: Option<int>, checkOut: Option<int>, newId: Id)
    requires NoDoubleBooking(bookings) && newId !in bookings
    requires Book(rooms, bookings, userId, roomId, checkIn, checkOut, newId).Ok?
    ensures NoDoubleBooking(bookings[newId := Book(rooms, bookings, userId, roomId, checkIn, checkOut, newId).value])
  {
    var b := Book(rooms, bookings, userId, roomId, checkIn, checkOut, newId).value;
    var after := bookings[newId := b];
    forall i, j | i in after && j in after && i != j
      && after[i].roomId == after[j].roomId && IsActive(after[i]) && IsActive(after[j])
      ensures !Overlaps(after[i], after[j].checkIn, after[j].checkOut)
    {
      if i == newId {
        assert !(bookings[j].roomId == roomId && IsActive(bookings[j]) && Overlaps(bookings[j], b.checkIn, b.checkOut));
      } else if j == newId {
        assert !(bookings[i].roomId == roomId && IsActive(bookings[i]) && Overlaps(bookings[i], b.checkIn, b.checkOut));
      }
    }
  }

  /** A successful booking keeps the tables well formed: the new row's key is
      its id and its room exists. */
  lemma BookKeepsWellFormed(hotels: map<Id, Hotel>, rooms: map<Id, Room>, bookings: map<Id, Booking>, userId: Id,
                            roomId: Id, checkIn: Option<int>, checkOut: Option<int>, newId: Id)
    requires WellFormed(hotels, rooms, bookings)
    requires Book(rooms, bookings, userId, roomId, checkIn, checkOut, newId).Ok?
    ensures WellFormed(hotels, rooms[roomId := rooms[roomId].(status := Reserved)],
                       bookings[newId := Book(rooms, bookings, userId, roomId, checkIn, checkOut, newId).value])
  {
  }

  /** A successful booking keeps every room with an active booking out of
      AVAILABLE: its own room becomes RESERVED. */
  lemma BookKeepsRoomsHeld(rooms: map<Id, Room>, bookings: map<Id, Booking>, userId: Id, roomId: Id,
                           checkIn: Option<int>, checkOut: Option<int>, newId: Id)
    requires ActiveRoomsHeld(rooms, bookings)
    requires Book(rooms, bookings, userId, roomId, checkIn, checkOut, newId).Ok?
    ensures ActiveRoomsHeld(rooms[roomId := rooms[roomId].(status := Reserved)],
                            bookings[newId := Book(rooms, bookings, userId, roomId, checkIn, checkOut, newId).value])
  {
  }

  /** While the rooms reflect their active bookings, a room that has one
      refuses every further booking at the status check, whatever the dates;
      the overlap query is never reached for it. */
  lemma HeldRoomRefusesBooking(rooms: map<Id, Room>, bookings: map<Id, Booking>, userId: Id, roomId: Id,
                               checkIn: Option<int>, checkOut: Option<int>, newId: Id)
    requires ActiveRoomsHeld(rooms, bookings) && HasActiveBooking(bookings, roomId)
    requires ValidateStay(checkIn, checkOut).Ok?
    ensures Book(rooms, bookings, userId, roomId, checkIn, checkOut, newId) == Err(BadRequest("Room is not available"))
  {
    var id :| id in bookings && bookings[id].roomId == roomId && IsActive(bookings[id]);
    assert roomId in rooms && rooms[roomId].status != Available;
  }

  /** After one successful booking, a second booking of the same room fails
      with "Room is not available", even for stays that do not overlap
      (back to back, or months later). */
  lemma SecondBookingRefused(rooms: map<Id, Room>, bookings: map<Id, Booking>, userId: Id, roomId: Id,
                             checkIn: Option<int>, checkOut: Option<int>, newId: Id,
                             userId2: Id, checkIn2: Option<int>, checkOut2: Option<int>, newId2: Id)
    requires Book(rooms, bookings, userId, roomId, checkIn, checkOut, newId).Ok?
    requires ValidateStay(checkIn2, checkOut2).Ok?
    ensures Book(rooms[roomId := rooms[roomId].(status := Reserved)],
                 bookings[newId := Book(rooms, bookings, userId, roomId, checkIn, checkOut, newId).value],
                 userId2, roomId, checkIn2, checkOut2, newId2)
            == Err(BadRequest("Room is not available"))
  {
  }

  /** Stays that meet end to start do not overlap under the half-open test. */
  lemma BackToBackDoNotOverlap(b: Booking, checkOut: int)
    requires b.checkIn < b.checkOut
    ensures !Overlaps(b, b.checkOut, checkOut)
    ensures b.checkIn < checkOut ==> !Overlaps(b.(checkIn := b.checkOut, checkOut := checkOut), b.checkIn, b.checkOut)
  {
  }

  /** `maybeReleaseRoom`'s effect: the room becomes AVAILABLE when no PENDING
      or CONFIRMED booking references it; otherwise nothing changes. */
  function Released(rooms: map<Id, Room>, bookings: map<Id, Booking>, roomId: Id): (r: map<Id, Room>)
    requires roomId in rooms
    ensures r.Keys == rooms.Keys
    ensures forall k :: k in rooms && k != roomId ==> r[k] == rooms[k]
    ensures HasActiveBooking(bookings, roomId) ==> r == rooms
    ensures !HasActiveBooking(bookings, roomId) ==> r[roomId] == rooms[roomId].(status := Available)
  {
    if HasActiveBooking(bookings, roomId) then rooms
    else rooms[roomId := rooms[roomId].(status := Available)]
  }

  /** Releasing a second time changes nothing more. */
  lemma ReleasedIdempotent(rooms: map<Id, Room>, bookings: map<Id, Booking>, roomId: Id)
    requires roomId in rooms
    ensures Released(Released(rooms, bookings, roomId), bookings, roomId) == Released(rooms, bookings, roomId)
  {
  }

  /** Release never frees a room that an active booking still holds. */
  lemma ReleasedKeepsRoomsHeld(rooms: map<Id, Room>, bookings: map<Id, Booking>, roomId: Id)
    requires roomId in rooms && ActiveRoomsHeld(rooms, bookings)
    ensures ActiveRoomsHeld(Released(rooms, bookings, roomId), bookings)
  {
    var r := Released(rooms, bookings, roomId);
    forall id | id in bookings && IsActive(bookings[id])
      ensures bookings[id].roomId in r && r[bookings[id].roomId].status != Available
    {
      if bookings[id].roomId == roomId {
        assert HasActiveBooking(bookings, roomId);
      }
    }
  }

  /** Release does not look at the room's current status: an UNAVAILABLE
      room (one under maintenance) is made AVAILABLE as soon as it holds no
      active booking. */
  lemma ReleaseOverridesMaintenance(rooms: map<Id, Room>, bookings: map<Id, Booking>, roomId: Id)
    requires roomId in rooms && rooms[roomId].status == Unavailable
    requires forall id :: id in bookings ==> bookings[id].roomId != roomId
    ensures Released(rooms, bookings, roomId)[roomId].status == Available
  {
  }

  /** `ensureAdminOwnsBooking`: NotFound for an unknown booking, Forbidden
      unless the caller administers the hotel of the booking's room. */
  function EnsureAdminOwnsBooking(hotels: map<Id, Hotel>, rooms: map<Id, Room>, bookings: map<Id, Booking>,
                                  adminId: Id, bookingId: Id): (r: Result<Booking, Exception>)
    requires WellFormed(hotels, rooms, bookings)
    ensures r == Err(NotFound("Booking not found")) <==> bookingId !in bookings
    ensures r.Ok? <==> bookingId in bookings && ManagedBy(hotels[rooms[bookings[bookingId].roomId].hotelId], adminId)
    ensures r.Ok? ==> r.value == bookings[bookingId]
    ensures r.Err? && bookingId in bookings ==> r == Err(Forbidden("Not allowed to manage this booking"))
  {
    if bookingId !in bookings then Err(NotFound("Booking not found"))
    else
      var hotel := hotels[rooms[bookings[bookingId].roomId].hotelId];
      if !ManagedBy(hotel, adminId) then Err(Forbidden("Not allowed to manage this booking"))
      else Ok(bookings[bookingId])
  }

  /** Changing a booking's status keeps the invariant when the booking is
      cancelled or already held its room. */
  lemma StatusChangeKeepsNoDoubleBooking(bookings: map<Id, Booking>, id: Id, status: BookingStatus)
    requires NoDoubleBooking(bookings) && id in bookings
    requires status == Cancelled || IsActive(bookings[id])
    ensures NoDoubleBooking(bookings[id := bookings[id].(status := status)])
  {
    var after := bookings[id := bookings[id].(status := status)];
    forall i, j | i in after && j in after && i != j
      && after[i].roomId == after[j].roomId && IsActive(after[i]) && IsActive(after[j])
      ensures !Overlaps(after[i], after[j].checkIn, after[j].checkOut)
    {
      assert IsActive(bookings[i]) && IsActive(bookings[j]);
    }
  }

  /** Two bookings of room "r" for the same night; the second was cancelled. */
  function ReactivationExample(): map<Id, Booking> {
    map["a" := Booking("a", "u", "r", 0, MS_PER_DAY, Some(100), Confirmed, Unpaid, None),
        "b" := Booking("b", "u", "r", 0, MS_PER_DAY, Some(100), Cancelled, Unpaid, None)]
  }

  /** The admin status route does not re-run the overlap query: setting a
      cancelled booking back to CONFIRMED can double-book its room. */
  lemma ReactivationCanDoubleBook()
    ensures NoDoubleBooking(ReactivationExample())
    ensures !NoDoubleBooking(ReactivationExample()["b" := ReactivationExample()["b"].(status := Confirmed)])
  {
    var before := ReactivationExample();
    var after := before["b" := before["b"].(status := Confirmed)];
    assert after["a"].roomId == after["b"].roomId && IsActive(after["a"]) && IsActive(after["b"]);
    assert Overlaps(after["a"], after["b"].checkIn, after["b"].checkOut);
  }

  /** Cancelling, then releasing, keeps every held room held. */
  lemma CancelKeepsRoomsHeld(rooms: map<Id, Room>, bookings: map<Id, Booking>, id: Id)
    requires ActiveRoomsHeld(rooms, bookings) && id in bookings && bookings[id].roomId in rooms
    ensures ActiveRoomsHeld(Released(rooms, bookings[id := bookings[id].(status := Cancelled)], bookings[id].roomId),
                            bookings[id := bookings[id].(status := Cancelled)])
  {
    var after := bookings[id := bookings[id].(status := Cancelled)];
    assert ActiveRoomsHeld(rooms, after);
    ReleasedKeepsRoomsHeld(rooms, after, bookings[id].roomId);
  }

  /** Deleting, then releasing, keeps every held room held. */
  lemma DeleteKeepsRoomsHeld(rooms: map<Id, Room>, bookings: map<Id, Booking>, id: Id)
    requires ActiveRoomsHeld(rooms, bookings) && id in bookings && bookings[id].roomId in rooms
    ensures ActiveRoomsHeld(Released(rooms, bookings - {id}, bookings[id].roomId), bookings - {id})
  {
    assert ActiveRoomsHeld(rooms, bookings - {id});
    ReleasedKeepsRoomsHeld(rooms, bookings - {id}, bookings[id].roomId);
  }

  datatype DeleteAck = DeleteAck(ok: bool, deletedId: Id)

  /** The answer of the payment stub; `amount` is the total in cents. */
  datatype PaymentStub = PaymentStub(
    clientSecret: string,
    paymentIntentId: string,
    amount: int,
    currency: string,
    stub: bool,
    message: string)

  const PAYMENT_STUB_MESSAGE: string := "Payment is stubbed; replace with your gateway integration later."

  class BookingsService {
    const prisma: Database

    constructor (prisma: Database)
      ensures this.prisma == prisma
    {
      this.prisma := prisma;
    }

    /** `maybeReleaseRoom` */
    method MaybeReleaseRoom(roomId: Id)
      requires prisma.Valid() && roomId in prisma.rooms
      modifies prisma
      ensures prisma.Valid()
      ensures prisma.rooms == Released(old(prisma.rooms), prisma.bookings, roomId)
      ensures prisma.bookings == old(prisma.bookings)
      ensures prisma.users == old(prisma.users) && prisma.hotels == old(prisma.hotels)
    {
      var hasActiveBookings := HasActiveBooking(prisma.bookings, roomId);
      if !hasActiveBookings {
        prisma.rooms := prisma.rooms[roomId := prisma.rooms[roomId].(status := Available)];
      }
    }

    /** `createBooking`: one transaction that locks the room, re-reads it,
        runs the overlap query, inserts the booking and reserves the room. On
        any failure neither table changes. `newId` is the id the database
        generates for the new row. */
    method CreateBooking(userId: Id, roomId: Id, checkIn: Option<int>, checkOut: Option<int>, newId: Id)
      returns (r: Result<Booking, Exception>)
      requires prisma.Valid() && newId !in prisma.bookings
      modifies prisma
      ensures prisma.Valid()
      ensures r == Book(old(prisma.rooms), old(prisma.bookings), userId, roomId, checkIn, checkOut, newId)
      ensures r.Err? ==> prisma.rooms == old(prisma.rooms) && prisma.bookings == old(prisma.bookings)
      ensures r.Ok? ==>
        && prisma.bookings == old(prisma.bookings)[newId := r.value]
        && prisma.rooms == old(prisma.rooms)[roomId := old(prisma.rooms)[roomId].(status := Reserved)]
      ensures prisma.users == old(prisma.users) && prisma.hotels == old(prisma.hotels)
      ensures old(NoDoubleBooking(prisma.bookings)) ==> NoDoubleBooking(prisma.bookings)
      ensures old(ActiveRoomsHeld(prisma.rooms, prisma.bookings)) ==> ActiveRoomsHeld(prisma.rooms, prisma.bookings)
    {
      var stay := ValidateStay(checkIn, checkOut);
      if stay.Err? {
        return Err(stay.error);
      }
      var nights := stay.value;
      // The transaction starts here; the row lock on the room is the store's business.
      var rooms, bookings := prisma.rooms, prisma.bookings;
      if roomId !in rooms {
        return Err(NotFound("Room not found"));
      }
      var room := rooms[roomId];
      if room.status != Available {
        return Err(BadRequest("Room is not available"));
      }
      var overlapping := HasActiveOverlap(bookings, roomId, checkIn.value, checkOut.value);
      if overlapping {
        return Err(BadRequest("Room is already booked for those dates"));
      }
      var totalPrice := room.pricePerNight * nights;
      var booking := Booking(newId, userId, roomId, checkIn.value, checkOut.value,
                             Some(totalPrice), Pending, Unpaid, None);
      assert Book(rooms, bookings, userId, roomId, checkIn, checkOut, newId) == Ok(booking);
      BookKeepsWellFormed(prisma.hotels, rooms, bookings, userId, roomId, checkIn, checkOut, newId);
      if NoDoubleBooking(bookings) {
        BookKeepsNoDoubleBooking(rooms, bookings, userId, roomId, checkIn, checkOut, newId);
      }
      if ActiveRoomsHeld(rooms, bookings) {
        BookKeepsRoomsHeld(rooms, bookings, userId, roomId, checkIn, checkOut, newId);
      }
      prisma.bookings := bookings[newId := booking];
      prisma.rooms := rooms[roomId := room.(status := Reserved)];
      r := Ok(booking);
    }

    /** `updateAdminBookingStatus`: ownership check, the status write, and a
        release of the room only when the new status is CANCELLED. */
    method UpdateAdminBookingStatus(adminId: Id, bookingId: Id, status: BookingStatus)
      returns (r: Result<Booking, Exception>)
      requires prisma.Valid()
      modifies prisma
      ensures prisma.Valid()
      ensures prisma.users == old(prisma.users) && prisma.hotels == old(prisma.hotels)
      ensures var own := EnsureAdminOwnsBooking(old(prisma.hotels), old(prisma.rooms), old(prisma.bookings), adminId, bookingId);
        if own.Err? then
          r == Err(own.error) && prisma.rooms == old(prisma.rooms) && prisma.bookings == old(prisma.bookings)
        else
          && r == Ok(own.value.(status := status))
          && prisma.bookings == old(prisma.bookings)[bookingId := own.value.(status := status)]
          && prisma.rooms == (if status == Cancelled then Released(old(prisma.rooms), prisma.bookings, own.value.roomId)
                              else old(prisma.rooms))
    {
      var own := EnsureAdminOwnsBooking(prisma.hotels, prisma.rooms, prisma.bookings, adminId, bookingId);
      if own.Err? {
        return Err(own.error);
      }
      var booking := own.value;
      var updated := booking.(status := status);
      prisma.bookings := prisma.bookings[bookingId := updated];
      if status == Cancelled {
        MaybeReleaseRoom(booking.roomId);
      }
      r := Ok(updated);
    }

    /** `deleteAdminBooking`: ownership check, removal of exactly that
        booking, then release of its room. */
    method DeleteAdminBooking(adminId: Id, bookingId: Id) returns (r: Result<DeleteAck, Exception>)
      requires prisma.Valid()
      modifies prisma
      ensures prisma.Valid()
      ensures prisma.users == old(prisma.users) && prisma.hotels == old(prisma.hotels)
      ensures var own := EnsureAdminOwnsBooking(old(prisma.hotels), old(prisma.rooms), old(prisma.bookings), adminId, bookingId);
        if own.Err? then
          r == Err(own.error) && prisma.rooms == old(prisma.rooms) && prisma.bookings == old(prisma.bookings)
        else
          && r == Ok(DeleteAck(true, bookingId))
          && prisma.bookings == old(prisma.bookings) - {bookingId}
          && prisma.rooms == Released(old(prisma.rooms), prisma.bookings, own.value.roomId)
    {
      var own := EnsureAdminOwnsBooking(prisma.hotels, prisma.rooms, prisma.bookings, adminId, bookingId);
      if own.Err? {
        return Err(own.error);
      }
      prisma.bookings := prisma.bookings - {bookingId};
      MaybeReleaseRoom(own.value.roomId);
      r := Ok(DeleteAck(true, bookingId));
    }

    /** `createPaymentStub`: the booking must be the caller's, unpaid, and
        priced; the stub intent id is written on it. */
    method CreatePaymentStub(bookingId: Id, userId: Id) returns (r: Result<PaymentStub, Exception>)
      requires prisma.Valid()
      modifies prisma
      ensures prisma.Valid()
      ensures prisma.users == old(prisma.users) && prisma.hotels == old(prisma.hotels) && prisma.rooms == old(prisma.rooms)
      ensures bookingId !in old(prisma.bookings) || old(prisma.bookings)[bookingId].userId != userId ==>
        r == Err(NotFound("Booking not found"))
      ensures bookingId in old(prisma.bookings) && old(prisma.bookings)[bookingId].userId == userId ==>
        var b := old(prisma.bookings)[bookingId];
        && (b.paymentStatus == Paid ==> r == Err(BadRequest("Booking is already paid")))
        && (b.paymentStatus != Paid && b.totalPrice.None? ==> r == Err(BadRequest("Booking total price is missing")))
        && (b.paymentStatus != Paid && b.totalPrice.Some? ==>
              r == Ok(PaymentStub("stub_client_secret", "stub_" + bookingId, b.totalPrice.value, "usd", true,
                                  PAYMENT_STUB_MESSAGE)))
      ensures r.Err? ==> prisma.bookings == old(prisma.bookings)
      ensures r.Ok? ==>
        prisma.bookings ==
          old(prisma.bookings)[bookingId := old(prisma.bookings)[bookingId].(paymentIntentId := Some("stub_" + bookingId))]
    {
      if bookingId !in prisma.bookings || prisma.bookings[bookingId].userId != userId {
        return Err(NotFound("Booking not found"));
      }
      var booking := prisma.bookings[bookingId];
      if booking.paymentStatus == Paid {
        return Err(BadRequest("Booking is already paid"));
      }
      if booking.totalPrice.None? {
        return Err(BadRequest("Booking total price is missing"));
      }
      var paymentIntentId := "stub_" + booking.id;
      prisma.bookings := prisma.bookings[bookingId := booking.(paymentIntentId := Some(paymentIntentId))];
      r := Ok(PaymentStub("stub_client_secret", paymentIntentId, booking.totalPrice.value, "usd", true,
                          PAYMENT_STUB_MESSAGE));
    }
  }
}

=== FILE: hotels.dfy ===
/** Hotel search and detail (`HotelsService`): the list query with its
    optional city, free-text and price-range filters, capped at `limit`, each
    hotel with its starting price; and one hotel with its rooms, cheapest
    first, without the rooms an active booking holds for the asked stay.
    Database queries are modelled as loops over the tables. */
module Hotels {
  import opened Wrappers
  import opened Exceptions
  import opened Store
  import Strings
  import Bookings

  /** The list query as the controller hands it over. */
  datatype SearchQuery = SearchQuery(
    city: Option<string>,
    q: Option<string>,
    limit: nat,
    minPrice: Option<int>,
    maxPrice: Option<int>)

  /** One entry of the `AND` list the query builds. */
  datatype Filter =
    | CityContains(city: string)
    | TextContains(text: string)
    | PriceBetween(min: Option<int>, max: Option<int>)

  /** A truthy (present and non-empty) string parameter. */
  predicate Given(s: Option<string>) {
    s.Some? && s.value != ""
  }

  /** Both bounds inclusive, each optional. */
  predicate InRange(price: int, min: Option<int>, max: Option<int>) {
    (min.None? || price >= min.value) && (max.None? || price <= max.value)
  }

  /** Some room of the hotel is priced within the range. */
  predicate HasRoomInRange(rooms: map<Id, Room>, hotelId: Id, min: Option<int>, max: Option<int>) {
    exists id :: id in rooms && rooms[id].hotelId == hotelId && InRange(rooms[id].pricePerNight, min, max)
  }

  /** The free-text match on any of the four text fields. */
  predicate MentionsText(h: Hotel, text: string) {
    || Strings.ContainsInsensitive(h.name, text)
    || Strings.ContainsInsensitive(h.address, text)
    || Strings.ContainsInsensitive(h.city, text)
    || Strings.ContainsInsensitive(h.country, text)
  }

  predicate Holds(rooms: map<Id, Room>, h: Hotel, f: Filter) {
    match f
    case CityContains(city) => Strings.ContainsInsensitive(h.city, city)
    case TextContains(text) => MentionsText(h, text)
    case PriceBetween(min, max) => HasRoomInRange(rooms, h.id, min, max)
  }

  predicate HoldsAll(rooms: map<Id, Room>, h: Hotel, filters: seq<Filter>) {
    forall i :: 0 <= i < |filters| ==> Holds(rooms, h, filters[i])
  }

  /** What the list search means: a given city is contained in the hotel's
      city, a given text in one of its text fields, and a given price bound
      admits one of its rooms; all ignoring letter case. */
  predicate Satisfies(rooms: map<Id, Room>, h: Hotel, query: SearchQuery) {
    && (Given(query.city) ==> Strings.ContainsInsensitive(h.city, query.city.value))
    && (Given(query.q) ==> MentionsText(h, query.q.value))
    && (query.minPrice.Some? || query.maxPrice.Some? ==>
          HasRoomInRange(rooms, h.id, query.minPrice, query.maxPrice))
  }

  /** The filter list `findAll` pushes, one entry per given criterion; the
      conjunction of the list is the search's meaning. */
  method BuildFilters(query: SearchQuery) returns (and: seq<Filter>)
    ensures |and| <= 3
    ensures and == [] <==> !Given(query.city) && !Given(query.q) && query.minPrice.None? && query.maxPrice.None?
    ensures forall rooms, h :: HoldsAll(rooms, h, and) <==> Satisfies(rooms, h, query)
  {
    and := [];
    if Given(query.city) {
      and := and + [CityContains(query.city.value)];
    }
    if Given(query.q) {
      and := and + [TextContains(query.q.value)];
    }
    if query.minPrice.Some? || query.maxPrice.Some? {
      var min: Option<int> := None;
      var max: Option<int> := None;
      if query.minPrice.Some? {
        min := query.minPrice;
      }
      if query.maxPrice.Some? {
        max := query.maxPrice;
      }
      and := and + [PriceBetween(min, max)];
    }
    forall rooms, h ensures HoldsAll(rooms, h, and) <==> Satisfies(rooms, h, query) {
      FiltersMeaning(rooms, h, query, and);
    }
  }

  /** The three possible filter lists mean the search. */
  lemma FiltersMeaning(rooms: map<Id, Room>, h: Hotel, query: SearchQuery, and: seq<Filter>)
    requires and == (if Given(query.city) then [CityContains(query.city.value)] else [])
                     + (if Given(query.q) then [TextContains(query.q.value)] else [])
                     + (if query.minPrice.Some? || query.maxPrice.Some?
                        then [PriceBetween(query.minPrice, query.maxPrice)] else [])
    ensures HoldsAll(rooms, h, and) <==> Satisfies(rooms, h, query)
  {
    var c := if Given(query.city) then [CityContains(query.city.value)] else [];
    var t := if Given(query.q) then [TextContains(query.q.value)] else [];
    var p := if query.minPrice.Some? || query.maxPrice.Some? then [PriceBetween(query.minPrice, query.maxPrice)] else [];
    if HoldsAll(rooms, h, and) {
      if Given(query.city) { assert and[0] == CityContains(query.city.value); }
      if Given(query.q) { assert and[|c|] == TextContains(query.q.value); }
      if query.minPrice.Some? || query.maxPrice.Some? { assert and[|c| + |t|] == p[0]; }
    }
    if Satisfies(rooms, h, query) {
      forall i | 0 <= i < |and| ensures Holds(rooms, h, and[i]) {
        if i < |c| { assert and[i] == c[i]; }
        else if i < |c| + |t| { assert and[i] == t[i - |c|]; }
        else { assert and[i] == p[i - |c| - |t|]; }
      }
    }
  }

  /** `p` is the hotel's starting price: `None` for a hotel without rooms,
      otherwise the lowest nightly price among its rooms. */
  predicate IsStartingPrice(rooms: map<Id, Room>, hotelId: Id, p: Option<int>) {
    && (p.None? <==> forall id :: id in rooms ==> rooms[id].hotelId != hotelId)
    && (p.Some? ==>
          && (exists id :: id in rooms && rooms[id].hotelId == hotelId && rooms[id].pricePerNight == p.value)
          && (forall id :: id in rooms && rooms[id].hotelId == hotelId ==> p.value <= rooms[id].pricePerNight))
  }

  /** A row of the hotel list. The rating column is not modelled. */
  datatype HotelSummary = HotelSummary(id: Id, name: string, city: string, country: string, startingPrice: Option<int>)

  /** `v` is the list row of a hotel that satisfies the search. */
  predicate IsSummary(hotels: map<Id, Hotel>, rooms: map<Id, Room>, query: SearchQuery, v: HotelSummary) {
    && v.id in hotels
    && Satisfies(rooms, hotels[v.id], query)
    && v.name == hotels[v.id].name && v.city == hotels[v.id].city && v.country == hotels[v.id].country
    && IsStartingPrice(rooms, v.id, v.startingPrice)
  }

  /** Some row of the list is the hotel `id`. */
  predicate Lists(s: seq<HotelSummary>, id: Id) {
    exists i :: 0 <= i < |s| && s[i].id == id
  }

  lemma AppendSummary(s: seq<HotelSummary>, v: HotelSummary)
    ensures Lists(s + [v], v.id)
    ensures forall id :: Lists(s, id) ==> Lists(s + [v], id)
  {
    assert (s + [v])[|s|] == v;
    forall id | Lists(s, id) ensures Lists(s + [v], id) {
      var i :| 0 <= i < |s| && s[i].id == id;
      assert (s + [v])[i] == s[i];
    }
  }

  /** The stay a detail request asks about, both instants in milliseconds. */
  datatype Stay = Stay(checkIn: int, checkOut: int)

  /** A room is shown for a stay unless an active booking of it overlaps the
      stay (the very test `createBooking` runs); without a stay every room
      is shown. */
  predicate Shown(bookings: map<Id, Booking>, roomId: Id, stay: Option<Stay>) {
    stay.None? || !HasActiveOverlap(bookings, roomId, stay.value.checkIn, stay.value.checkOut)
  }

  predicate SortedByPrice(s: seq<Room>) {
    forall i, j :: 0 <= i < j < |s| ==> s[i].pricePerNight <= s[j].pricePerNight
  }

  /** Inserts a room after every strictly cheaper one and before the rest. */
  function InsertByPrice(s: seq<Room>, r: Room): (t: seq<Room>)
    ensures |t| == |s| + 1
  {
    if s == [] || r.pricePerNight <= s[0].pricePerNight then [r] + s
    else [s[0]] + InsertByPrice(s[1..], r)
  }

  /** Insertion keeps the list sorted and adds exactly the one room. */
  lemma {:induction false} InsertByPriceSorted(s: seq<Room>, r: Room)
    requires SortedByPrice(s)
    ensures SortedByPrice(InsertByPrice(s, r))
    ensures forall x :: x in InsertByPrice(s, r) <==> x in s || x == r
  {
    if s != [] && r.pricePerNight > s[0].pricePerNight {
      var rest := InsertByPrice(s[1..], r);
      InsertByPriceSorted(s[1..], r);
      var t := [s[0]] + rest;
      assert s == [s[0]] + s[1..];
      forall x ensures x in t <==> x in s || x == r {
        assert x in t <==> x == s[0] || x in rest;
      }
      forall i, j | 0 <= i < j < |t| ensures t[i].pricePerNight <= t[j].pricePerNight {
        assert t[j] == rest[j - 1];
        if i == 0 {
          assert t[j] in rest;
          if t[j] != r {
            var k :| 0 <= k < |s[1..]| && s[1..][k] == t[j];
            assert s[k + 1] == t[j];
          }
        } else {
          assert t[i] == rest[i - 1];
        }
      }
    }
  }

  predicate DistinctRooms(s: seq<Room>) {
    forall i, j :: 0 <= i < j < |s| ==> s[i].id != s[j].id
  }

  /** Inserting a room whose id is not yet listed keeps every room listed
      once. */
  lemma {:induction false} InsertByPriceDistinct(s: seq<Room>, r: Room)
    requires SortedByPrice(s) && DistinctRooms(s)
    requires forall x :: x in s ==> x.id != r.id
    ensures DistinctRooms(InsertByPrice(s, r))
  {
    var t := InsertByPrice(s, r);
    if s == [] || r.pricePerNight <= s[0].pricePerNight {
      forall i, j | 0 <= i < j < |t| ensures t[i].id != t[j].id {
        assert t[j] == s[j - 1];
        if i > 0 { assert t[i] == s[i - 1]; }
      }
    } else {
      var tail := s[1..];
      forall i, j | 0 <= i < j < |tail| ensures tail[i].id != tail[j].id {
        assert tail[i] == s[i + 1] && tail[j] == s[j + 1];
      }
      InsertByPriceDistinct(tail, r);
      InsertByPriceSorted(tail, r);
      var rest := InsertByPrice(tail, r);
      assert t == [s[0]] + rest;
      forall x | x in rest ensures x.id != s[0].id {
        if x != r {
          var k :| 0 <= k < |tail| && tail[k] == x;
          assert s[k + 1] == x;
        }
      }
      forall i, j | 0 <= i < j < |t| ensures t[i].id != t[j].id {
        assert t[j] == rest[j - 1];
        if i > 0 { assert t[i] == rest[i - 1]; }
      }
    }
  }

  /** The detail page and the booking transaction agree: a room shown for a
      stay passes the booking's overlap check for that stay, and an AVAILABLE
      one is booked; a room hidden for the stay is refused. */
  lemma ShownMeansBookable(rooms: map<Id, Room>, bookings: map<Id, Booking>, userId: Id, roomId: Id,
                           stay: Stay, newId: Id)
    requires stay.checkIn < stay.checkOut
    ensures var r := Bookings.Book(rooms, bookings, userId, roomId, Some(stay.checkIn), Some(stay.checkOut), newId);
      && (Shown(bookings, roomId, Some(stay)) ==> r != Err(BadRequest("Room is already booked for those dates")))
      && (Shown(bookings, roomId, Some(stay)) && roomId in rooms && rooms[roomId].status == Available ==> r.Ok?)
      && (!Shown(bookings, roomId, Some(stay)) ==> r.Err?)
  {
  }

  /** The state of `findAll`'s scan: the rows so far are summaries of
      satisfying hotels already scanned, each listed once, and every
      satisfying hotel already scanned is listed. */
  ghost predicate Page(hotels: map<Id, Hotel>, rooms: map<Id, Room>, query: SearchQuery,
                       r: seq<HotelSummary>, remaining: set<Id>) {
    && remaining <= hotels.Keys
    && |r| <= query.limit
    && (forall i :: 0 <= i < |r| ==> IsSummary(hotels, rooms, query, r[i]) && r[i].id !in remaining)
    && (forall i, j :: 0 <= i < j < |r| ==> r[i].id != r[j].id)
    && (forall id :: id in hotels && id !in remaining && Satisfies(rooms, hotels[id], query) ==> Lists(r, id))
  }

  /** Scanning a hotel the search rejects keeps the page as it is. */
  lemma PageSkip(hotels: map<Id, Hotel>, rooms: map<Id, Room>, query: SearchQuery,
                 r: seq<HotelSummary>, remaining: set<Id>, id: Id)
    requires Page(hotels, rooms, query, r, remaining) && id in remaining
    requires !Satisfies(rooms, hotels[id], query)
    ensures Page(hotels, rooms, query, r, remaining - {id})
  {
  }

  /** Scanning a satisfying hotel appends its row. */
  lemma PageTake(hotels: map<Id, Hotel>, rooms: map<Id, Room>, query: SearchQuery,
                 r: seq<HotelSummary>, remaining: set<Id>, row: HotelSummary)
    requires Page(hotels, rooms, query, r, remaining) && row.id in remaining && |r| < query.limit
    requires IsSummary(hotels, rooms, query, row)
    ensures Page(hotels, rooms, query, r + [row], remaining - {row.id})
  {
    var t := r + [row];
    AppendSummary(r, row);
    forall i | 0 <= i < |t| ensures IsSummary(hotels, rooms, query, t[i]) && t[i].id !in remaining - {row.id} {
      if i < |r| { assert t[i] == r[i]; }
    }
    forall i, j | 0 <= i < j < |t| ensures t[i].id != t[j].id {
      assert t[i] == r[i];
      if j < |r| { assert t[j] == r[j]; }
    }
  }

  /** One hotel with the rooms the detail page shows. */
  datatype HotelDetail = HotelDetail(hotel: Hotel, rooms: seq<Room>)

  class HotelsService {
    const prisma: Database

    constructor (prisma: Database)
      ensures this.prisma == prisma
    {
      this.prisma := prisma;
    }

    /** The starting price of a hotel (`rooms` ordered by price, first one). */
    method StartingPrice(hotelId: Id) returns (p: Option<int>)
      ensures IsStartingPrice(prisma.rooms, hotelId, p)
    {
      var all := prisma.rooms;
      var remaining := all.Keys;
      p := None;
      while remaining != {}
        invariant remaining <= all.Keys
        invariant p.None? <==> forall id :: id in all && id !in remaining ==> all[id].hotelId != hotelId
        invariant p.Some? ==>
          && (exists id :: id in all && id !in remaining && all[id].hotelId == hotelId && all[id].pricePerNight == p.value)
          && (forall id :: id in all && id !in remaining && all[id].hotelId == hotelId ==>
                p.value <= all[id].pricePerNight)
        decreases remaining
      {
        var id :| id in remaining;
        remaining := remaining - {id};
        var room := all[id];
        if room.hotelId == hotelId && (p.None? || room.pricePerNight < p.value) {
          p := Some(room.pricePerNight);
        }
      }
    }

    /** `findAll`: at most `limit` hotels, each satisfying the search, each
        once, with its starting price; fewer than `limit` only when every
        satisfying hotel is listed. Which hotels fill the page when more
        match is the database's choice. */
    method FindAll(query: SearchQuery) returns (r: seq<HotelSummary>)
      requires prisma.Valid()
      ensures |r| <= query.limit
      ensures forall i :: 0 <= i < |r| ==> IsSummary(prisma.hotels, prisma.rooms, query, r[i])
      ensures forall i, j :: 0 <= i < j < |r| ==> r[i].id != r[j].id
      ensures |r| < query.limit ==>
        forall id :: id in prisma.hotels && Satisfies(prisma.rooms, prisma.hotels[id], query) ==> Lists(r, id)
    {
      var and := BuildFilters(query);
      var hotels, rooms := prisma.hotels, prisma.rooms;
      var remaining := hotels.Keys;
      r := [];
      while remaining != {} && |r| < query.limit
        invariant Page(hotels, rooms, query, r, remaining)
        decreases remaining
      {
        var id :| id in remaining;
        var hotel := hotels[id];
        assert HoldsAll(rooms, hotel, and) <==> Satisfies(rooms, hotel, query);
        if HoldsAll(rooms, hotel, and) {
          var startingPrice := StartingPrice(hotel.id);
          var row := HotelSummary(hotel.id, hotel.name, hotel.city, hotel.country, startingPrice);
          PageTake(hotels, rooms, query, r, remaining, row);
          r := r + [row];
        } else {
          PageSkip(hotels, rooms, query, r, remaining, id);
        }
        remaining := remaining - {id};
      }
    }

    /** `findOne`: the hotel with every room of it the stay leaves free (all
        of them without a stay), cheapest first; `None` for an unknown id. */
    method FindOne(id: Id, stay: Option<Stay>) returns (r: Option<HotelDetail>)
      requires prisma.Valid()
      ensures r.None? <==> id !in prisma.hotels
      ensures r.Some? ==>
        && r.value.hotel == prisma.hotels[id]
        && SortedByPrice(r.value.rooms)
        && DistinctRooms(r.value.rooms)
        && (forall room :: room in r.value.rooms <==>
              room.id in prisma.rooms && prisma.rooms[room.id] == room && room.hotelId == id
              && Shown(prisma.bookings, room.id, stay))
    {
      if id !in prisma.hotels {
        return None;
      }
      var all := prisma.rooms;
      var remaining := all.Keys;
      var rooms: seq<Room> := [];
      while remaining != {}
        invariant remaining <= all.Keys
        invariant SortedByPrice(rooms) && DistinctRooms(rooms)
        invariant forall room :: room in rooms <==>
          room.id in all && room.id !in remaining && all[room.id] == room && room.hotelId == id
          && Shown(prisma.bookings, room.id, stay)
        decreases remaining
      {
        var k :| k in remaining;
        remaining := remaining - {k};
        var room := all[k];
        if room.hotelId == id && Shown(prisma.bookings, k, stay) {
          InsertByPriceSorted(rooms, room);
          InsertByPriceDistinct(rooms, room);
          rooms := InsertByPrice(rooms, room);
        }
      }
      r := Some(HotelDetail(prisma.hotels[id], rooms));
    }
  }
}

=== FILE: hotels_controller.dfy ===
/** The public hotel routes (`HotelsController`): the list query's schema
    and defaults, and the check-in/check-out validation of the detail route.
    Date parsing (`new Date(text)`) is a function parameter that answers
    `None` where JavaScript yields an invalid date. */
module HotelsController {
  import opened Wrappers
  import opened Exceptions
  import opened Store
  import Hotels

  const DEFAULT_LIMIT: nat := 10
  const MAX_LIMIT: nat := 50

  /** The list query as it arrives; the numbers are already coerced. */
  datatype RawListQuery = RawListQuery(
    city: Option<string>,
    q: Option<string>,
    limit: Option<real>,
    price: Option<int>,
    minPrice: Option<int>,
    maxPrice: Option<int>)

  /** `min(1)` on an optional string. */
  predicate NonEmptyIfGiven(s: Option<string>) {
    s.None? || s.value != ""
  }

  /** `.int().positive().max(50)` */
  predicate ValidLimit(x: real) {
    x.Floor as real == x && 0.0 < x <= MAX_LIMIT as real
  }

  /** `.positive()` on an optional number. */
  predicate PositiveIfGiven(x: Option<int>) {
    x.None? || x.value > 0
  }

  /** The list route's query handling: the schema (first failing field
      reported), then `limit ?? 10` and `maxPrice ?? price`. */
  function ParseListQuery(raw: RawListQuery): (r: Result<Hotels.SearchQuery, Exception>)
    ensures r.Ok? <==>
      && NonEmptyIfGiven(raw.city) && NonEmptyIfGiven(raw.q)
      && (raw.limit.None? || ValidLimit(raw.limit.value))
      && PositiveIfGiven(raw.price) && PositiveIfGiven(raw.minPrice) && PositiveIfGiven(raw.maxPrice)
    ensures r.Ok? ==>
      && 1 <= r.value.limit <= MAX_LIMIT
      && (raw.limit.None? ==> r.value.limit == DEFAULT_LIMIT)
      && (raw.limit.Some? ==> r.value.limit as real == raw.limit.value)
      && r.value.city == raw.city && r.value.q == raw.q && r.value.minPrice == raw.minPrice
      && r.value.maxPrice == (if raw.maxPrice.Some? then raw.maxPrice else raw.price)
    ensures r.Err? ==> r.error.SchemaError?
  {
    if !NonEmptyIfGiven(raw.city) then Err(SchemaError("city"))
    else if !NonEmptyIfGiven(raw.q) then Err(SchemaError("q"))
    else if raw.limit.Some? && !ValidLimit(raw.limit.value) then Err(SchemaError("limit"))
    else if !PositiveIfGiven(raw.price) then Err(SchemaError("price"))
    else if !PositiveIfGiven(raw.minPrice) then Err(SchemaError("minPrice"))
    else if !PositiveIfGiven(raw.maxPrice) then Err(SchemaError("maxPrice"))
    else
      var limit: nat := if raw.limit.Some? then raw.limit.value.Floor else DEFAULT_LIMIT;
      var maxPrice := if raw.maxPrice.Some? then raw.maxPrice else raw.price;
      Ok(Hotels.SearchQuery(raw.city, raw.q, limit, raw.minPrice, maxPrice))
  }

  /** A date query parameter after `new Date(text)`: `None` is an invalid
      date. */
  function ParseDate(text: Option<string>, parse: string -> Option<int>): Option<Option<int>> {
    if text.Some? then Some(parse(text.value)) else None
  }

  /** The detail route's date checks, in order: the schema refuses an empty
      parameter; an invalid date; only one of the two; a check-out not after
      the check-in. What passes is either no stay or a proper one. */
  function ValidateStayQuery(checkIn: Option<string>, checkOut: Option<string>, parse: string -> Option<int>)
    : (r: Result<Option<Hotels.Stay>, Exception>)
    ensures checkIn == Some("") ==> r == Err(SchemaError("checkIn"))
    ensures checkIn != Some("") && checkOut == Some("") ==> r == Err(SchemaError("checkOut"))
    ensures NonEmptyIfGiven(checkIn) && NonEmptyIfGiven(checkOut) ==>
      && (r == Err(BadRequest("Invalid checkIn/checkOut")) <==>
            (checkIn.Some? && parse(checkIn.value).None?) || (checkOut.Some? && parse(checkOut.value).None?))
      && (r == Err(BadRequest("Provide both checkIn and checkOut")) <==>
            (checkIn.Some? && parse(checkIn.value).Some? && checkOut.None?)
            || (checkIn.None? && checkOut.Some? && parse(checkOut.value).Some?))
    ensures NonEmptyIfGiven(checkIn) && NonEmptyIfGiven(checkOut)
            && checkIn.Some? && checkOut.Some? && parse(checkIn.value).Some? && parse(checkOut.value).Some?
            && parse(checkOut.value).value <= parse(checkIn.value).value ==>
      r == Err(BadRequest("checkOut must be after checkIn"))
    ensures r == Ok(None) <==> checkIn.None? && checkOut.None?
    ensures r.Ok? && r.value.Some? <==>
      && checkIn.Some? && checkOut.Some? && checkIn.value != "" && checkOut.value != ""
      && parse(checkIn.value).Some? && parse(checkOut.value).Some?
      && parse(checkIn.value).value < parse(checkOut.value).value
    ensures r.Ok? && r.value.Some? ==>
      r.value.value == Hotels.Stay(parse(checkIn.value).value, parse(checkOut.value).value)
  {
    if checkIn == Some("") then Err(SchemaError("checkIn"))
    else if checkOut == Some("") then Err(SchemaError("checkOut"))
    else
      var start := ParseDate(checkIn, parse);
      var end := ParseDate(checkOut, parse);
      if (start.Some? && start.value.None?) || (end.Some? && end.value.None?) then
        Err(BadRequest("Invalid checkIn/checkOut"))
      else if start.Some? != end.Some? then
        Err(BadRequest("Provide both checkIn and checkOut"))
      else if start.Some? && end.value.value <= start.value.value then
        Err(BadRequest("checkOut must be after checkIn"))
      else if start.Some? then
        Ok(Some(Hotels.Stay(start.value.value, end.value.value)))
      else
        Ok(None)
  }

  class HotelsController {
    const hotelsService: Hotels.HotelsService

    constructor (hotelsService: Hotels.HotelsService)
      ensures this.hotelsService == hotelsService
    {
      this.hotelsService := hotelsService;
    }

    /** `GET /hotels`: the parsed query, handed to the search. */
    method FindAll(raw: RawListQuery) returns (r: Result<seq<Hotels.HotelSummary>, Exception>)
      requires hotelsService.prisma.Valid()
      ensures ParseListQuery(raw).Err? ==> r == Err(ParseListQuery(raw).error)
      ensures ParseListQuery(raw).Ok? ==>
        && r.Ok? && |r.value| <= ParseListQuery(raw).value.limit
        && forall i :: 0 <= i < |r.value| ==>
             Hotels.IsSummary(hotelsService.prisma.hotels, hotelsService.prisma.rooms, ParseListQuery(raw).value,
                              r.value[i])
    {
      var query := ParseListQuery(raw);
      if query.Err? {
        return Err(query.error);
      }
      var hotels := hotelsService.FindAll(query.value);
      r := Ok(hotels);
    }

    /** `GET /hotels/:id`: the validated stay, then the hotel, or NotFound. */
    method FindOne(id: Id, checkIn: Option<string>, checkOut: Option<string>, parse: string -> Option<int>)
      returns (r: Result<Hotels.HotelDetail, Exception>)
      requires hotelsService.prisma.Valid()
      ensures ValidateStayQuery(checkIn, checkOut, parse).Err? ==>
        r == Err(ValidateStayQuery(checkIn, checkOut, parse).error)
      ensures ValidateStayQuery(checkIn, checkOut, parse).Ok? && id !in hotelsService.prisma.hotels ==>
        r == Err(NotFound("Hotel not found"))
      ensures r.Ok? ==>
        && ValidateStayQuery(checkIn, checkOut, parse).Ok?
        && id in hotelsService.prisma.hotels && r.value.hotel == hotelsService.prisma.hotels[id]
        && Hotels.SortedByPrice(r.value.rooms)
        && Hotels.DistinctRooms(r.value.rooms)
        && forall room :: room in r.value.rooms <==>
             && room.id in hotelsService.prisma.rooms && hotelsService.prisma.rooms[room.id] == room
             && room.hotelId == id
             && Hotels.Shown(hotelsService.prisma.bookings, room.id, ValidateStayQuery(checkIn, checkOut, parse).value)
    {
      var stay := ValidateStayQuery(checkIn, checkOut, parse);
      if stay.Err? {
        return Err(stay.error);
      }
      var hotel := hotelsService.FindOne(id, stay.value);
      if hotel.None? {
        return Err(NotFound("Hotel not found"));
      }
      r := Ok(hotel.value);
    }
  }
}

=== FILE: location_store.dfy ===
/** The web client's location store: how the city is chosen (by hand or by
    GPS), the chosen city, the GPS place label and whether a GPS lookup is
    under way. The lookup itself happens elsewhere; this store only records
    its start and its label. */
module LocationStore {
  import opened Wrappers

  datatype Mode = Manual | Gps

  datatype LocationState = LocationState(
    mode: Mode,
    selectedCity: string,
    gpsLabel: Option<string>,
    isLocating: bool)

  const DEFAULT_CITY: string := "Addis Ababa"

  const INITIAL: LocationState := LocationState(Manual, DEFAULT_CITY, None, false)

  datatype Action =
    | SetMode(mode: Mode)
    | SetCity(city: string)
    | StartLocating
    | SetGpsLabel(place: string)

  /** The state after one operation; each one sets only the fields it
      names. */
  function Apply(s: LocationState, a: Action): (r: LocationState)
    ensures a.SetMode? ==> r == s.(mode := a.mode)
    ensures a.SetCity? ==> r.selectedCity == a.city && r.mode == Manual
                           && r.gpsLabel == s.gpsLabel && r.isLocating == s.isLocating
    ensures a.StartLocating? ==> r.isLocating && r.mode == Gps
                                 && r.selectedCity == s.selectedCity && r.gpsLabel == s.gpsLabel
    ensures a.SetGpsLabel? ==> r.gpsLabel == Some(a.place) && !r.isLocating
                               && r.mode == s.mode && r.selectedCity == s.selectedCity
  {
    match a
    case SetMode(m) => s.(mode := m)
    case SetCity(c) => s.(selectedCity := c, mode := Manual)
    case StartLocating => s.(isLocating := true, mode := Gps)
    case SetGpsLabel(l) => s.(gpsLabel := Some(l), isLocating := false)
  }

  /** A GPS lookup that starts and then reports a label ends in GPS mode,
      not locating, with that label, and the selected city untouched. */
  lemma GpsLookupFlow(s: LocationState, place: string)
    ensures Apply(Apply(s, StartLocating), SetGpsLabel(place))
         == s.(mode := Gps, gpsLabel := Some(place), isLocating := false)
  {
  }

  /** Picking a city during a GPS lookup switches back to manual but leaves
      the lookup flag set until a label arrives. */
  lemma SetCityKeepsLocating(s: LocationState, city: string)
    ensures Apply(Apply(s, StartLocating), SetCity(city)).isLocating
    ensures Apply(Apply(s, StartLocating), SetCity(city)).mode == Manual
  {
  }

  class LocationStoreState {
    var mode: Mode
    var selectedCity: string
    var gpsLabel: Option<string>
    var isLocating: bool

    function State(): LocationState
      reads this
    {
      LocationState(mode, selectedCity, gpsLabel, isLocating)
    }

    /** The store starts in manual mode on Addis Ababa, with no label and no
        lookup. */
    constructor ()
      ensures State() == INITIAL
    {
      mode := Manual;
      selectedCity := DEFAULT_CITY;
      gpsLabel := None;
      isLocating := false;
    }

    /** `setMode` */
    method SetMode(m: Mode)
      modifies this
      ensures State() == Apply(old(State()), Action.SetMode(m))
    {
      mode := m;
    }

    /** `setCity` */
    method SetCity(city: string)
      modifies this
      ensures State() == Apply(old(State()), Action.SetCity(city))
    {
      selectedCity := city;
      mode := Manual;
    }

    /** `startLocating` */
    method StartLocating()
      modifies this
      ensures State() == Apply(old(State()), Action.StartLocating)
    {
      isLocating := true;
      mode := Gps;
    }

    /** `setGpsLabel` */
    method SetGpsLabel(place: string)
      modifies this
      ensures State() == Apply(old(State()), Action.SetGpsLabel(place))
    {
      gpsLabel := Some(place);
      isLocating := false;
    }
  }
}

=== FILE: realtime.dfy ===
/** The realtime room gateway (`RoomsGateway`): connect-time authentication
    from the handshake, topic membership `room:<id>`, and the `room:update`
    broadcasts. The socket server is modelled by the state the gateway can
    observe: the user attached to each connection, the topics each connection
    has joined, the connections it has dropped, and an outbox of every emission
    with the connections it reached. */
module Realtime {
  import opened Wrappers
  import opened Exceptions
  import Strings

  type ConnId = string

  /** What a client sends when it connects: `auth.token` and the
      `Authorization` header, each possibly absent. */
  datatype Handshake = Handshake(authToken: Option<string>, authorization: Option<string>)

  /** The claims of a verified access token. */
  datatype JwtPayload = JwtPayload(sub: Option<string>, email: Option<string>, role: Option<string>)

  /** `client.data.user` */
  datatype SocketUser = SocketUser(id: string, email: Option<string>, role: Option<string>)

  /** The body of a `room:update` event; `source` is absent on updates relayed
      from an admin's socket. The `at` timestamp is not modelled. */
  datatype UpdatePayload = UpdatePayload(roomId: string, status: Option<string>, source: Option<string>)

  /** One `server.to(topic).emit(event, payload)`, with the connections that
      were members of the topic at that moment. */
  datatype Emission = Emission(topic: string, event: string, payload: UpdatePayload, deliveredTo: set<ConnId>)

  datatype Ack = Ack(ok: bool)

  const BEARER: string := "bearer "

  /** The topic a room's subscribers join. */
  function Topic(roomId: string): (t: string)
    ensures Strings.StartsWith(t, "room:") && t[5..] == roomId
  {
    "room:" + roomId
  }

  /** Distinct rooms have distinct topics. */
  lemma TopicInjective(a: string, b: string)
    requires Topic(a) == Topic(b)
    ensures a == b
  {
    assert a == Topic(a)[5..];
  }

  /** The handshake `auth.token`, when it is not blank, trimmed. */
  predicate HasAuthToken(h: Handshake) {
    h.authToken.Some? && Strings.Trim(h.authToken.value) != ""
  }

  /** An `Authorization` header whose scheme is "bearer " in any letter case. */
  predicate HasBearerHeader(h: Handshake) {
    h.authorization.Some? && Strings.StartsWith(Strings.ToLower(h.authorization.value), BEARER)
  }

  /** `getTokenFromSocket`: a non-blank `auth.token` wins; otherwise the
      trimmed credentials after a case-insensitive "bearer " scheme; otherwise
      nothing. */
  function GetTokenFromSocket(h: Handshake): (r: Option<string>)
    ensures HasAuthToken(h) ==> r == Some(Strings.Trim(h.authToken.value))
    ensures !HasAuthToken(h) && HasBearerHeader(h) ==> r == Some(Strings.Trim(h.authorization.value[|BEARER|..]))
    ensures r.None? <==> !HasAuthToken(h) && !HasBearerHeader(h)
    ensures r.Some? ==> Strings.IsTrimmed(r.value)
  {
    if HasAuthToken(h) then Some(Strings.Trim(h.authToken.value))
    else if HasBearerHeader(h) then Some(Strings.Trim(h.authorization.value[|BEARER|..]))
    else None
  }

  /** The auth scheme is matched ignoring case (section 2.1 of RFC 6750 names
      it "Bearer"): whatever the case of the scheme the header spells, the
      token is the trimmed text after it. */
  lemma BearerSchemeCaseInsensitive(scheme: string, credentials: string)
    requires Strings.ToLower(scheme) == BEARER
    ensures GetTokenFromSocket(Handshake(None, Some(scheme + credentials))) == Some(Strings.Trim(credentials))
  {
    var header := scheme + credentials;
    var lower := Strings.ToLower(header);
    var h := Handshake(None, Some(header));
    assert |scheme| == |BEARER|;
    forall i | 0 <= i < |BEARER|
      ensures lower[i] == BEARER[i]
    {
      assert header[i] == scheme[i];
      assert Strings.ToLower(scheme)[i] == Strings.LowerChar(scheme[i]);
    }
    assert lower[..|BEARER|] == BEARER;
    assert HasBearerHeader(h);
    assert !HasAuthToken(h);
    assert header[|BEARER|..] == credentials;
  }

  /** A blank `auth.token` does not shadow a valid header. */
  lemma BlankAuthTokenFallsBackToHeader(token: string, header: string)
    requires Strings.AllWhiteSpace(token)
    requires Strings.StartsWith(Strings.ToLower(header), BEARER)
    ensures GetTokenFromSocket(Handshake(Some(token), Some(header))) == Some(Strings.Trim(header[|BEARER|..]))
  {
    Strings.TrimBlank(token);
    assert !HasAuthToken(Handshake(Some(token), Some(header)));
  }

  /** The identity `handleConnection` attaches, or `None` when it drops the
      connection: no token, a token that does not verify (`verify` answers
      `None` where `verifyAsync` throws), or a payload without `sub`. */
  function Authenticate(h: Handshake, verify: string -> Option<JwtPayload>): (r: Option<SocketUser>)
    ensures r.Some? <==>
      && GetTokenFromSocket(h).Some? && GetTokenFromSocket(h).value != ""
      && verify(GetTokenFromSocket(h).value).Some?
      && verify(GetTokenFromSocket(h).value).value.sub.Some?
      && verify(GetTokenFromSocket(h).value).value.sub.value != ""
    ensures r.Some? ==>
      var p := verify(GetTokenFromSocket(h).value).value;
      r.value == SocketUser(p.sub.value, p.email, p.role)
  {
    var token := GetTokenFromSocket(h);
    if token.None? || token.value == "" then None
    else
      var payload := verify(token.value);
      if payload.None? || payload.value.sub.None? || payload.value.sub.value == "" then None
      else Some(SocketUser(payload.value.sub.value, payload.value.email, payload.value.role))
  }

  /** `body?.roomId?.trim()`, with absence and blankness both giving "". */
  function TrimmedRoomId(roomId: Option<string>): (r: string)
    ensures Strings.IsTrimmed(r)
    ensures roomId.Some? ==> r == Strings.Trim(roomId.value)
    ensures roomId.None? ==> r == ""
  {
    if roomId.Some? then Strings.Trim(roomId.value) else ""
  }

  class RoomsGateway {
    /** `client.data.user` of each authenticated connection. */
    var users: map<ConnId, SocketUser>
    /** The topics each connection has joined. */
    var topics: map<ConnId, set<string>>
    /** Connections the gateway has disconnected. */
    var dropped: set<ConnId>
    /** Every emission so far, oldest first. */
    var outbox: seq<Emission>

    constructor ()
      ensures users == map[] && topics == map[] && dropped == {} && outbox == []
    {
      users, topics, dropped, outbox := map[], map[], {}, [];
    }

    /** The connections that are members of `topic`. */
    function Recipients(topic: string): (r: set<ConnId>)
      reads this
      ensures forall c :: c in r <==> c in topics && topic in topics[c]
    {
      set c | c in topics && topic in topics[c]
    }

    /** `handleConnection`: attaches the verified identity, or disconnects
        (leaving every topic) and attaches nothing. */
    method HandleConnection(conn: ConnId, h: Handshake, verify: string -> Option<JwtPayload>)
      modifies this
      ensures outbox == old(outbox)
      ensures Authenticate(h, verify).Some? ==>
        && users == old(users)[conn := Authenticate(h, verify).value]
        && topics == old(topics) && dropped == old(dropped)
      ensures Authenticate(h, verify).None? ==>
        && users == old(users)
        && topics == old(topics) - {conn}
        && dropped == old(dropped) + {conn}
    {
      var user := Authenticate(h, verify);
      if user.None? {
        Disconnect(conn);
        return;
      }
      users := users[conn := user.value];
    }

    /** `client.disconnect(true)`: the connection leaves all its topics. */
    method Disconnect(conn: ConnId)
      modifies this
      ensures users == old(users) && outbox == old(outbox)
      ensures topics == old(topics) - {conn}
      ensures dropped == old(dropped) + {conn}
    {
      topics := topics - {conn};
      dropped := dropped + {conn};
    }

    /** `room:join`: a missing or blank room id is refused and nothing
        changes; otherwise the connection joins `room:<trimmed id>`. */
    method JoinRoom(conn: ConnId, roomId: Option<string>) returns (r: Result<Ack, Exception>)
      modifies this
      ensures users == old(users) && dropped == old(dropped) && outbox == old(outbox)
      ensures TrimmedRoomId(roomId) == "" ==> r == Err(WsError("roomId is required")) && topics == old(topics)
      ensures TrimmedRoomId(roomId) != "" ==>
        && r == Ok(Ack(true))
        && topics == old(topics)[conn := (if conn in old(topics) then old(topics)[conn] else {})
                                         + {Topic(TrimmedRoomId(roomId))}]
    {
      var id := TrimmedRoomId(roomId);
      if id == "" {
        return Err(WsError("roomId is required"));
      }
      var joined := if conn in topics then topics[conn] else {};
      topics := topics[conn := joined + {Topic(id)}];
      r := Ok(Ack(true));
    }

    /** `room:update` from a client: only a ROOM_ADMIN connection may relay an
        update (checked before the room id); it goes to the room's topic with
        `status ?? null` and no `source`. */
    method RoomUpdate(conn: ConnId, roomId: Option<string>, status: Option<string>)
      returns (r: Result<Ack, Exception>)
      modifies this
      ensures users == old(users) && topics == old(topics) && dropped == old(dropped)
      ensures !(conn in users && users[conn].role == Some("ROOM_ADMIN")) ==>
        r == Err(WsError("Forbidden")) && outbox == old(outbox)
      ensures conn in users && users[conn].role == Some("ROOM_ADMIN") && TrimmedRoomId(roomId) == "" ==>
        r == Err(WsError("roomId is required")) && outbox == old(outbox)
      ensures r.Ok? <==> conn in users && users[conn].role == Some("ROOM_ADMIN") && TrimmedRoomId(roomId) != ""
      ensures r.Ok? ==>
        && r.value == Ack(true)
        && outbox == old(outbox) + [Emission(Topic(TrimmedRoomId(roomId)), "room:update",
                                             UpdatePayload(TrimmedRoomId(roomId), status, None),
                                             Recipients(Topic(TrimmedRoomId(roomId))))]
    {
      if !(conn in users && users[conn].role == Some("ROOM_ADMIN")) {
        return Err(WsError("Forbidden"));
      }
      var id := TrimmedRoomId(roomId);
      if id == "" {
        return Err(WsError("roomId is required"));
      }
      var topic := Topic(id);
      outbox := outbox + [Emission(topic, "room:update", UpdatePayload(id, status, None), Recipients(topic))];
      r := Ok(Ack(true));
    }

    /** `notifyRoomUpdate`: the server's own announcement of a room's new
        status, to that room's subscribers, marked `source: "server"`. */
    method NotifyRoomUpdate(roomId: string, status: string)
      modifies this
      ensures users == old(users) && topics == old(topics) && dropped == old(dropped)
      ensures outbox == old(outbox) + [ServerUpdate(roomId, status)]
    {
      var topic := Topic(roomId);
      outbox := outbox + [Emission(topic, "room:update", UpdatePayload(roomId, Some(status), Some("server")),
                                   Recipients(topic))];
    }

    /** The emission `NotifyRoomUpdate(roomId, status)` appends. */
    function ServerUpdate(roomId: string, status: string): (e: Emission)
      reads this
      ensures e.topic == Topic(roomId) && e.event == "room:update"
      ensures e.payload == UpdatePayload(roomId, Some(status), Some("server"))
      ensures forall c :: c in e.deliveredTo <==> c in topics && Topic(roomId) in topics[c]
    {
      Emission(Topic(roomId), "room:update", UpdatePayload(roomId, Some(status), Some("server")),
               Recipients(Topic(roomId)))
    }

    /** A subscriber of one room receives that room's server updates, and a
        connection that joined only another room does not. */
    lemma ServerUpdateReachesOnlySubscribers(roomId: string, status: string, subscriber: ConnId, other: ConnId,
                                             otherRoom: string)
      requires subscriber in topics && Topic(roomId) in topics[subscriber]
      requires other in topics && topics[other] == {Topic(otherRoom)} && otherRoom != roomId
      ensures subscriber in ServerUpdate(roomId, status).deliveredTo
      ensures other !in ServerUpdate(roomId, status).deliveredTo
    {
      if Topic(roomId) == Topic(otherRoom) {
        TopicInjective(roomId, otherRoom);
      }
    }
  }

  /** A connection that joins a room, followed by the server's status change
      of that room, is among the receivers of the announcement. */
  method JoinThenNotify(g: RoomsGateway, conn: ConnId, roomId: string, status: string)
    requires Strings.Trim(roomId) != ""
    modifies g
    ensures |g.outbox| == |old(g.outbox)| + 1
    ensures g.outbox[|g.outbox| - 1].payload == UpdatePayload(Strings.Trim(roomId), Some(status), Some("server"))
    ensures conn in g.outbox[|g.outbox| - 1].deliveredTo
  {
    var ack := g.JoinRoom(conn, Some(roomId));
    g.NotifyRoomUpdate(Strings.Trim(roomId), status);
  }
}

=== FILE: redis.dfy ===
/** The key/value store the API keeps OTP entries and cached read
    projections in. Expiry (TTL) is not modelled: an entry stays until it is
    overwritten or deleted. */
module Redis {
  import opened Wrappers
  import Strings

  /** A stored value. The OTP entry is kept as the JSON object
      `{code, attempts}`; `Raw` stands for any other text, which the OTP
      check cannot parse as such an object. */
  datatype Value =
    | Raw(text: string)
    | OtpJson(code: string, attempts: Option<int>)

  /** The store with every key that starts with `prefix` removed. */
  function WithoutPrefix(m: map<string, Value>, prefix: string): (r: map<string, Value>)
    ensures forall k :: k in r <==> k in m && !Strings.StartsWith(k, prefix)
    ensures forall k :: k in r ==> r[k] == m[k]
  {
    map k | k in m && !Strings.StartsWith(k, prefix) :: m[k]
  }

  /** Removing one prefix never touches keys that start with another prefix
      neither is a prefix of: cache invalidation cannot delete an OTP entry. */
  lemma WithoutPrefixKeepsOtherPrefix(m: map<string, Value>, prefix: string, other: string, k: string)
    requires k in m && Strings.StartsWith(k, other)
    requires |prefix| >= 1 && |other| >= 1 && prefix[0] != other[0]
    ensures k in WithoutPrefix(m, prefix) && WithoutPrefix(m, prefix)[k] == m[k]
  {
    assert k[0] == other[0];
  }

  class RedisService {
    var store: map<string, Value>

    constructor ()
      ensures store == map[]
    {
      store := map[];
    }

    method Get(key: string) returns (v: Option<Value>)
      ensures v == if key in store then Some(store[key]) else None
    {
      v := if key in store then Some(store[key]) else None;
    }

    method Set(key: string, value: Value)
      modifies this
      ensures store == old(store)[key := value]
    {
      store := store[key := value];
    }

    method Del(key: string)
      modifies this
      ensures store == old(store) - {key}
    {
      store := store - {key};
    }

    /** Deletes every key that starts with `prefix`. */
    method DelByPrefix(prefix: string)
      modifies this
      ensures store == WithoutPrefix(old(store), prefix)
    {
      store := WithoutPrefix(store, prefix);
    }
  }
}

=== FILE: rooms.dfy ===
/** Room administration (`RoomsService`): the admin's room list and its
    status counts, and the three room mutations, each guarded by the hotel's
    ownership and followed by a realtime notification and the invalidation of
    the cached hotel projections. */
module Rooms {
  import opened Wrappers
  import opened Exceptions
  import opened Store
  import Strings
  import Realtime
  import Redis

  const DETAIL_PREFIX: string := "hotels:detail:"
  const LIST_PREFIX: string := "hotels:list:"

  /** `ensureAdminOwnsHotel`: NotFound for an unknown hotel, Forbidden unless
      the caller administers it. */
  function EnsureAdminOwnsHotel(hotels: map<Id, Hotel>, adminId: Id, hotelId: Id): (r: Result<Hotel, Exception>)
    ensures r == Err(NotFound("Hotel not found")) <==> hotelId !in hotels
    ensures r.Ok? <==> hotelId in hotels && ManagedBy(hotels[hotelId], adminId)
    ensures r.Ok? ==> r.value == hotels[hotelId]
    ensures r.Err? && hotelId in hotels ==> r == Err(Forbidden("Not allowed to manage this hotel"))
  {
    if hotelId !in hotels then Err(NotFound("Hotel not found"))
    else if !ManagedBy(hotels[hotelId], adminId) then Err(Forbidden("Not allowed to manage this hotel"))
    else Ok(hotels[hotelId])
  }

  /** The ownership check of the room mutations, on the room's hotel. */
  function EnsureAdminOwnsRoom(hotels: map<Id, Hotel>, rooms: map<Id, Room>, adminId: Id, roomId: Id)
    : (r: Result<Room, Exception>)
    requires forall k :: k in rooms ==> rooms[k].hotelId in hotels
    ensures r == Err(NotFound("Room not found")) <==> roomId !in rooms
    ensures r.Ok? <==> roomId in rooms && ManagedBy(hotels[rooms[roomId].hotelId], adminId)
    ensures r.Ok? ==> r.value == rooms[roomId]
    ensures r.Err? && roomId in rooms ==> r == Err(Forbidden("Not allowed to manage this room"))
  {
    if roomId !in rooms then Err(NotFound("Room not found"))
    else if !ManagedBy(hotels[rooms[roomId].hotelId], adminId) then Err(Forbidden("Not allowed to manage this room"))
    else Ok(rooms[roomId])
  }

  /** The admin list's filter: rooms of hotels whose admin is the caller,
      of one hotel when a non-empty `hotelId` is given. */
  predicate Listed(hotels: map<Id, Hotel>, room: Room, adminId: Id, hotelId: Option<Id>) {
    && room.hotelId in hotels
    && hotels[room.hotelId].adminId == Some(adminId)
    && (hotelId.None? || hotelId.value == "" || room.hotelId == hotelId.value)
  }

  /** `room.id.slice(0, 8).toUpperCase()` */
  function RoomNumber(id: Id): (r: string)
    ensures |r| == if |id| < 8 then |id| else 8
    ensures forall i :: 0 <= i < |r| ==> r[i] == Strings.UpperChar(id[i])
  {
    Strings.ToUpper(id[..if |id| < 8 then |id| else 8])
  }

  /** A row of the admin room list. */
  datatype AdminRoom = AdminRoom(
    room: Room,
    hotelName: string,
    hotelCity: string,
    hotelCountry: string,
    roomNumber: string)

  function View(hotel: Hotel, room: Room): AdminRoom {
    AdminRoom(room, hotel.name, hotel.city, hotel.country, RoomNumber(room.id))
  }

  /** The room ids a list holds. */
  function Ids(s: seq<AdminRoom>): set<Id> {
    set i | 0 <= i < |s| :: s[i].room.id
  }

  predicate DistinctIds(s: seq<AdminRoom>) {
    forall i, j :: 0 <= i < j < |s| ==> s[i].room.id != s[j].room.id
  }

  /** The ids of a list are those of all but its last row, plus that
      row's. */
  lemma IdsSnoc(s: seq<AdminRoom>)
    requires s != []
    ensures Ids(s) == Ids(s[..|s| - 1]) + {s[|s| - 1].room.id}
  {
    var p := s[..|s| - 1];
    forall x | x in Ids(s) ensures x in Ids(p) + {s[|s| - 1].room.id} {
      var i :| 0 <= i < |s| && s[i].room.id == x;
      if i < |s| - 1 { assert p[i] == s[i]; }
    }
    forall x | x in Ids(p) ensures x in Ids(s) {
      var i :| 0 <= i < |p| && p[i].room.id == x;
      assert s[i] == p[i];
    }
  }

  /** A list without repeated ids has as many ids as rows. */
  lemma {:induction false} DistinctIdsCount(s: seq<AdminRoom>)
    requires DistinctIds(s)
    ensures |Ids(s)| == |s|
  {
    if s != [] {
      var p := s[..|s| - 1];
      var last := s[|s| - 1].room.id;
      forall i, j | 0 <= i < j < |p| ensures p[i].room.id != p[j].room.id {
        assert p[i] == s[i] && p[j] == s[j];
      }
      DistinctIdsCount(p);
      IdsSnoc(s);
      forall i | 0 <= i < |p| ensures p[i].room.id != last {
        assert p[i] == s[i];
      }
      assert last !in Ids(p);
    }
  }

  /** How many rows of the list have the status. */
  function Count(s: seq<AdminRoom>, status: RoomStatus): (n: nat)
    ensures n <= |s|
  {
    if s == [] then 0
    else Count(s[..|s| - 1], status) + (if s[|s| - 1].room.status == status then 1 else 0)
  }

  /** The ids of the rows that have the status. */
  function IdsWith(s: seq<AdminRoom>, status: RoomStatus): set<Id> {
    set i | 0 <= i < |s| && s[i].room.status == status :: s[i].room.id
  }

  /** The ids with the status in a list are those of all but its last row,
      plus that row's when it has the status. */
  lemma IdsWithSnoc(s: seq<AdminRoom>, status: RoomStatus)
    requires s != []
    ensures IdsWith(s, status) ==
      IdsWith(s[..|s| - 1], status) + (if s[|s| - 1].room.status == status then {s[|s| - 1].room.id} else {})
  {
    var p := s[..|s| - 1];
    forall x | x in IdsWith(s, status) ensures x in IdsWith(p, status) || x == s[|s| - 1].room.id {
      var i :| 0 <= i < |s| && s[i].room.status == status && s[i].room.id == x;
      if i < |s| - 1 { assert p[i] == s[i]; }
    }
    forall x | x in IdsWith(p, status) ensures x in IdsWith(s, status) {
      var i :| 0 <= i < |p| && p[i].room.status == status && p[i].room.id == x;
      assert s[i] == p[i];
    }
  }

  /** In a list without repeated ids, the count of a status is the number
      of distinct rooms that have it. */
  lemma {:induction false} IdsWithCount(s: seq<AdminRoom>, status: RoomStatus)
    requires DistinctIds(s)
    ensures |IdsWith(s, status)| == Count(s, status)
  {
    if s != [] {
      var p := s[..|s| - 1];
      DistinctIdsPrefix(s);
      IdsWithCount(p, status);
      IdsWithSnoc(s, status);
      LastIdNotBefore(s, status);
    }
  }

  lemma DistinctIdsPrefix(s: seq<AdminRoom>)
    requires s != [] && DistinctIds(s)
    ensures DistinctIds(s[..|s| - 1])
  {
    var p := s[..|s| - 1];
    forall i, j | 0 <= i < j < |p| ensures p[i].room.id != p[j].room.id {
      assert p[i] == s[i] && p[j] == s[j];
    }
  }

  /** In a list without repeated ids, the last row's id is not among the
      earlier rows' ids. */
  lemma LastIdNotBefore(s: seq<AdminRoom>, status: RoomStatus)
    requires s != [] && DistinctIds(s)
    ensures s[|s| - 1].room.id !in IdsWith(s[..|s| - 1], status)
  {
    var p := s[..|s| - 1];
    forall x | x in IdsWith(p, status) ensures x != s[|s| - 1].room.id {
      var i :| 0 <= i < |p| && p[i].room.status == status && p[i].room.id == x;
      assert p[i] == s[i];
    }
  }

  /** The four statuses partition the list. */
  lemma {:induction false} CountsPartition(s: seq<AdminRoom>)
    ensures Count(s, Available) + Count(s, Reserved) + Count(s, Occupied) + Count(s, Unavailable) == |s|
  {
    if s != [] {
      CountsPartition(s[..|s| - 1]);
    }
  }

  /** The stats view. `occupancyRate` is the exact percentage; the rounding
      to one decimal place is not modelled. The clock-derived counts of
      today's check-ins and check-outs are not modelled either. */
  datatype RoomStats = RoomStats(
    total: nat,
    available: nat,
    reserved: nat,
    occupied: nat,
    unavailable: nat,
    occupancyRate: real)

  /** The counting loop of `getAdminRoomStats` over a room list. */
  method Tally(rooms: seq<AdminRoom>) returns (stats: RoomStats)
    ensures stats.total == |rooms|
    ensures stats.available == Count(rooms, Available) && stats.reserved == Count(rooms, Reserved)
    ensures stats.occupied == Count(rooms, Occupied) && stats.unavailable == Count(rooms, Unavailable)
    ensures stats.available + stats.reserved + stats.occupied + stats.unavailable == stats.total
    ensures stats.occupancyRate == OccupancyRate(stats.reserved + stats.occupied, stats.total)
  {
    var available, reserved, occupied, unavailable := 0, 0, 0, 0;
    for i := 0 to |rooms|
      invariant available == Count(rooms[..i], Available) && reserved == Count(rooms[..i], Reserved)
      invariant occupied == Count(rooms[..i], Occupied) && unavailable == Count(rooms[..i], Unavailable)
    {
      assert rooms[..i + 1][..i] == rooms[..i];
      var status := rooms[i].room.status;
      if status == Available { available := available + 1; }
      if status == Reserved { reserved := reserved + 1; }
      if status == Occupied { occupied := occupied + 1; }
      if status == Unavailable { unavailable := unavailable + 1; }
    }
    assert rooms[..|rooms|] == rooms;
    CountsPartition(rooms);
    stats := RoomStats(|rooms|, available, reserved, occupied, unavailable,
                       OccupancyRate(reserved + occupied, |rooms|));
  }

  /** The share of held (RESERVED or OCCUPIED) rooms, in percent; 0 for no
      rooms. */
  function OccupancyRate(held: nat, total: nat): (rate: real)
    requires held <= total
    ensures total == 0 ==> rate == 0.0
    ensures total > 0 ==> rate * (total as real) == 100.0 * (held as real)
    ensures 0.0 <= rate <= 100.0
  {
    if total == 0 then 0.0
    else
      var rate := (held as real) / (total as real) * 100.0;
      assert (held as real) / (total as real) <= 1.0;
      rate
  }

  /** Every key left after invalidation starts with neither cache prefix. */
  function Invalidated(store: map<string, Redis.Value>): (r: map<string, Redis.Value>)
    ensures forall k :: k in r <==>
      k in store && !Strings.StartsWith(k, DETAIL_PREFIX) && !Strings.StartsWith(k, LIST_PREFIX)
    ensures forall k :: k in r ==> r[k] == store[k]
  {
    Redis.WithoutPrefix(Redis.WithoutPrefix(store, DETAIL_PREFIX), LIST_PREFIX)
  }

  /** Applies the fields an update supplies; the others keep their value. */
  function Patched(room: Room, roomType: Option<string>, pricePerNight: Option<int>, status: Option<RoomStatus>)
    : (r: Room)
    ensures r.id == room.id && r.hotelId == room.hotelId
    ensures r.roomType == (if roomType.Some? then roomType.value else room.roomType)
    ensures r.pricePerNight == (if pricePerNight.Some? then pricePerNight.value else room.pricePerNight)
    ensures r.status == (if status.Some? then status.value else room.status)
  {
    room.(roomType := roomType.GetOr(room.roomType),
          pricePerNight := pricePerNight.GetOr(room.pricePerNight),
          status := status.GetOr(room.status))
  }

  /** An update that supplies nothing leaves the room as it is. */
  lemma EmptyPatchIsIdentity(room: Room)
    ensures Patched(room, None, None, None) == room
  {
  }

  /** `v` is the admin-list row of a listed room. */
  predicate IsRow(hotels: map<Id, Hotel>, rooms: map<Id, Room>, adminId: Id, hotelId: Option<Id>, v: AdminRoom) {
    && v.room.id in rooms
    && Listed(hotels, rooms[v.room.id], adminId, hotelId)
    && v == View(hotels[rooms[v.room.id].hotelId], rooms[v.room.id])
  }

  /** Some row of the list is the room `id`. */
  predicate HasRow(s: seq<AdminRoom>, id: Id) {
    exists i :: 0 <= i < |s| && s[i].room.id == id
  }

  /** Appending a row keeps the rows there were and adds its own. */
  lemma AppendRow(s: seq<AdminRoom>, v: AdminRoom)
    ensures HasRow(s + [v], v.room.id)
    ensures forall id :: HasRow(s, id) ==> HasRow(s + [v], id)
  {
    assert (s + [v])[|s|] == v;
    forall id | HasRow(s, id) ensures HasRow(s + [v], id) {
      var i :| 0 <= i < |s| && s[i].room.id == id;
      assert (s + [v])[i] == s[i];
    }
  }

  /** The listed rooms that have the status. */
  function ListedWith(hotels: map<Id, Hotel>, rooms: map<Id, Room>, adminId: Id, hotelId: Option<Id>,
                      status: RoomStatus): set<Id> {
    set id | id in rooms && Listed(hotels, rooms[id], adminId, hotelId) && rooms[id].status == status
  }

  /** A complete admin list without repeated rows counts, for each status,
      exactly the listed rooms that have it. */
  lemma RowsCountStatus(hotels: map<Id, Hotel>, rooms: map<Id, Room>, adminId: Id, hotelId: Option<Id>,
                        s: seq<AdminRoom>, status: RoomStatus)
    requires forall i :: 0 <= i < |s| ==> IsRow(hotels, rooms, adminId, hotelId, s[i])
    requires forall id :: id in rooms && Listed(hotels, rooms[id], adminId, hotelId) ==> HasRow(s, id)
    requires DistinctIds(s)
    ensures Count(s, status) == |ListedWith(hotels, rooms, adminId, hotelId, status)|
  {
    IdsWithCount(s, status);
    var listed := ListedWith(hotels, rooms, adminId, hotelId, status);
    forall id | id in IdsWith(s, status) ensures id in listed {
      var i :| 0 <= i < |s| && s[i].room.status == status && s[i].room.id == id;
      assert IsRow(hotels, rooms, adminId, hotelId, s[i]);
    }
    forall id | id in listed ensures id in IdsWith(s, status) {
      var i :| 0 <= i < |s| && s[i].room.id == id;
      assert IsRow(hotels, rooms, adminId, hotelId, s[i]);
    }
    assert IdsWith(s, status) == listed;
  }

  class RoomsService {
    const prisma: Database
    const gateway: Realtime.RoomsGateway
    const redis: Redis.RedisService

    constructor (prisma: Database, gateway: Realtime.RoomsGateway, redis: Redis.RedisService)
      ensures this.prisma == prisma && this.gateway == gateway && this.redis == redis
    {
      this.prisma := prisma;
      this.gateway := gateway;
      this.redis := redis;
    }

    /** The ids of the rooms the admin list shows. */
    ghost function ListedIds(adminId: Id, hotelId: Option<Id>): set<Id>
      reads prisma
    {
      set id | id in prisma.rooms && Listed(prisma.hotels, prisma.rooms[id], adminId, hotelId)
    }

    /** `getAdminRooms`: exactly the rooms of the caller's hotels (of one
        hotel when asked), each once, with its room number. The order of the
        list (hotel name, then type) is not modelled. */
    method GetAdminRooms(adminId: Id, hotelId: Option<Id>) returns (rooms: seq<AdminRoom>)
      requires prisma.Valid()
      ensures forall i :: 0 <= i < |rooms| ==> IsRow(prisma.hotels, prisma.rooms, adminId, hotelId, rooms[i])
      ensures forall id :: id in prisma.rooms && Listed(prisma.hotels, prisma.rooms[id], adminId, hotelId) ==>
        HasRow(rooms, id)
      ensures DistinctIds(rooms)
    {
      var hotels, all := prisma.hotels, prisma.rooms;
      var remaining := all.Keys;
      rooms := [];
      while remaining != {}
        invariant remaining <= all.Keys
        invariant forall i :: 0 <= i < |rooms| ==>
          IsRow(hotels, all, adminId, hotelId, rooms[i]) && rooms[i].room.id !in remaining
        invariant forall id :: id in all && id !in remaining && Listed(hotels, all[id], adminId, hotelId) ==>
          HasRow(rooms, id)
        invariant DistinctIds(rooms)
        decreases remaining
      {
        var id :| id in remaining;
        remaining := remaining - {id};
        var room := all[id];
        if Listed(hotels, room, adminId, hotelId) {
          var row := View(hotels[room.hotelId], room);
          AppendRow(rooms, row);
          rooms := rooms + [row];
        }
      }
    }

    /** `getAdminRoomStats`: the status counts over the admin list. */
    method GetAdminRoomStats(adminId: Id, hotelId: Option<Id>) returns (stats: RoomStats)
      requires prisma.Valid()
      ensures stats.total == |ListedIds(adminId, hotelId)|
      ensures stats.available + stats.reserved + stats.occupied + stats.unavailable == stats.total
      ensures stats.occupancyRate == OccupancyRate(stats.reserved + stats.occupied, stats.total)
      ensures stats.available == |ListedWith(prisma.hotels, prisma.rooms, adminId, hotelId, Available)|
      ensures stats.reserved == |ListedWith(prisma.hotels, prisma.rooms, adminId, hotelId, Reserved)|
      ensures stats.occupied == |ListedWith(prisma.hotels, prisma.rooms, adminId, hotelId, Occupied)|
      ensures stats.unavailable == |ListedWith(prisma.hotels, prisma.rooms, adminId, hotelId, Unavailable)|
    {
      var rooms := GetAdminRooms(adminId, hotelId);
      stats := Tally(rooms);
      RowsCountStatus(prisma.hotels, prisma.rooms, adminId, hotelId, rooms, Available);
      RowsCountStatus(prisma.hotels, prisma.rooms, adminId, hotelId, rooms, Reserved);
      RowsCountStatus(prisma.hotels, prisma.rooms, adminId, hotelId, rooms, Occupied);
      RowsCountStatus(prisma.hotels, prisma.rooms, adminId, hotelId, rooms, Unavailable);
      DistinctIdsCount(rooms);
      ghost var listed := ListedIds(adminId, hotelId);
      forall id | id in listed ensures id in Ids(rooms) {
        var i :| 0 <= i < |rooms| && rooms[i].room.id == id;
      }
      forall id | id in Ids(rooms) ensures id in listed {
        var i :| 0 <= i < |rooms| && rooms[i].room.id == id;
      }
      assert Ids(rooms) == listed;
    }

    /** The effects every successful mutation ends with: the server's
        `room:update` to the room's topic, then both cache prefixes dropped. */
    ghost predicate Announced(room: Room, oldOutbox: seq<Realtime.Emission>, oldStore: map<string, Redis.Value>)
      reads this, gateway, redis
    {
      && gateway.outbox == oldOutbox + [gateway.ServerUpdate(room.id, RoomStatusName(room.status))]
      && redis.store == Invalidated(oldStore)
    }

    /** The tail shared by the mutations: notify, then invalidate. */
    method Announce(room: Room)
      modifies gateway, redis
      ensures gateway.users == old(gateway.users) && gateway.topics == old(gateway.topics)
      ensures gateway.dropped == old(gateway.dropped)
      ensures Announced(room, old(gateway.outbox), old(redis.store))
    {
      gateway.NotifyRoomUpdate(room.id, RoomStatusName(room.status));
      redis.DelByPrefix(DETAIL_PREFIX);
      redis.DelByPrefix(LIST_PREFIX);
    }

    /** `createAdminRoom`: the price is checked before anything else, then
        ownership of the hotel; the new room is stored, announced, and the
        hotel caches are invalidated. `newId` is the id the database
        generates. */
    method CreateAdminRoom(adminId: Id, hotelId: Id, roomType: string, pricePerNight: int, status: RoomStatus,
                           newId: Id) returns (r: Result<Room, Exception>)
      requires prisma.Valid() && newId !in prisma.rooms
      modifies prisma, gateway, redis
      ensures prisma.Valid()
      ensures prisma.users == old(prisma.users) && prisma.hotels == old(prisma.hotels)
      ensures prisma.bookings == old(prisma.bookings)
      ensures gateway.users == old(gateway.users) && gateway.topics == old(gateway.topics)
      ensures gateway.dropped == old(gateway.dropped)
      ensures pricePerNight <= 0 ==> r == Err(BadRequest("pricePerNight must be positive"))
      ensures pricePerNight > 0 && EnsureAdminOwnsHotel(old(prisma.hotels), adminId, hotelId).Err? ==>
        r == Err(EnsureAdminOwnsHotel(old(prisma.hotels), adminId, hotelId).error)
      ensures r.Ok? <==> pricePerNight > 0 && EnsureAdminOwnsHotel(old(prisma.hotels), adminId, hotelId).Ok?
      ensures r.Err? ==>
        && prisma.rooms == old(prisma.rooms)
        && gateway.outbox == old(gateway.outbox) && redis.store == old(redis.store)
      ensures r.Ok? ==>
        && r.value == Room(newId, hotelId, roomType, pricePerNight, status)
        && prisma.rooms == old(prisma.rooms)[newId := r.value]
        && Announced(r.value, old(gateway.outbox), old(redis.store))
    {
      if pricePerNight <= 0 {
        return Err(BadRequest("pricePerNight must be positive"));
      }
      var own := EnsureAdminOwnsHotel(prisma.hotels, adminId, hotelId);
      if own.Err? {
        return Err(own.error);
      }
      var created := Room(newId, hotelId, roomType, pricePerNight, status);
      prisma.rooms := prisma.rooms[newId := created];
      Announce(created);
      r := Ok(created);
    }

    /** `updateAdminRoom`: ownership first, then the price (when one is
        supplied); only the supplied fields change. Bookings keep the total
        they were priced at. */
    method UpdateAdminRoom(roomId: Id, adminId: Id, roomType: Option<string>, pricePerNight: Option<int>,
                           status: Option<RoomStatus>) returns (r: Result<Room, Exception>)
      requires prisma.Valid()
      modifies prisma, gateway, redis
      ensures prisma.Valid()
      ensures prisma.users == old(prisma.users) && prisma.hotels == old(prisma.hotels)
      ensures prisma.bookings == old(prisma.bookings)
      ensures gateway.users == old(gateway.users) && gateway.topics == old(gateway.topics)
      ensures gateway.dropped == old(gateway.dropped)
      ensures var own := EnsureAdminOwnsRoom(old(prisma.hotels), old(prisma.rooms), adminId, roomId);
        && (own.Err? ==> r == Err(own.error))
        && (own.Ok? && pricePerNight.Some? && pricePerNight.value <= 0 ==>
              r == Err(BadRequest("pricePerNight must be positive")))
        && (r.Ok? <==> own.Ok? && !(pricePerNight.Some? && pricePerNight.value <= 0))
        && (r.Ok? ==> r.value == Patched(own.value, roomType, pricePerNight, status))
      ensures r.Err? ==>
        && prisma.rooms == old(prisma.rooms)
        && gateway.outbox == old(gateway.outbox) && redis.store == old(redis.store)
      ensures r.Ok? ==>
        && prisma.rooms == old(prisma.rooms)[roomId := r.value]
        && Announced(r.value, old(gateway.outbox), old(redis.store))
    {
      var own := EnsureAdminOwnsRoom(prisma.hotels, prisma.rooms, adminId, roomId);
      if own.Err? {
        return Err(own.error);
      }
      if pricePerNight.Some? && pricePerNight.value <= 0 {
        return Err(BadRequest("pricePerNight must be positive"));
      }
      var updated := Patched(own.value, roomType, pricePerNight, status);
      prisma.rooms := prisma.rooms[roomId := updated];
      Announce(updated);
      r := Ok(updated);
    }

    /** `updateRoomStatus`: ownership, then exactly the status changes, and
        the announcement carries that new status. */
    method UpdateRoomStatus(roomId: Id, adminId: Id, status: RoomStatus) returns (r: Result<Room, Exception>)
      requires prisma.Valid()
      modifies prisma, gateway, redis
      ensures prisma.Valid()
      ensures prisma.users == old(prisma.users) && prisma.hotels == old(prisma.hotels)
      ensures prisma.bookings == old(prisma.bookings)
      ensures gateway.users == old(gateway.users) && gateway.topics == old(gateway.topics)
      ensures gateway.dropped == old(gateway.dropped)
      ensures var own := EnsureAdminOwnsRoom(old(prisma.hotels), old(prisma.rooms), adminId, roomId);
        && (own.Err? ==> r == Err(own.error))
        && (own.Ok? ==> r == Ok(own.value.(status := status)))
      ensures r.Err? ==>
        && prisma.rooms == old(prisma.rooms)
        && gateway.outbox == old(gateway.outbox) && redis.store == old(redis.store)
      ensures r.Ok? ==>
        && prisma.rooms == old(prisma.rooms)[roomId := r.value]
        && Announced(r.value, old(gateway.outbox), old(redis.store))
        && gateway.outbox[|gateway.outbox| - 1].payload.status == Some(RoomStatusName(status))
    {
      var own := EnsureAdminOwnsRoom(prisma.hotels, prisma.rooms, adminId, roomId);
      if own.Err? {
        return Err(own.error);
      }
      var updated := own.value.(status := status);
      prisma.rooms := prisma.rooms[roomId := updated];
      Announce(updated);
      r := Ok(updated);
    }
  }
}

=== FILE: rooms_controller.dfy ===
/** The room routes' status handling (`RoomsController`): admins may send
    MAINTENANCE, which the database stores as UNAVAILABLE; creating a room
    without a status makes it AVAILABLE; updating without a status leaves
    it as it is. */
module RoomsController {
  import opened Wrappers
  import opened Store
  import Rooms

  /** The statuses the admin routes accept: the database's four, plus
      MAINTENANCE. */
  datatype AdminRoomStatus = Stored(status: RoomStatus) | Maintenance

  /** The wire names the admin routes accept. */
  function AdminStatusName(s: AdminRoomStatus): string {
    match s
    case Stored(st) => RoomStatusName(st)
    case Maintenance => "MAINTENANCE"
  }

  /** The request schema's enum: exactly the five names parse. */
  function ParseAdminStatus(name: string): (r: Option<AdminRoomStatus>)
    ensures r.Some? ==> AdminStatusName(r.value) == name
    ensures forall s: AdminRoomStatus :: AdminStatusName(s) == name ==> r == Some(s)
  {
    if name == "AVAILABLE" then Some(Stored(Available))
    else if name == "RESERVED" then Some(Stored(Reserved))
    else if name == "OCCUPIED" then Some(Stored(Occupied))
    else if name == "UNAVAILABLE" then Some(Stored(Unavailable))
    else if name == "MAINTENANCE" then Some(Maintenance)
    else None
  }

  /** `normalizeRoomStatus`: MAINTENANCE is stored as UNAVAILABLE, every
      other status as itself. */
  function NormalizeRoomStatus(s: AdminRoomStatus): (r: RoomStatus)
    ensures s == Maintenance ==> r == Unavailable
    ensures s.Stored? ==> r == s.status
  {
    match s
    case Maintenance => Unavailable
    case Stored(st) => st
  }

  /** Normalising a normalised status changes nothing, and no admin status
      other than MAINTENANCE and UNAVAILABLE itself becomes UNAVAILABLE. */
  lemma NormalizeIdempotent(s: AdminRoomStatus)
    ensures NormalizeRoomStatus(Stored(NormalizeRoomStatus(s))) == NormalizeRoomStatus(s)
    ensures NormalizeRoomStatus(s) == Unavailable <==> s == Maintenance || s == Stored(Unavailable)
  {
  }

  /** The result never reads back as MAINTENANCE: its wire name is one of
      the database's four. */
  lemma NormalizeNeverMaintenance(s: AdminRoomStatus)
    ensures AdminStatusName(Stored(NormalizeRoomStatus(s))) != "MAINTENANCE"
    ensures ParseAdminStatus(RoomStatusName(NormalizeRoomStatus(s))) == Some(Stored(NormalizeRoomStatus(s)))
  {
  }

  /** The status `createRoom` stores: `normalizeRoomStatus(status ?? "AVAILABLE")`. */
  function CreateRoomStatus(status: Option<AdminRoomStatus>): (r: RoomStatus)
    ensures status.None? ==> r == Available
    ensures status.Some? ==> r == NormalizeRoomStatus(status.value)
  {
    NormalizeRoomStatus(status.GetOr(Stored(Available)))
  }

  /** The status `updateRoom` passes on: normalised when one was sent,
      absent otherwise. */
  function UpdateRoomStatus(status: Option<AdminRoomStatus>): (r: Option<RoomStatus>)
    ensures r.None? <==> status.None?
    ensures status.Some? ==> r == Some(NormalizeRoomStatus(status.value))
  {
    if status.Some? then Some(NormalizeRoomStatus(status.value)) else None
  }

  /** An update that sends no status keeps the stored status, whatever else
      it changes. */
  lemma UpdateWithoutStatusKeepsStatus(room: Room, roomType: Option<string>, pricePerNight: Option<int>)
    ensures Rooms.Patched(room, roomType, pricePerNight, UpdateRoomStatus(None)).status == room.status
  {
  }

  /** An update that sends MAINTENANCE stores UNAVAILABLE. */
  lemma UpdateToMaintenanceStoresUnavailable(room: Room, roomType: Option<string>, pricePerNight: Option<int>)
    ensures Rooms.Patched(room, roomType, pricePerNight, UpdateRoomStatus(Some(Maintenance))).status == Unavailable
  {
  }
}

=== FILE: store.dfy ===
/** The relational store behind the API (its Prisma tables): users, hotels,
    rooms and bookings, each table a map from record id to record. */
module Store {
  import opened Wrappers

  /** Record ids are UUID strings. */
  type Id = string

  datatype Role = Customer | RoomAdmin

  /** The `RoomStatus` enum of the database. */
  datatype RoomStatus = Available | Reserved | Occupied | Unavailable

  datatype BookingStatus = Pending | Confirmed | Cancelled

  datatype PaymentStatus = Unpaid | Paid | Failed

  datatype User = User(id: Id, email: Option<string>, role: Role)

  datatype Hotel = Hotel(
    id: Id,
    name: string,
    address: string,
    city: string,
    country: string,
    adminId: Option<Id>)

  /** A room; `pricePerNight` is in cents. */
  datatype Room = Room(
    id: Id,
    hotelId: Id,
    roomType: string,
    pricePerNight: int,
    status: RoomStatus)

  /** A booking; `checkIn`/`checkOut` are instants in milliseconds and
      `totalPrice` is in cents. */
  datatype Booking = Booking(
    id: Id,
    userId: Id,
    roomId: Id,
    checkIn: int,
    checkOut: int,
    totalPrice: Option<int>,
    status: BookingStatus,
    paymentStatus: PaymentStatus,
    paymentIntentId: Option<string>)

  /** The enum names as they travel over the wire. */
  function RoomStatusName(s: RoomStatus): string {
    match s
    case Available => "AVAILABLE"
    case Reserved => "RESERVED"
    case Occupied => "OCCUPIED"
    case Unavailable => "UNAVAILABLE"
  }

  function RoleName(r: Role): string {
    match r
    case Customer => "CUSTOMER"
    case RoomAdmin => "ROOM_ADMIN"
  }

  /** PENDING and CONFIRMED bookings hold their room; CANCELLED ones do not. */
  predicate IsActive(b: Booking) {
    b.status == Pending || b.status == Confirmed
  }

  /** The half-open stay [b.checkIn, b.checkOut) meets [checkIn, checkOut). */
  predicate Overlaps(b: Booking, checkIn: int, checkOut: int) {
    b.checkIn < checkOut && b.checkOut > checkIn
  }

  /** Some PENDING or CONFIRMED booking is on the room. */
  predicate HasActiveBooking(bookings: map<Id, Booking>, roomId: Id) {
    exists id :: id in bookings && bookings[id].roomId == roomId && IsActive(bookings[id])
  }

  /** Some PENDING or CONFIRMED booking on the room meets [checkIn, checkOut). */
  predicate HasActiveOverlap(bookings: map<Id, Booking>, roomId: Id, checkIn: int, checkOut: int) {
    exists id :: id in bookings && bookings[id].roomId == roomId && IsActive(bookings[id])
                 && Overlaps(bookings[id], checkIn, checkOut)
  }

  /** The invariant the booking protocol exists for: no two active bookings
      of one room overlap. */
  ghost predicate NoDoubleBooking(bookings: map<Id, Booking>) {
    forall i, j :: i in bookings && j in bookings && i != j
      && bookings[i].roomId == bookings[j].roomId
      && IsActive(bookings[i]) && IsActive(bookings[j])
      ==> !Overlaps(bookings[i], bookings[j].checkIn, bookings[j].checkOut)
  }

  /** A room with an active booking is not AVAILABLE (it is RESERVED,
      OCCUPIED or UNAVAILABLE). */
  ghost predicate ActiveRoomsHeld(rooms: map<Id, Room>, bookings: map<Id, Booking>) {
    forall id :: id in bookings && IsActive(bookings[id]) ==>
      bookings[id].roomId in rooms && rooms[bookings[id].roomId].status != Available
  }

  /** The ownership test of the admin paths (`!hotel.adminId || hotel.adminId
      !== adminId` refuses): the hotel has a non-empty admin id, and it is the
      caller's. */
  predicate ManagedBy(hotel: Hotel, adminId: Id) {
    hotel.adminId.Some? && hotel.adminId.value != "" && hotel.adminId.value == adminId
  }

  /** Each record is stored under its own id and every foreign key resolves:
      a room's hotel and a booking's room exist. */
  ghost predicate WellFormed(hotels: map<Id, Hotel>, rooms: map<Id, Room>, bookings: map<Id, Booking>) {
    && (forall k :: k in hotels ==> hotels[k].id == k)
    && (forall k :: k in rooms ==> rooms[k].id == k && rooms[k].hotelId in hotels)
    && (forall k :: k in bookings ==> bookings[k].id == k && bookings[k].roomId in rooms)
  }

  /** The database the services share. */
  class Database {
    var users: map<Id, User>
    var hotels: map<Id, Hotel>
    var rooms: map<Id, Room>
    var bookings: map<Id, Booking>

    ghost predicate Valid()
      reads this
    {
      && (forall k :: k in users ==> users[k].id == k)
      && WellFormed(hotels, rooms, bookings)
    }

    constructor ()
      ensures Valid()
      ensures users == map[] && hotels == map[] && rooms == map[] && bookings == map[]
    {
      users, hotels, rooms, bookings := map[], map[], map[], map[];
    }
  }
}

=== FILE: strings.dfy ===
/** The JavaScript string operations the core relies on: `trim`,
    `toLowerCase`, `toUpperCase`, `startsWith`, `includes`, `repeat`, and the
    decimal rendering of a number. */
module Strings {

  /** ECMAScript WhiteSpace and LineTerminator code points: what `trim` strips. */
  predicate IsWhiteSpace(c: char) {
    var n := c as int;
    n == 0x09 || n == 0x0A || n == 0x0B || n == 0x0C || n == 0x0D || n == 0x20
    || n == 0xA0 || n == 0x1680 || (0x2000 <= n <= 0x200A)
    || n == 0x2028 || n == 0x2029 || n == 0x202F || n == 0x205F || n == 0x3000 || n == 0xFEFF
  }

  predicate AllWhiteSpace(s: string) {
    forall i :: 0 <= i < |s| ==> IsWhiteSpace(s[i])
  }

  /** Neither starts nor ends with white space. */
  predicate IsTrimmed(s: string) {
    s == [] || (!IsWhiteSpace(s[0]) && !IsWhiteSpace(s[|s| - 1]))
  }

  /** Drops the leading white space; what is kept does not start with
      any. */
  function TrimStart(s: string): (r: string)
    ensures |r| <= |s|
    ensures r == [] || !IsWhiteSpace(r[0])
  {
    if s != [] && IsWhiteSpace(s[0]) then TrimStart(s[1..]) else s
  }

  /** Drops the trailing white space; what is kept is a prefix that does
      not end with any. */
  function TrimEnd(s: string): (r: string)
    ensures |r| <= |s| && r == s[..|r|]
    ensures r == [] || !IsWhiteSpace(r[|r| - 1])
  {
    if s != [] && IsWhiteSpace(s[|s| - 1]) then TrimEnd(s[..|s| - 1]) else s
  }

  /** What `TrimStart` keeps is a suffix, and what it drops is all white
      space. */
  lemma {:induction false} TrimStartKeepsSuffix(s: string)
    ensures |TrimStart(s)| <= |s|
    ensures TrimStart(s) == s[|s| - |TrimStart(s)|..]
    ensures AllWhiteSpace(s[..|s| - |TrimStart(s)|])
  {
    if s != [] && IsWhiteSpace(s[0]) {
      var r := TrimStart(s[1..]);
      TrimStartKeepsSuffix(s[1..]);
      assert s[1..][|s| - 1 - |r|..] == s[|s| - |r|..];
      var d, d' := s[..|s| - |r|], s[1..][..|s| - 1 - |r|];
      assert d == [s[0]] + d';
      forall i | 0 <= i < |d| ensures IsWhiteSpace(d[i]) {
        if i > 0 { assert d[i] == d'[i - 1]; }
      }
    } else {
      assert s[..0] == [];
    }
  }

  /** What `TrimEnd` drops is all white space. */
  lemma {:induction false} TrimEndDropsWhiteSpace(s: string)
    ensures AllWhiteSpace(s[|TrimEnd(s)|..])
  {
    if s != [] && IsWhiteSpace(s[|s| - 1]) {
      var p := s[..|s| - 1];
      var r := TrimEnd(p);
      TrimEndDropsWhiteSpace(p);
      var d, d' := s[|r|..], p[|r|..];
      assert d == d' + [s[|s| - 1]];
      forall i | 0 <= i < |d| ensures IsWhiteSpace(d[i]) {
        if i < |d'| { assert d[i] == d'[i]; }
      }
    }
  }

  /** Only white space is dropped from the front: a blank string leaves
      nothing. */
  lemma {:induction false} TrimStartBlank(s: string)
    requires AllWhiteSpace(s)
    ensures TrimStart(s) == []
  {
    if s != [] {
      assert AllWhiteSpace(s[1..]) by {
        forall i | 0 <= i < |s[1..]| ensures IsWhiteSpace(s[1..][i]) {
          assert s[1..][i] == s[i + 1];
        }
      }
      TrimStartBlank(s[1..]);
    }
  }

  /** `String.prototype.trim`: the result has no white space at its ends. */
  function Trim(s: string): (r: string)
    ensures IsTrimmed(r)
  {
    TrimEnd(TrimStart(s))
  }

  /** `trim` drops white space at the ends and nothing else: the result is
      the middle of `s` once white space alone is cut from either end. */
  lemma TrimDropsOnlyEnds(s: string)
    ensures var r, k := Trim(s), |s| - |TrimStart(s)|;
      && k + |r| <= |s| && r == s[k..k + |r|]
      && AllWhiteSpace(s[..k]) && AllWhiteSpace(s[k + |r|..])
  {
    TrimUnfold(s);
    TrimStartKeepsSuffix(s);
    TrimEndDropsWhiteSpace(TrimStart(s));
    MiddleOf(s, TrimStart(s), Trim(s));
  }

  /** A prefix of a suffix, each cut from white space, is a middle slice
      cut from white space at both ends. */
  lemma MiddleOf(s: string, t: string, r: string)
    requires |t| <= |s| && t == s[|s| - |t|..] && AllWhiteSpace(s[..|s| - |t|])
    requires |r| <= |t| && r == t[..|r|] && AllWhiteSpace(t[|r|..])
    ensures var k := |s| - |t|;
      && k + |r| <= |s| && r == s[k..k + |r|]
      && AllWhiteSpace(s[..k]) && AllWhiteSpace(s[k + |r|..])
  {
    var k := |s| - |t|;
    assert s[k + |r|..] == t[|r|..];
  }

  /** A blank string trims to the empty string. */
  lemma TrimBlank(s: string)
    requires AllWhiteSpace(s)
    ensures Trim(s) == []
  {
    TrimStartBlank(s);
  }

  /** Leading white space does not change what `TrimStart` keeps. */
  lemma {:induction false} TrimStartPadded(w: string, s: string)
    requires AllWhiteSpace(w)
    ensures TrimStart(w + s) == TrimStart(s)
  {
    if w != [] {
      assert (w + s)[0] == w[0];
      assert (w + s)[1..] == w[1..] + s;
      assert AllWhiteSpace(w[1..]) by {
        forall i | 0 <= i < |w[1..]| ensures IsWhiteSpace(w[1..][i]) {
          assert w[1..][i] == w[i + 1];
        }
      }
      TrimStartPadded(w[1..], s);
    } else {
      assert w + s == s;
    }
  }

  /** Trailing white space does not change what `TrimEnd` keeps. */
  lemma {:induction false} TrimEndPadded(s: string, w: string)
    requires AllWhiteSpace(w)
    ensures TrimEnd(s + w) == TrimEnd(s)
  {
    if w != [] {
      var n := |s + w| - 1;
      assert (s + w)[n] == w[|w| - 1];
      var p := w[..|w| - 1];
      assert (s + w)[..n] == s + p;
      assert AllWhiteSpace(p) by {
        forall i | 0 <= i < |p| ensures IsWhiteSpace(p[i]) {
          assert p[i] == w[i];
        }
      }
      TrimEndPadded(s, p);
    } else {
      assert s + w == s;
    }
  }

  /** Trailing white space does not change what trimming both ends keeps. */
  lemma {:induction false} TrimEndOfStartPadded(s: string, w: string)
    requires AllWhiteSpace(w)
    ensures TrimEnd(TrimStart(s + w)) == TrimEnd(TrimStart(s))
  {
    if s == [] {
      assert s + w == w;
      TrimStartBlank(w);
    } else if IsWhiteSpace(s[0]) {
      assert (s + w)[0] == s[0];
      assert (s + w)[1..] == s[1..] + w;
      TrimEndOfStartPadded(s[1..], w);
    } else {
      assert (s + w)[0] == s[0];
      TrimEndPadded(s, w);
    }
  }

  /** `trim` ignores white space added at either end: only the ends are
      ever dropped, so padding a text does not change its trimmed form. */
  lemma TrimPadded(w1: string, s: string, w2: string)
    requires AllWhiteSpace(w1) && AllWhiteSpace(w2)
    ensures Trim(w1 + s + w2) == Trim(s)
  {
    var back := s + w2;
    TrimPaddedFront(w1, back);
    TrimPaddedBack(s, w2);
    assert w1 + s + w2 == w1 + back;
  }

  lemma TrimPaddedFront(w: string, s: string)
    requires AllWhiteSpace(w)
    ensures Trim(w + s) == Trim(s)
  {
    TrimStartPadded(w, s);
    TrimUnfold(w + s);
    TrimUnfold(s);
  }

  lemma TrimPaddedBack(s: string, w: string)
    requires AllWhiteSpace(w)
    ensures Trim(s + w) == Trim(s)
  {
    TrimEndOfStartPadded(s, w);
    TrimUnfold(s + w);
    TrimUnfold(s);
  }

  lemma TrimUnfold(s: string)
    ensures Trim(s) == TrimEnd(TrimStart(s))
  {
  }

  lemma TrimOfTrimmed(s: string)
    requires IsTrimmed(s)
    ensures Trim(s) == s
  {
  }

  /** Trimming twice is trimming once. */
  lemma TrimIdempotent(s: string)
    ensures Trim(Trim(s)) == Trim(s)
  {
    TrimOfTrimmed(Trim(s));
  }

  /** `toLowerCase` on one character (ASCII letters only). */
  function LowerChar(c: char): (r: char)
    ensures 'A' <= c <= 'Z' ==> 'a' <= r <= 'z'
  {
    if 'A' <= c <= 'Z' then (c as int + 32) as char else c
  }

  /** `toUpperCase` on one character (ASCII letters only). */
  function UpperChar(c: char): (r: char)
    ensures 'a' <= c <= 'z' ==> 'A' <= r <= 'Z'
  {
    if 'a' <= c <= 'z' then (c as int - 32) as char else c
  }

  /** `String.prototype.toLowerCase`, character by character. */
  function ToLower(s: string): (r: string)
    ensures |r| == |s|
    ensures forall i :: 0 <= i < |s| ==> r[i] == LowerChar(s[i])
  {
    if s == [] then [] else [LowerChar(s[0])] + ToLower(s[1..])
  }

  /** `String.prototype.toUpperCase`, character by character. */
  function ToUpper(s: string): (r: string)
    ensures |r| == |s|
    ensures forall i :: 0 <= i < |s| ==> r[i] == UpperChar(s[i])
  {
    if s == [] then [] else [UpperChar(s[0])] + ToUpper(s[1..])
  }

  predicate IsLowerCase(s: string) {
    forall i :: 0 <= i < |s| ==> !('A' <= s[i] <= 'Z')
  }

  lemma ToLowerIsLowerCase(s: string)
    ensures IsLowerCase(ToLower(s))
  {
  }

  lemma ToLowerOfLowerCase(s: string)
    requires IsLowerCase(s)
    ensures ToLower(s) == s
  {
  }

  /** Upper-casing first does not change the lower-cased result. */
  lemma LowerOfUpper(s: string)
    ensures ToLower(ToUpper(s)) == ToLower(s)
  {
    var l, u := ToLower(ToUpper(s)), ToUpper(s);
    forall i | 0 <= i < |s| ensures l[i] == ToLower(s)[i] {
      assert l[i] == LowerChar(u[i]);
    }
  }

  /** Lower-casing neither creates nor removes white space, so it commutes
      with trimming. */
  lemma TrimToLower(s: string)
    ensures Trim(ToLower(s)) == ToLower(Trim(s))
  {
    TrimStartToLower(s);
    TrimEndToLower(TrimStart(s));
  }

  /** Only ASCII letters change case, and none of them is white space. */
  lemma LowerKeepsWhiteSpace(c: char)
    ensures IsWhiteSpace(LowerChar(c)) == IsWhiteSpace(c)
  {
  }

  lemma {:induction false} TrimStartToLower(s: string)
    ensures TrimStart(ToLower(s)) == ToLower(TrimStart(s))
  {
    if s != [] {
      var l := ToLower(s);
      assert l[0] == LowerChar(s[0]);
      LowerKeepsWhiteSpace(s[0]);
      if IsWhiteSpace(s[0]) {
        assert l[1..] == ToLower(s[1..]);
        calc {
          TrimStart(l);
          TrimStart(l[1..]);
          { TrimStartToLower(s[1..]); }
          ToLower(TrimStart(s[1..]));
        }
      }
    }
  }

  /** Lower-casing commutes with taking a prefix. */
  lemma ToLowerPrefix(s: string, n: nat)
    requires n <= |s|
    ensures ToLower(s)[..n] == ToLower(s[..n])
  {
    var a, b := ToLower(s)[..n], ToLower(s[..n]);
    forall i | 0 <= i < n ensures a[i] == b[i] {
      assert s[..n][i] == s[i];
    }
  }

  lemma {:induction false} TrimEndToLower(s: string)
    ensures TrimEnd(ToLower(s)) == ToLower(TrimEnd(s))
  {
    if s != [] {
      var l := ToLower(s);
      var n := |s| - 1;
      assert l[n] == LowerChar(s[n]);
      LowerKeepsWhiteSpace(s[n]);
      if IsWhiteSpace(s[n]) {
        ToLowerPrefix(s, n);
        TrimEndDropsLast(l);
        TrimEndDropsLast(s);
        TrimEndToLower(s[..n]);
      }
    }
  }

  /** One step of `TrimEnd`: a trailing white space character goes. */
  lemma TrimEndDropsLast(s: string)
    requires s != [] && IsWhiteSpace(s[|s| - 1])
    ensures TrimEnd(s) == TrimEnd(s[..|s| - 1])
  {
  }

  /** `s.trim().toLowerCase()`, the e-mail normalisation both the API and the
      web client apply. */
  function TrimLower(s: string): (r: string)
    ensures IsTrimmed(r) && IsLowerCase(r)
  {
    TrimToLower(s);
    ToLowerIsLowerCase(Trim(s));
    ToLower(Trim(s))
  }

  /** Normalising a normalised string changes nothing. */
  lemma TrimLowerIdempotent(s: string)
    ensures TrimLower(TrimLower(s)) == TrimLower(s)
  {
    var t := TrimLower(s);
    TrimOfTrimmed(t);
    ToLowerOfLowerCase(t);
  }

  /** `s.startsWith(p)` */
  predicate StartsWith(s: string, p: string) {
    |p| <= |s| && s[..|p|] == p
  }

  /** `sub` occurs in `s` starting at index `i`. */
  predicate OccursAt(s: string, sub: string, i: int) {
    0 <= i <= |s| - |sub| && s[i..i + |sub|] == sub
  }

  /** `s.includes(sub)` */
  predicate Contains(s: string, sub: string) {
    exists i :: 0 <= i <= |s| - |sub| && OccursAt(s, sub, i)
  }

  /** `sub` occurs in `s` ignoring ASCII case (a Postgres `ILIKE '%sub%'`). */
  predicate ContainsInsensitive(s: string, sub: string) {
    Contains(ToLower(s), ToLower(sub))
  }

  /** `c.repeat(n)` */
  function Repeat(c: char, n: nat): (r: string)
    ensures |r| == n && forall i :: 0 <= i < n ==> r[i] == c
  {
    seq(n, _ => c)
  }

  // ---------------------------------------------------------------------
  // Decimal rendering, `n.toString()` on a non-negative integer.

  predicate IsDigit(c: char) {
    '0' <= c <= '9'
  }

  predicate AllDigits(s: string) {
    forall i :: 0 <= i < |s| ==> IsDigit(s[i])
  }

  function DigitChar(d: nat): (c: char)
    requires d < 10
    ensures IsDigit(c) && (c as int) - ('0' as int) == d
  {
    ('0' as int + d) as char
  }

  /** The number a string of decimal digits denotes. */
  function DigitsValue(s: string): nat
    requires AllDigits(s)
  {
    if s == [] then 0
    else DigitsValue(s[..|s| - 1]) * 10 + ((s[|s| - 1] as int) - ('0' as int))
  }

  function Pow10(k: nat): (p: nat)
    ensures p >= 1
  {
    if k == 0 then 1 else 10 * Pow10(k - 1)
  }

  /** `n.toString()`: decimal digits, no leading zero, denoting `n`. */
  function NatToString(n: nat): (r: string)
    ensures |r| >= 1 && AllDigits(r)
    ensures DigitsValue(r) == n
    ensures |r| == 1 || r[0] != '0'
  {
    if n < 10 then [DigitChar(n)]
    else
      var r := NatToString(n / 10) + [DigitChar(n % 10)];
      assert r[..|r| - 1] == NatToString(n / 10);
      r
  }

  /** A digit string without a leading zero has exactly as many digits as the
      decimal order of magnitude of its value says. */
  lemma {:induction false} DigitsMagnitude(s: string)
    requires |s| >= 1 && AllDigits(s) && (|s| == 1 || s[0] != '0')
    ensures (if |s| == 1 then 0 else Pow10(|s| - 1)) <= DigitsValue(s) < Pow10(|s|)
  {
    if |s| > 1 {
      var p := s[..|s| - 1];
      assert p[0] == s[0];
      DigitsMagnitude(p);
      assert DigitsValue(s) == DigitsValue(p) * 10 + ((s[|s| - 1] as int) - ('0' as int));
    }
  }

  /** Every value in [100000, 1000000) prints as exactly six digits. */
  lemma SixDigits(n: nat)
    requires 100000 <= n < 1000000
    ensures |NatToString(n)| == 6 && AllDigits(NatToString(n))
  {
    var r := NatToString(n);
    DigitsMagnitude(r);
    if |r| < 6 {
      PowMonotone(|r|, 5);
      assert false;
    } else if |r| > 6 {
      PowMonotone(6, |r| - 1);
      assert false;
    }
  }

  lemma {:induction false} PowMonotone(i: nat, j: nat)
    requires i <= j
    ensures Pow10(i) <= Pow10(j)
  {
    if i < j {
      PowMonotone(i, j - 1);
    }
  }
}

=== FILE: toast_store.dfy ===
/** The web client's toast store: a list of notifications, appended to by
    `addToast` and filtered by `removeToast`. The fresh id (`randomUUID`, or
    a clock-and-random fallback) is a parameter. */
module ToastStore {
  import opened Wrappers

  const DEFAULT_DURATION_MS: int := 3500

  datatype ToastVariant = Info | Success | Error

  datatype ToastItem = ToastItem(
    id: string,
    title: string,
    description: Option<string>,
    variant: ToastVariant,
    durationMs: int)

  /** What a caller passes to `addToast`: everything but the id, with an
      optional duration. */
  datatype ToastInput = ToastInput(
    title: string,
    description: Option<string>,
    variant: ToastVariant,
    durationMs: Option<int>)

  /** The toast `addToast` builds: the caller's fields, the fresh id, and
      the duration defaulting to 3500 ms. */
  function MakeToast(id: string, input: ToastInput): (t: ToastItem)
    ensures t.id == id && t.title == input.title && t.description == input.description
    ensures t.variant == input.variant
    ensures input.durationMs.None? ==> t.durationMs == DEFAULT_DURATION_MS
    ensures input.durationMs.Some? ==> t.durationMs == input.durationMs.value
  {
    ToastItem(id, input.title, input.description, input.variant, input.durationMs.GetOr(DEFAULT_DURATION_MS))
  }

  /** `toasts.filter(toast => toast.id !== id)`: every toast but those with
      this id, in their order. */
  function Without(toasts: seq<ToastItem>, id: string): (r: seq<ToastItem>)
    ensures |r| <= |toasts|
    ensures forall t :: t in r <==> t in toasts && t.id != id
  {
    if toasts == [] then []
    else if toasts[0].id == id then Without(toasts[1..], id)
    else [toasts[0]] + Without(toasts[1..], id)
  }

  /** Filtering distributes over concatenation, so the survivors keep their
      relative order. */
  lemma {:induction false} WithoutAppend(a: seq<ToastItem>, b: seq<ToastItem>, id: string)
    ensures Without(a + b, id) == Without(a, id) + Without(b, id)
  {
    if a == [] {
      assert a + b == b;
    } else {
      assert (a + b)[1..] == a[1..] + b;
      WithoutAppend(a[1..], b, id);
    }
  }

  /** Removing an id no toast carries changes nothing. */
  lemma {:induction false} WithoutUnknownId(toasts: seq<ToastItem>, id: string)
    requires forall t :: t in toasts ==> t.id != id
    ensures Without(toasts, id) == toasts
  {
    if toasts != [] {
      assert toasts[0] in toasts;
      WithoutUnknownId(toasts[1..], id);
      assert [toasts[0]] + toasts[1..] == toasts;
    }
  }

  /** Removing twice is removing once. */
  lemma WithoutIdempotent(toasts: seq<ToastItem>, id: string)
    ensures Without(Without(toasts, id), id) == Without(toasts, id)
  {
    WithoutUnknownId(Without(toasts, id), id);
  }

  /** Adding a toast with a fresh id and removing that id gives back the
      list as it was. */
  lemma AddThenRemove(toasts: seq<ToastItem>, id: string, input: ToastInput)
    requires forall t :: t in toasts ==> t.id != id
    ensures Without(toasts + [MakeToast(id, input)], id) == toasts
  {
    WithoutAppend(toasts, [MakeToast(id, input)], id);
    WithoutUnknownId(toasts, id);
    assert Without([MakeToast(id, input)], id) == [];
  }

  class ToastState {
    var toasts: seq<ToastItem>

    /** The store starts with no toasts. */
    constructor ()
      ensures toasts == []
    {
      toasts := [];
    }

    /** `addToast`: appends the new toast after the existing ones and
        returns its id. */
    method AddToast(input: ToastInput, newId: string) returns (id: string)
      modifies this
      ensures id == newId
      ensures toasts == old(toasts) + [MakeToast(newId, input)]
    {
      id := newId;
      toasts := toasts + [MakeToast(id, input)];
    }

    /** `removeToast`: drops every toast with this id. */
    method RemoveToast(id: string)
      modifies this
      ensures toasts == Without(old(toasts), id)
    {
      toasts := Without(toasts, id);
    }

    /** `clearToasts` */
    method ClearToasts()
      modifies this
      ensures toasts == []
    {
      toasts := [];
    }
  }
}

=== FILE: use_room_realtime.dfy ===
/** The web client's live room subscription (`useRoomRealtime`): while a
    page shows some rooms or hotels it joins their topics whenever the
    socket connects, keeps the last relevant update, and refetches the
    page's queries on every reconnect and every relevant update. The socket
    and the query cache are recorded as logs: `emitted` holds the messages
    sent to the server, `invalidated` the query keys refetched, and
    `listeners` the socket events this hook is registered for. */
module UseRoomRealtime {
  import opened Wrappers

  /** A query-cache key. */
  type QueryKey = seq<string>

  /** An update pushed by the server on `room:update` or `hotel:update`. */
  datatype RoomUpdateEvent = RoomUpdateEvent(roomId: Option<string>, hotelId: Option<string>, status: Option<string>)

  /** A message the hook sends on the socket. */
  datatype Outgoing = RoomJoin(roomId: string) | HotelJoin(hotelId: string)

  /** The socket events the hook listens to. */
  datatype SocketEvent = Connect | Disconnect | RoomUpdate | HotelUpdate

  const HANDLED: set<SocketEvent> := {Connect, Disconnect, RoomUpdate, HotelUpdate}

  /** The joins sent on connect: one `room:join` per room id, then one
      `hotel:join` per hotel id, each in list order. */
  function JoinMessages(roomIds: seq<string>, hotelIds: seq<string>): (r: seq<Outgoing>)
    ensures |r| == |roomIds| + |hotelIds|
  {
    seq(|roomIds|, i requires 0 <= i < |roomIds| => RoomJoin(roomIds[i]))
    + seq(|hotelIds|, j requires 0 <= j < |hotelIds| => HotelJoin(hotelIds[j]))
  }

  /** Every listed id is joined, nothing else is, and every room join comes
      before every hotel join. */
  lemma JoinsCoverIds(roomIds: seq<string>, hotelIds: seq<string>)
    ensures forall id :: RoomJoin(id) in JoinMessages(roomIds, hotelIds) <==> id in roomIds
    ensures forall id :: HotelJoin(id) in JoinMessages(roomIds, hotelIds) <==> id in hotelIds
    ensures forall i, j :: 0 <= i < j < |roomIds| + |hotelIds| ==>
      !(JoinMessages(roomIds, hotelIds)[i].HotelJoin? && JoinMessages(roomIds, hotelIds)[j].RoomJoin?)
  {
    var r := JoinMessages(roomIds, hotelIds);
    forall id ensures RoomJoin(id) in r <==> id in roomIds {
      if id in roomIds {
        var i :| 0 <= i < |roomIds| && roomIds[i] == id;
        assert r[i] == RoomJoin(id);
      }
    }
    forall id ensures HotelJoin(id) in r <==> id in hotelIds {
      if id in hotelIds {
        var j :| 0 <= j < |hotelIds| && hotelIds[j] == id;
        assert r[|roomIds| + j] == HotelJoin(id);
      }
      if HotelJoin(id) in r {
        var k :| 0 <= k < |r| && r[k] == HotelJoin(id);
        assert hotelIds[k - |roomIds|] == id;
      }
    }
  }

  /** An id counts only when present and non-empty: `!event?.roomId` treats
      the empty string as missing. */
  predicate Given(id: Option<string>) {
    id.Some? && id.value != ""
  }

  /** `handleEvent`'s filter: the event's room is one of the page's rooms,
      or its hotel one of the page's hotels. */
  predicate Accepted(e: RoomUpdateEvent, roomIds: seq<string>, hotelIds: seq<string>) {
    (Given(e.roomId) && e.roomId.value in roomIds) || (Given(e.hotelId) && e.hotelId.value in hotelIds)
  }

  /** An update naming neither a listed room nor a listed hotel is ignored,
      even when an empty id appears in the lists. */
  lemma BlankIdsAreIgnored(status: Option<string>, roomIds: seq<string>, hotelIds: seq<string>)
    ensures !Accepted(RoomUpdateEvent(Some(""), Some(""), status), roomIds, hotelIds)
    ensures !Accepted(RoomUpdateEvent(None, None, status), roomIds, hotelIds)
  {
  }

  /** Adding ids to the lists never makes an accepted event rejected. */
  lemma AcceptedMonotone(e: RoomUpdateEvent, roomIds: seq<string>, hotelIds: seq<string>,
                         moreRooms: seq<string>, moreHotels: seq<string>)
    requires Accepted(e, roomIds, hotelIds)
    ensures Accepted(e, roomIds + moreRooms, hotelIds + moreHotels)
  {
  }

  class RoomRealtime {
    const roomIds: seq<string>
    const hotelIds: seq<string>
    const resyncQueryKeys: seq<QueryKey>
    /** Whether `getSocket()` gave a socket (it does not during server-side
        rendering). */
    const hasSocket: bool
    /** Whether that socket is already connected when the hook subscribes. */
    const socketConnected: bool

    var isConnected: bool
    var latestEvent: Option<RoomUpdateEvent>
    var emitted: seq<Outgoing>
    var invalidated: seq<QueryKey>
    var listeners: set<SocketEvent>

    /** The hook's first render: not connected, no event, nothing sent,
        nothing registered. */
    constructor (roomIds: seq<string>, hotelIds: seq<string>, resyncQueryKeys: seq<QueryKey>,
                 hasSocket: bool, socketConnected: bool)
      ensures this.roomIds == roomIds && this.hotelIds == hotelIds && this.resyncQueryKeys == resyncQueryKeys
      ensures this.hasSocket == hasSocket && this.socketConnected == socketConnected
      ensures !isConnected && latestEvent.None? && emitted == [] && invalidated == [] && listeners == {}
    {
      this.roomIds := roomIds;
      this.hotelIds := hotelIds;
      this.resyncQueryKeys := resyncQueryKeys;
      this.hasSocket := hasSocket;
      this.socketConnected := socketConnected;
      isConnected := false;
      latestEvent := None;
      emitted := [];
      invalidated := [];
      listeners := {};
    }

    /** Whether the effect does anything: a socket, and something to watch. */
    predicate Active()
    {
      hasSocket && (|roomIds| > 0 || |hotelIds| > 0)
    }

    /** `joinAll` */
    method JoinAll()
      modifies this
      ensures emitted == old(emitted) + JoinMessages(roomIds, hotelIds)
      ensures isConnected == old(isConnected) && latestEvent == old(latestEvent)
      ensures invalidated == old(invalidated) && listeners == old(listeners)
    {
      ghost var start := emitted;
      for i := 0 to |roomIds|
        invariant emitted == start + seq(i, k requires 0 <= k < i => RoomJoin(roomIds[k]))
        invariant isConnected == old(isConnected) && latestEvent == old(latestEvent)
        invariant invalidated == old(invalidated) && listeners == old(listeners)
      {
        emitted := emitted + [RoomJoin(roomIds[i])];
      }
      ghost var afterRooms := emitted;
      for j := 0 to |hotelIds|
        invariant emitted == afterRooms + seq(j, k requires 0 <= k < j => HotelJoin(hotelIds[k]))
        invariant isConnected == old(isConnected) && latestEvent == old(latestEvent)
        invariant invalidated == old(invalidated) && listeners == old(listeners)
      {
        emitted := emitted + [HotelJoin(hotelIds[j])];
      }
    }

    /** `resync`: every configured query key is invalidated, in order. */
    method Resync()
      modifies this
      ensures invalidated == old(invalidated) + resyncQueryKeys
      ensures isConnected == old(isConnected) && latestEvent == old(latestEvent)
      ensures emitted == old(emitted) && listeners == old(listeners)
    {
      ghost var start := invalidated;
      for i := 0 to |resyncQueryKeys|
        invariant invalidated == start + resyncQueryKeys[..i]
        invariant isConnected == old(isConnected) && latestEvent == old(latestEvent)
        invariant emitted == old(emitted) && listeners == old(listeners)
      {
        invalidated := invalidated + [resyncQueryKeys[i]];
      }
    }

    /** `onConnect`: connected, every topic joined, every query refetched. */
    method OnConnect()
      modifies this
      ensures isConnected
      ensures emitted == old(emitted) + JoinMessages(roomIds, hotelIds)
      ensures invalidated == old(invalidated) + resyncQueryKeys
      ensures latestEvent == old(latestEvent) && listeners == old(listeners)
    {
      isConnected := true;
      JoinAll();
      Resync();
    }

    /** `onDisconnect`: only the connected flag changes. */
    method OnDisconnect()
      modifies this
      ensures !isConnected
      ensures latestEvent == old(latestEvent) && emitted == old(emitted)
      ensures invalidated == old(invalidated) && listeners == old(listeners)
    {
      isConnected := false;
    }

    /** `handleEvent`: an accepted update becomes the latest one and
        refetches the same keys a reconnect does; any other update changes
        nothing. */
    method HandleEvent(e: RoomUpdateEvent)
      modifies this
      ensures Accepted(e, roomIds, hotelIds) ==>
        latestEvent == Some(e) && invalidated == old(invalidated) + resyncQueryKeys
      ensures !Accepted(e, roomIds, hotelIds) ==>
        latestEvent == old(latestEvent) && invalidated == old(invalidated)
      ensures isConnected == old(isConnected) && emitted == old(emitted) && listeners == old(listeners)
    {
      var byRoom := e.roomId.Some? && e.roomId.value != "" && e.roomId.value in roomIds;
      if !byRoom {
        var byHotel := e.hotelId.Some? && e.hotelId.value != "" && e.hotelId.value in hotelIds;
        if !byHotel {
          return;
        }
      }
      latestEvent := Some(e);
      Resync();
    }

    /** The effect's setup: nothing without a socket or without ids;
        otherwise, when the socket is already connected, `onConnect` runs at
        once, and the four handlers are registered. */
    method Subscribe()
      modifies this
      ensures !Active() ==>
        && isConnected == old(isConnected) && emitted == old(emitted)
        && invalidated == old(invalidated) && listeners == old(listeners)
      ensures Active() ==> listeners == old(listeners) + HANDLED
      ensures Active() && socketConnected ==>
        && isConnected
        && emitted == old(emitted) + JoinMessages(roomIds, hotelIds)
        && invalidated == old(invalidated) + resyncQueryKeys
      ensures !(Active() && socketConnected) ==>
        isConnected == old(isConnected) && emitted == old(emitted) && invalidated == old(invalidated)
      ensures latestEvent == old(latestEvent)
    {
      if !hasSocket || (|roomIds| == 0 && |hotelIds| == 0) {
        return;
      }
      if socketConnected {
        OnConnect();
      }
      listeners := listeners + {Connect};
      listeners := listeners + {Disconnect};
      listeners := listeners + {RoomUpdate};
      listeners := listeners + {HotelUpdate};
    }

    /** The effect's cleanup: the four handlers are removed. When setup
        returned early there is no cleanup. */
    method Unsubscribe()
      modifies this
      ensures Active() ==> listeners == old(listeners) - HANDLED
      ensures !Active() ==> listeners == old(listeners)
      ensures isConnected == old(isConnected) && latestEvent == old(latestEvent)
      ensures emitted == old(emitted) && invalidated == old(invalidated)
    {
      if !hasSocket || (|roomIds| == 0 && |hotelIds| == 0) {
        return;
      }
      listeners := listeners - {Connect, Disconnect, RoomUpdate, HotelUpdate};
    }
  }

  /** Mounting and unmounting leaves no handler behind. */
  method MountThenUnmount(h: RoomRealtime)
    requires h.listeners == {}
    modifies h
    ensures h.listeners == {}
  {
    h.Subscribe();
    h.Unsubscribe();
  }

  /** The same accepted update handled twice refetches the same keys twice,
      exactly as two reconnects would. */
  method SameEventTwice(h: RoomRealtime, e: RoomUpdateEvent)
    requires Accepted(e, h.roomIds, h.hotelIds)
    modifies h
    ensures h.latestEvent == Some(e)
    ensures h.invalidated == old(h.invalidated) + h.resyncQueryKeys + h.resyncQueryKeys
    ensures h.emitted == old(h.emitted)
  {
    h.HandleEvent(e);
    h.HandleEvent(e);
  }
}

=== FILE: wrappers.dfy ===
/** Optional values and results: the `?? default`, `| null` and thrown-exception
    shapes of the TypeScript code, as datatypes. */
module Wrappers {

  datatype Option<+T> = None | Some(value: T) {
    /** `x ?? d` */
    function GetOr(default: T): T {
      if Some? then value else default
    }
  }

  datatype Result<+T, +E> = Ok(value: T) | Err(error: E)
}

/** The exceptions the services throw; each one carries the message of the
    `throw` it stands for, and the kind decides the HTTP status the framework
    answers with (400, 401, 403, 404) or, for `WsError`, the socket error.
    `SchemaError` is a request the zod schema refuses, naming the field; no
    filter maps it, so the framework answers 500. */
module Exceptions {

  datatype Exception =
    | BadRequest(message: string)
    | Unauthorized(message: string)
    | Forbidden(message: string)
    | NotFound(message: string)
    | WsError(message: string)
    | SchemaError(field: string)
    | TransportError
}
